=== FILE: README.md ===
# Insurance and retirement planner: a Dafny model of the calculation core

The application is a Korean insurance and personal-finance dashboard. A user
enters age, gender and the amounts of five kinds of cover: cancer, brain,
heart, medical expenses and death. The dashboard compares them with a
recommended amount per age decade and gender, and shows:

- a 0-100 "gap score" and a count of under-covered categories;
- a coloured body map and a closing sales pitch chosen from the gaps;
- a risk profile computed from health metrics;
- "insurance diet" proposals for over-covered categories;
- warnings found in the text of a policy document;
- a family-wide analysis.

Its finance half does four things:

- projects net worth year by year up to age 90;
- estimates the age of financial freedom (the 4% rule);
- runs a twelve-question money-personality test;
- keeps a timeline of planned life events.

This project models the deterministic rules behind all of these as pure
Dafny functions over immutable datatypes, and proves what they promise.
There is one module per source file:

- `Data`, `MedicalLogic`, `DietLogic` and `PolicyUtils` model `src/lib`.
- One module per component models the numeric rules of that component.
- `Page` models the state handlers of `src/app/page.tsx`.

Three modules are shared:

- `Common`: `Math.round`, `Math.min`, `join`, `includes`.
- `Types`: the records of `src/types/index.ts`.
- `Sorting`: the stable sort used by the risk dialog and the event timeline.

Arithmetic is exact. Amounts and rates are `real`. `Math.round(x)` is
`floor(x + 0.5)`. Ages, blood pressure, glucose and test scores are `int`.

JavaScript's `a || b` fallbacks are modelled explicitly as `OrOne`,
`RateOrDefault` and `ParsedOrZero`. The one place where the
source can divide by zero and then compare the result (the savings-rate
remark) uses an IEEE-style `JsNumber` with infinities and NaN.

## Model

| member | source | states |
|---|---|---|
| Common.Round | src/lib/data.ts:74 | `Math.round` returns the integer within half a unit of its argument, halves rounding up |
| Common.RoundMonotone | src/lib/data.ts:74 | rounding never reverses the order of two numbers |
| Data.GetStandardCoverage | src/lib/data.ts:54-57 | ages 20-59 get the table row of their decade and gender; every other age gets the 40s-male row whatever the gender; every recommended amount is positive |
| Data.FindRow | src/lib/data.ts:56 | the `find` over the table returns the row at the decade's position for ages 20-59, and nothing for any other age |
| Data.RowsDistinct | src/lib/data.ts:3-52 | no two table rows share both decade and gender, so `find` is unambiguous |
| Data.TablePositive | src/lib/data.ts:3-52 | every recommended amount in the table is positive, so the gap score never divides by zero on table data |
| Data.Ratio | src/lib/data.ts:68-70 | the capped ratio is at most 1, is exactly 1 when the cover reaches the standard, and is under 0.7 exactly when the cover is under 70% of the standard |
| Data.CalculateGapScore | src/lib/data.ts:60-76 | for non-negative cover the score lies in 0..100, and the gap count lies in 0..5 |
| Data.ScoreLoopMeaning | src/lib/data.ts:65-71 | the `forEach` adds exactly the five contributions and counts exactly the keys under 70% of the standard |
| Data.ScoreLoopBounds | src/lib/data.ts:65-71 | each key adds between 0 and 20 points and at most one gap |
| Data.GapScoreMeaning | src/lib/data.ts:60-76 | the score is the sum of the five contributions, rounded once at the end; a category is a gap exactly when its cover is under 70% of the standard |
| Data.FullCoverageEarnsTwenty | src/lib/data.ts:68-69 | a category earns the full 20 points exactly when its cover reaches the standard; over-coverage earns nothing more |
| Data.GapScoreMonotone | src/lib/data.ts:60-76 | raising one category's cover never lowers the score and never adds a gap |
| Data.GapScoreExtremes | src/lib/data.ts:60-76 | no cover scores 0 with five gaps; cover meeting every standard scores 100 with no gap |
| Data.UniformKeys | src/lib/data.ts:65-71 | uncovered keys are all gaps and add nothing; fully covered keys are never gaps and add 20 each |
| Data.GapsIn | src/lib/data.ts:70 | the gap list holds exactly the visited keys whose ratio is under 0.7 |
| MedicalLogic.CalculateHealthRisks | src/lib/medicalLogic.ts:55-100 | at most four entries in the order heart, brain, cancer, medical, none for death cover, each with a risk level in 1..100, so never two for one category |
| MedicalLogic.TalliesAreAdditive | src/lib/medicalLogic.ts:17-91 | the sequential `+=` accumulators equal the sum of the points of the fired rules, with those rules' reasons in check order |
| MedicalLogic.HealthRisksByCategory | src/lib/medicalLogic.ts:55-100 | each category's entry carries its clamped points and joined reasons exactly when the points are positive; glucose of 126 or more gives a flat 40 medical entry; there is never a death entry |
| MedicalLogic.PresenceConditions | src/lib/medicalLogic.ts:17-100 | heart is listed exactly when blood pressure, BMI, smoking or heart family history fires; brain likewise without BMI; cancer exactly for cancer family history or smoking; medical exactly for glucose >= 126 |
| MedicalLogic.CancerRiskAtMost70 | src/lib/medicalLogic.ts:72-91 | the cancer entry carries the additive points, which never exceed 70 |
| MedicalLogic.MiddleTierBrainHasNoReason | src/lib/medicalLogic.ts:17-26 | the 130-139 systolic tier adds 20 brain points without adding a brain reason, so such a brain entry has an empty reason |
| MedicalLogic.BmiAffectsOnlyHeart | src/lib/medicalLogic.ts:29-35 | changing BMI leaves every non-heart entry unchanged |
| MedicalLogic.GlucoseAffectsOnlyMedical | src/lib/medicalLogic.ts:94-100 | changing glucose leaves every non-medical entry unchanged |
| DietLogic.RateOrDefault | src/lib/dietLogic.ts:13-19 | every category has its own positive premium rate, so the fallback rate of 100 never applies |
| DietLogic.DietRecommendationsMeaning | src/lib/dietLogic.ts:21-44 | a proposal for a category appears exactly when its standard is positive and the cover exceeds 1.5 times it; it keeps the current amount, targets round(1.1 x standard), is high priority exactly above twice the standard, and estimates the saving from the reduction and the premium rate; proposals come in key order |
| DietLogic.RecommendationFor | src/lib/dietLogic.ts:21-44 | the proposal found for any category is that category's own rule outcome |
| DietLogic.NoOverCoverageNoProposals | src/lib/dietLogic.ts:21-44 | the list is empty exactly when no category is over 150% of a positive standard |
| DietLogic.ProposalsSaveMoney | src/lib/dietLogic.ts:29-33 | every proposal's saving is non-negative; with whole standards every target is below the current amount |
| DietLogic.ReductionAboveMinusThird | src/lib/dietLogic.ts:28-30 | above 150% of a positive standard the cover is never more than a third of a unit below the rounded target |
| DietLogic.TargetBelowCurrent | src/lib/dietLogic.ts:28-30 | with a whole positive standard the rounded target is below any cover above 1.5 times the standard |
| DietLogic.FractionalStandardTargetsAboveCurrent | src/lib/dietLogic.ts:28-33 | with a fractional standard (0.5, cover 0.8) the target exceeds the current amount, and the saving still rounds to 0 |
| DietLogic.RecommendAllOrdered | src/lib/dietLogic.ts:21-44 | visiting keys in key order yields proposals in key order |
| Common.ContainsIffPosition | src/lib/policyUtils.ts:10 | `includes` holds exactly when some position of the text starts an occurrence of the keyword |
| Common.ContainsHasPosition | src/lib/policyUtils.ts:10 | every text `includes` accepts has an occurrence of the keyword at some position |
| PolicyUtils.SkipSpaces | src/lib/policyUtils.ts:7 | skipping whitespace removes exactly the leading run and stops at a non-space character |
| PolicyUtils.NormalizeIsNormal | src/lib/policyUtils.ts:7 | normalised text has no two adjacent whitespace characters and no whitespace other than a plain space |
| PolicyUtils.NormalizeFixesNormalForm | src/lib/policyUtils.ts:7 | text already in normal form is left unchanged |
| PolicyUtils.NormalizeIdempotent | src/lib/policyUtils.ts:7 | normalising twice is normalising once |
| PolicyUtils.NormalizeKeepsVisible | src/lib/policyUtils.ts:7 | normalising keeps every non-space character, in order |
| PolicyUtils.SpaceRunCollapses | src/lib/policyUtils.ts:7 | any whitespace run between two words becomes exactly one space |
| PolicyUtils.AnalyzePolicyRisks | src/lib/policyUtils.ts:6-65 | the analysis reports at most four risks, only the five known ones, in the order the rules push them (exclusion, reduction, renewal, critical illness) |
| PolicyUtils.RuleRisksMeaning | src/lib/policyUtils.ts:10-64 | each rule's risk is in the result exactly when that rule's verdict holds; the 90-day and the general exclusion are alternatives |
| PolicyUtils.PolicyRisksMeaning | src/lib/policyUtils.ts:7-64 | each risk is reported exactly when its keywords occur in the normalised text; no id is reported twice; nothing but the five risks is reported, in rule order; a text that fires no rule gets an empty list |
| PolicyUtils.RuleRisksDistinct | src/lib/policyUtils.ts:13-58 | the reported risks have pairwise different ids |
| PolicyUtils.AnalysisIgnoresLayout | src/lib/policyUtils.ts:7 | a text and its normal form give the same analysis |
| PolicyUtils.LineBreakInKeywordStillMatches | src/lib/policyUtils.ts:7-32 | "50%", any whitespace run, then "지급" is recognised as a reduction clause |
| Sorting.Sort | src/components/PolicyRiskModal.tsx:18-22 | the sort returns a permutation of its input |
| Sorting.SortSorted | src/components/PolicyRiskModal.tsx:18-22 | the result is ordered by the key |
| Sorting.SortStable | src/components/PolicyRiskModal.tsx:18-22 | elements with equal keys keep their input order |
| Sorting.SortOfSorted | src/components/LifeEventSelector.tsx:68 | an already ordered list is returned as it is |
| PolicyRiskModal.SortedRisksMeaning | src/components/PolicyRiskModal.tsx:18-22 | the displayed risks are the input risks, critical before warning before info, with input order kept within a level |
| PolicyRiskModal.OrderedRisksUnchanged | src/components/PolicyRiskModal.tsx:18-22 | a list already ordered by severity is shown in its own order |
| PolicyRiskModal.ShowsNoRisks | src/components/PolicyRiskModal.tsx:54 | the "no risks found" view appears exactly for an empty list |
| RetirementChart.RetirementProjectionMeaning | src/components/RetirementChart.tsx:13-41 | the chart has a point for each sampled age from the current age to 90, in age order; each point shows the rounded balance of the year-by-year recurrence; it starts at the current age and is empty only past 90 |
| RetirementChart.RealRateValue | src/components/RetirementChart.tsx:15-17 | the real rate is 2/103, strictly between 0 and the 5% nominal rate |
| RetirementChart.RetiredYearFlow | src/components/RetirementChart.tsx:24-28 | from the retirement age on, a year adds twelve times pension minus expenses |
| RetirementChart.BalanceMonotone | src/components/RetirementChart.tsx:23-31 | a larger starting balance never gives a smaller later balance |
| RetirementChart.MoreAssetsNeverLowerChart | src/components/RetirementChart.tsx:13-41 | more assets today plot the same ages with no lower value |
| RetirementChart.SameAgesAnyStart | src/components/RetirementChart.tsx:33-40 | the plotted ages do not depend on the starting balance |
| RetirementChart.ProjectionIgnoresEventsAndTarget | src/components/RetirementChart.tsx:13-41 | planned life events and the target income play no part in the chart |
| FinanceAIAnalysis.SearchMeaning | src/components/FinanceAIAnalysis.tsx:19-31 | the loop succeeds exactly when some year before the horizon meets the target, and then counts the first such year; otherwise it counts every iteration |
| FinanceAIAnalysis.FinancialFreedomMeaning | src/components/FinanceAIAnalysis.tsx:11-31 | the freedom age is the first age before 100 at which the grown assets meet 25 times the annual expenses; when there is none it is 100 |
| FinanceAIAnalysis.FreedomAgeIsFirst | src/components/FinanceAIAnalysis.tsx:19-31 | no year before the reported freedom age meets the target |
| FinanceAIAnalysis.AlreadyFree | src/components/FinanceAIAnalysis.tsx:19-31 | someone under 100 whose assets already meet the target is free at the current age |
| FinanceAIAnalysis.HorizonYearNotCounted | src/components/FinanceAIAnalysis.tsx:19-31 | if no year before the horizon meets the target, the result is unreached with freedom age 100, even when the horizon year would meet it |
| FinanceAIAnalysis.UnreachedMeansNoEarlyRetirement | src/components/FinanceAIAnalysis.tsx:117 | when freedom is not reached before 100, early retirement is claimed only for a retirement age above 100 |
| FinanceAIAnalysis.AggressiveRemarkUnreachable | src/components/FinanceAIAnalysis.tsx:42-51 | as written, the aggressive remark is never given; an all-stock portfolio is called balanced |
| FinanceAIAnalysis.AllocationAdviceMeaning | src/components/FinanceAIAnalysis.tsx:42-51 | for a positive total: the cash remark for over 50% cash; else the crypto remark for over 20% crypto; else the aggressive remark for over 70% stock |
| FinanceAIAnalysis.ReportAllocationMeaning | src/components/FinanceAIAnalysis.tsx:12-51 | the report as written never gives the aggressive remark; with a positive six-field total it is cash-heavy above half the total, crypto-heavy above a fifth, and balanced otherwise, whatever the stock share; with a zero total the fields are compared with 1 |
| FinanceAIAnalysis.IntendedReportAllocationMeaning | src/components/FinanceAIAnalysis.tsx:12-51 | the corrected report (stock ratio in the aggressive branch) agrees with the written one except that it gives the aggressive remark exactly when cash and crypto are under their thresholds and stock exceeds 70% of a positive total |
| FinanceAIAnalysis.JsDivide | src/components/FinanceAIAnalysis.tsx:54 | division by a non-zero number is exact; division by zero gives an infinity of the dividend's sign, or NaN for 0/0 |
| FinanceAIAnalysis.SavingsAdviceMeaning | src/components/FinanceAIAnalysis.tsx:54-62 | with income, the seed-money remark means expenses above 90% of income and the praise means expenses under half; with no income, positive expenses get the seed-money remark and zero expenses the moderate one |
| FinanceSummaryHeader.TotalAssetsMeaning | src/components/FinanceSummaryHeader.tsx:14-21 | without tracked positions the total is the numeric-field sum; a position appended to the tracked stocks or to the tracked crypto adds its quantity times its price |
| FinanceSummaryHeader.PositionsValueAppend | src/components/FinanceSummaryHeader.tsx:18-19 | a new position adds its quantity times its price to the list's value |
| FinanceSummaryHeader.TargetCorpusMeaning | src/components/FinanceSummaryHeader.tsx:30-33 | with non-zero expenses the corpus is 300 monthly expenses, the report's 25-times-annual target; with non-negative expenses it is positive |
| FinanceSummaryHeader.ProgressMeaning | src/components/FinanceSummaryHeader.tsx:35 | progress is at most 100, is 100 exactly from 99.5% of the corpus, and is non-negative for non-negative assets and expenses |
| FinanceSummaryHeader.ProgressMonotone | src/components/FinanceSummaryHeader.tsx:35 | more cash never shows less progress |
| FinanceSummaryHeader.DisplayedSavingsRateMeaning | src/components/FinanceSummaryHeader.tsx:100 | with income the header shows the report's savings rate rounded, within 0..100 when 0 <= expenses <= income; without income it shows 0 |
| FinancialMbtiTest.HandleAnswer | src/components/FinancialMbtiTest.tsx:47-67 | an answer moves to the next question, except on the last question, which finishes the test |
| FinancialMbtiTest.Run | src/components/FinancialMbtiTest.tsx:47-78 | answering all remaining questions always finishes, with a four-letter code |
| FinancialMbtiTest.RunMeaning | src/components/FinancialMbtiTest.tsx:47-78 | the final scores are the starting scores plus each dimension's A-minus-B count, including the last answer, and the code is read from those scores |
| FinancialMbtiTest.TakeTestMeaning | src/components/FinancialMbtiTest.tsx:47-78 | a complete test's scores are the per-dimension A-minus-B counts and its code is read from them |
| FinancialMbtiTest.TallyByDimension | src/components/FinancialMbtiTest.tsx:17-37 | each dimension is decided by its own three questions only |
| FinancialMbtiTest.VoteValues | src/components/FinancialMbtiTest.tsx:53-58 | three answers give -3, -1, 1 or 3, positive exactly for a majority of A |
| FinancialMbtiTest.FlippedAnswersOppositeType | src/components/FinancialMbtiTest.tsx:69-78 | swapping every answer gives the opposite letter in every position |
| FinancialMbtiTest.FinalScoreValues | src/components/FinancialMbtiTest.tsx:53-78 | no final score is zero, so no letter falls to the tie-breaking default |
| FinancialMbtiResult.ProfileKey | src/components/FinancialMbtiResult.tsx:41 | the shown profile is the code's own when the table has it and "RSPL" otherwise |
| FinancialMbtiResult.ProfileKeysComplete | src/components/FinancialMbtiResult.tsx:19-38 | the sixteen keys are exactly the codes with one letter from each pair |
| FinancialMbtiResult.TestResultHasOwnProfile | src/components/FinancialMbtiResult.tsx:41 | every completed test has its own profile, so the fallback is never used for a test result |
| FinancialMbtiResult.ChartValuesOfTest | src/components/FinancialMbtiResult.tsx:43-48 | the radar values of a completed test are -10, 30, 70 or 110, so the extremes plot outside 0..100 |
| FamilyAnalysisResult.PlusAlgebra | src/components/FamilyAnalysisResult.tsx:18-32 | adding up cover is commutative and associative with the zero record as identity, so the running totals do not depend on how members are grouped |
| FamilyAnalysisResult.TotalsMeaning | src/components/FamilyAnalysisResult.tsx:18-32 | each total is the plain sum over the members |
| FamilyAnalysisResult.TotalsIgnoreOrder | src/components/FamilyAnalysisResult.tsx:18-32 | rotating the member list (two groups in either order) gives the same totals |
| FamilyAnalysisResult.TotalsWithout | src/components/FamilyAnalysisResult.tsx:18-32 | taking one member out of the list takes exactly that member's cover out of every category total |
| FamilyAnalysisResult.TotalsOfPermutation | src/components/FamilyAnalysisResult.tsx:18-32 | any reordering of the members gives the same totals: they depend only on the multiset of members |
| FamilyAnalysisResult.IdealIsFamilyAtPerMemberLevel | src/components/FamilyAnalysisResult.tsx:38-44 | the family recommendation equals the totals of a family whose every member holds exactly the per-member amounts |
| FamilyAnalysisResult.IdealAdditive | src/components/FamilyAnalysisResult.tsx:38-44 | the recommendation for two groups of members is the sum of the two groups' recommendations |
| FamilyAnalysisResult.ChartDataMeaning | src/components/FamilyAnalysisResult.tsx:46-52 | row i plots category i with the summed cover against the scaled recommendation; its full mark is 1.5 times the recommendation for the first three categories and 1.2 for the rest |
| FamilyAnalysisResult.NoMedicalMembers | src/components/FamilyAnalysisResult.tsx:60-61 | exactly the members with zero medical cover are kept |
| FamilyAnalysisResult.MedicalWarningMeaning | src/components/FamilyAnalysisResult.tsx:60-63 | the medical warning appears exactly when some member has no medical cover, and it is then the first card and names the members the filter keeps |
| FamilyAnalysisResult.NoMedicalMembersAppend | src/components/FamilyAnalysisResult.tsx:60-61 | the filter keeps list order and multiplicity: filtering two groups is filtering each and concatenating |
| FamilyAnalysisResult.NoMedicalMembersSingle | src/components/FamilyAnalysisResult.tsx:60-61 | one member is kept exactly when its medical cover is zero |
| FamilyAnalysisResult.MedicalWarningInListOrder | src/components/FamilyAnalysisResult.tsx:60-63 | the warning names the uncovered members in member order: a first group's before a second group's |
| FamilyAnalysisResult.CancerWarningShape | src/components/FamilyAnalysisResult.tsx:60-70 | the warnings are the medical card, if any, followed by the cancer card exactly when cancer cover is short |
| FamilyAnalysisResult.CancerWarningMeaning | src/components/FamilyAnalysisResult.tsx:66-70 | the cancer warning appears exactly when summed cancer cover is under 1500 per member |
| FamilyAnalysisResult.CancerReadyMeaning | src/components/FamilyAnalysisResult.tsx:66-70 | the cancer good card appears exactly when summed cancer cover reaches 1500 per member |
| FamilyAnalysisResult.PlaceholderNeverShown | src/components/FamilyAnalysisResult.tsx:157-161 | the cancer rule always adds a card, so the "no insight" placeholder is never shown |
| FamilyAnalysisResult.EmptyFamilyPraised | src/components/FamilyAnalysisResult.tsx:60-70 | an empty family gets no warning and the cancer good card |
| Common.OrOne | src/components/BodyMapVis.tsx:15 | the fallback for a standard (and for the report's asset total, FinanceAIAnalysis.tsx:34) is never zero, equals any non-zero value, and turns zero into 1 |
| BodyMapVis.StatsIgnoreDeath | src/components/BodyMapVis.tsx:20-25 | neither the user's nor the standard's death amount reaches the map, and every drawn ratio is at most 1.2 |
| BodyMapVis.BodyRatioMeaning | src/components/BodyMapVis.tsx:14-18 | the ratio never exceeds 1.2, is non-negative for non-negative amounts, is the plain quotient below the cap, and reads a zero standard as 1 |
| BodyMapVis.ColorMeaning | src/components/BodyMapVis.tsx:29-33 | red means under half the standard, amber under 80%, green the rest |
| BodyMapVis.ColorsAgainstGaps | src/components/BodyMapVis.tsx:29-33 | a red region is always a gap of the score and a green one never is |
| BodyMapVis.ColorMonotone | src/components/BodyMapVis.tsx:14-33 | more cover never moves a region to a more severe colour |
| BodyMapVis.AmberStraddlesGapLine | src/components/BodyMapVis.tsx:29-33 | an amber region can be a gap (60% covered) or not (75% covered) |
| ScoreCard.StatusBands | src/components/ScoreCard.tsx:10-14 | the badges partition the scores at 80 and 50, each boundary belonging to the better badge |
| ScoreCard.StatusMonotone | src/components/ScoreCard.tsx:10-14 | a higher score never shows a worse badge |
| ScoreCard.BadgeAgainstGaps | src/components/ScoreCard.tsx:10-14 | for non-negative cover with no gap the score is at least 70 and never red; with four or more gaps it is at most 76 and never green |
| ScoreCard.BadgeExtremes | src/components/ScoreCard.tsx:10-14 | no cover at all is dangerous; meeting every standard is safe |
| AIClosing.ScriptFor | src/components/AIClosing.tsx:11-23 | with no gap the perfect pitch; otherwise the vascular pitch exactly when brain or heart is listed, the cancer pitch exactly when only cancer of the three is, and the list pitch, carrying the joined list, exactly when none of the three is |
| AIClosing.VascularOutranksCancer | src/components/AIClosing.tsx:11-23 | with cancer missing, the vascular pitch wins exactly when brain or heart is missing too |
| InsuranceDashboard.MissingItemsAreGaps | src/components/InsuranceDashboard.tsx:120-123 | the dashboard's missing list is exactly the names of the categories the score counts as gaps, in key order |
| InsuranceDashboard.MissingMatchesGapScore | src/components/InsuranceDashboard.tsx:118-124 | the list is as long as the gap count, and names a category exactly when its cover is under 70% of the standard |
| InsuranceDashboard.DashboardScriptMeaning | src/components/InsuranceDashboard.tsx:118-124 | the pitch is perfect exactly without gaps, vascular exactly when brain or heart is a gap, and cancer exactly when only cancer among the three is |
| InsuranceDashboard.RebalanceListsMedicalAndDeath | src/components/InsuranceDashboard.tsx:118-124 | the list pitch is reached only with gaps in medical or death alone, and its list is never empty |
| HealthDataInput.ToggleMeaning | src/components/HealthDataInput.tsx:27-33 | a toggle flips the tag's membership and keeps every other tag; toggling an absent tag twice restores the list |
| HealthDataInput.WithoutAppend | src/components/HealthDataInput.tsx:29 | filtering a tag out keeps the remaining tags in order |
| HealthDataInput.EditsAreLocal | src/components/HealthDataInput.tsx:23-25 | each input changes only its own field, and a blood-pressure input keeps the other reading |
| HealthDataInput.BlankFieldsReadAsZero | src/components/HealthDataInput.tsx:74-86 | a blank or unparsable BMI or glucose field is the same edit as typing 0; a cleared BMI removes exactly its BMI points from the heart risk and a cleared glucose removes the medical entry |
| HealthDataInput.TogglesUndo | src/components/HealthDataInput.tsx:27-33 | the smoking switch and the toggle of an absent tag undo themselves |
| HealthDataInput.DefaultsCarryNoRisk | src/components/HealthDataInput.tsx:13-21 | the default metrics make the risk scorer report nothing |
| HealthDataInput.CancerTagWorth50 | src/components/HealthDataInput.tsx:96-105 | switching the cancer family-history tag on adds 50 cancer points, and switching it off again restores the metrics |
| InsuranceDietSummary.Summarize | src/components/InsuranceDietSummary.tsx:11-23 | the "already optimised" card appears exactly for an empty list, otherwise one row per proposal |
| InsuranceDietSummary.TotalSavingsMeaning | src/components/InsuranceDietSummary.tsx:23 | the `reduce` adds up the same savings as the reference sum |
| InsuranceDietSummary.SummaryMeaning | src/components/InsuranceDietSummary.tsx:11-23 | the optimised card appears exactly when nothing is over-covered; otherwise the headline saving is non-negative and at least each listed saving |
| InsuranceDietSummary.BarWidthInRange | src/components/InsuranceDietSummary.tsx:79 | for a proposal with a whole standard the bar width is finite and strictly between 0% and 100% |
| InsuranceDietSummary.OtherLabelCategories | src/components/InsuranceDietSummary.tsx:58 | medical and death proposals share the "other cover" heading |
| LifeEventSelector.FindType | src/components/LifeEventSelector.tsx:69 | the search returns an entry of the asked kind, or nothing exactly when no entry has that kind |
| LifeEventSelector.DisplayTypeMeaning | src/components/LifeEventSelector.tsx:69 | a kind in the table is shown with its own entry; any other kind as the "other" entry |
| LifeEventSelector.HandleAddMeaning | src/components/LifeEventSelector.tsx:38-53 | without a selection nothing happens; with one, the event carries the selected kind, its label and the configured age and cost, and the selection is cleared |
| LifeEventSelector.SelectThenAdd | src/components/LifeEventSelector.tsx:30-53 | choosing a type and adding it at once schedules its default cost three years from now |
| LifeEventSelector.TimelineMeaning | src/components/LifeEventSelector.tsx:68 | the timeline holds the same events, youngest age first, with same-age events in insertion order |
| LifeEventSelector.TimelineIdempotent | src/components/LifeEventSelector.tsx:68 | sorting the already sorted state again changes nothing |
| Page.GapAnalysis | src/app/page.tsx:94-95 | the derived analysis has 0..5 gaps, and a score in 0..100 for non-negative cover |
| Page.ChangeUserLocal | src/app/page.tsx:109-118 | a coverage change sets exactly that category and leaves every other category and field alone; other changes keep the coverages |
| Page.RaisingCoverHelps | src/app/page.tsx:94-95 | raising a cover through the handler never lowers the score nor adds a gap |
| Page.ChangeFinanceLocal | src/app/page.tsx:124-133 | a change to any of the six numeric asset fields moves the numeric total by exactly that field's difference, a change to a tracked list leaves it alone, and every other change keeps the assets |
| Page.ConfirmResetMeaning | src/app/page.tsx:101-107 | each reset restores its own half and leaves the other alone; resetting twice is resetting once |
| Page.InitialUserAnalysis | src/app/page.tsx:21-31 | the starting user scores 47 with four gaps, a red badge |
| Page.InitialGaps | src/app/page.tsx:21-31 | the starting user's gaps are cancer, brain, heart and death |
| Page.InitialUserScript | src/app/page.tsx:21-31 | the starting user gets the vascular pitch |
| Page.InitialFinanceSavingsRate | src/app/page.tsx:34-46 | the starting finance state saves 250 a month, shown as 50% |

## Left out

- Network calls, the language-model and OCR routes, price fetching, `localStorage`, PDF export, timers and the score counter animation are outside the calculation core. So are purely presentational components and the advisory texts of the PDF report.
- Texts and formatting are not modelled: Korean and English labels, `toLocaleString` and `toFixed`. Health reason texts are paraphrased as constants. Policy risk titles and snippets are dropped, but the Korean keywords the rules match are kept literally.
- NaN as a falsy value is not modelled for `x || fallback`. `OrOne` and `ParsedOrZero` treat only zero (or a failed parse) as falsy.
- Lookups use key order. The diet rules walk `Object.entries` of the user's cover, and the model visits the keys in the order the application creates them (cancer, brain, heart, medical, death).
- RetirementChart.RetirementProjectionMeaning: requires an asset record without tracked positions. The source sums `Object.values` of the assets, and with tracked lists present that sum concatenates strings.
- FinanceAIAnalysis.FinancialFreedomMeaning: requires an asset record without tracked positions, for the same reason.
- FinanceAIAnalysis.ReportAllocation: takes the six-field sum as the asset total. With tracked lists present the source's sum concatenates strings, which is not modelled.
- The `initialFinanceState` in page.tsx has no pension, insurance or life events. The model fills them with 0 and an empty list. The source would read `undefined` there and produce NaN in the chart.
- LifeEventSelector.HandleAdd: the random identifier is a parameter, because randomness is outside the model. The function requires a form whose selection, if any, is a table kind, which holds for every form the selector produces.
- Data.CalculateGapScore: requires every standard to be positive, because the source divides by it without a guard. Every table row meets this (Data.TablePositive).
- BodyMapVis.ColorMonotone: requires a non-negative standard. A negative one reverses the order of the quotient.
- InsuranceDashboard.MissingItemsAreGaps: the missing list and the gap count are computed separately in the source; they agree in exact arithmetic. The model does not cover floating-point rounding at the 70% line.
- The projection never reads planned life events or the target income (RetirementChart.ProjectionIgnoresEventsAndTarget), so no event cost is deducted from the chart.
- The risk dialog sorts a copy of its input list; in the model every value is immutable, so that the input is not mutated holds by construction and is not stated as a contract. Likewise, that the dialog renders one item per risk follows from Sorting.Sort returning a permutation.

## Findings

| source | as written | input that shows it | evidently intended | confidence | as-written member | corrected member |
|---|---|---|---|---|---|---|
| src/components/FinanceAIAnalysis.tsx:47 | the aggressive-allocation branch tests `ratios.shares > 70`, but the ratio object has no `shares` field, so the test compares `undefined` and is always false | an all-stock portfolio: cash 0, stock 100, everything else 0, total 100; the remark is "balanced" | `ratios.stock > 70` | not executed | FinanceAIAnalysis.AggressiveRemarkUnreachable | FinanceAIAnalysis.AllocationAdviceMeaning |

=== FILE: ai_closing.dfy ===
/**
 * The closing sales script (src/components/AIClosing.tsx): one of four
 * pitches chosen from the gap count and the names of the missing categories.
 * Only the last pitch carries data (the joined list of missing keys); the
 * other three are fixed sentences.
 */
module AIClosing {
  import opened Common

  datatype Script =
    | Perfect                  // no gap: move on to retirement planning
    | Vascular                 // brain or heart cover is missing
    | CancerFocus              // cancer cover is missing
    | Rebalance(items: string) // anything else: the missing keys, joined with ", "

  /** `getScript`: the first rule that applies, in source order. */
  function ScriptFor(gapCount: int, missing: seq<string>): (r: Script)
    ensures r == Perfect <==> gapCount == 0
    ensures r == Vascular <==> gapCount != 0 && ("brain" in missing || "heart" in missing)
    ensures r == CancerFocus <==>
      gapCount != 0 && "brain" !in missing && "heart" !in missing && "cancer" in missing
    ensures r.Rebalance? <==>
      gapCount != 0 && "brain" !in missing && "heart" !in missing && "cancer" !in missing
    ensures r.Rebalance? ==> r.items == Join(missing, ", ")
  {
    if gapCount == 0 then Perfect
    else if "brain" in missing || "heart" in missing then Vascular
    else if "cancer" in missing then CancerFocus
    else Rebalance(Join(missing, ", "))
  }

  /** Brain and heart outrank cancer: a list holding both pitches the vascular script. */
  lemma VascularOutranksCancer(gapCount: int, missing: seq<string>)
    requires gapCount != 0 && "cancer" in missing
    ensures ScriptFor(gapCount, missing) == Vascular <==> "brain" in missing || "heart" in missing
    ensures ScriptFor(gapCount, missing) == CancerFocus <==> "brain" !in missing && "heart" !in missing
  {
  }

  /** The gap count alone decides the perfect pitch: the list is not consulted when it is zero. */
  lemma PerfectIgnoresList(missing: seq<string>, other: seq<string>)
    ensures ScriptFor(0, missing) == ScriptFor(0, other) == Perfect
  {
  }
}

=== FILE: body_map_vis.dfy ===
/**
 * The body-map colouring (src/components/BodyMapVis.tsx): the brain, heart,
 * cancer and medical regions are coloured by the ratio of cover to the
 * standard, capped at 120%, in three bands.
 */
module BodyMapVis {
  import opened Common
  import opened Types
  import Data

  /** `calculateRatio`: `Math.min((coverage || 0) / (standard || 1), 1.2)`. */
  function BodyRatio(current: real, target: real): real
  {
    Min(current / OrOne(target), 1.2)
  }

  /** `stats`: the ratios of the four regions the map draws; death cover has no region. */
  function Stats(user: Coverage, standard: Coverage): (r: map<Category, real>)
    ensures r.Keys == {Brain, Heart, Cancer, Medical}
    ensures forall c :: c in r ==> r[c] == BodyRatio(user.Get(c), standard.Get(c))
  {
    map c | c in {Brain, Heart, Cancer, Medical} :: BodyRatio(user.Get(c), standard.Get(c))
  }

  /**
   * Death cover has no region: neither the user's nor the standard's death
   * amount reaches the map, and every drawn ratio stays within the 1.2 cap.
   */
  lemma StatsIgnoreDeath(user: Coverage, standard: Coverage, v: real, w: real)
    ensures Stats(user.(death := v), standard.(death := w)) == Stats(user, standard)
    ensures forall c :: c in Stats(user, standard) ==> Stats(user, standard)[c] <= 1.2
  {
    var a, b := Stats(user.(death := v), standard.(death := w)), Stats(user, standard);
    assert a.Keys == b.Keys;
    forall c | c in a ensures a[c] == b[c] {
      assert c != Death;
    }
  }

  datatype Color = Red | Amber | Green

  /** `getColor`: severe gap under 50%, moderate gap under 80%, strong otherwise. */
  function ColorOf(ratio: real): Color
  {
    if ratio < 0.5 then Red else if ratio < 0.8 then Amber else Green
  }

  /** The colour of one region for a user's cover and the standard. */
  function RegionColor(user: Coverage, standard: Coverage, c: Category): Color
  {
    ColorOf(BodyRatio(user.Get(c), standard.Get(c)))
  }

  /**
   * The ratio never exceeds 1.2 and is not negative for non-negative
   * amounts; it is the plain quotient below the cap, and a zero standard
   * is read as a standard of 1.
   */
  lemma BodyRatioMeaning(current: real, target: real)
    ensures BodyRatio(current, target) <= 1.2
    ensures current >= 0.0 && target >= 0.0 ==> BodyRatio(current, target) >= 0.0
    ensures target > 0.0 ==> (BodyRatio(current, target) < 1.2 <==> current < 1.2 * target)
    ensures target > 0.0 && current < 1.2 * target ==> BodyRatio(current, target) == current / target
    ensures target == 0.0 ==> BodyRatio(current, target) == Min(current, 1.2)
  {
    if target > 0.0 {
      Data.DivCompare(current, target, 1.2);
    }
  }

  /**
   * With a positive standard the bands are cover under half the standard
   * (red), under 80% of it (amber), and the rest (green).
   */
  lemma ColorMeaning(current: real, target: real)
    requires target > 0.0
    ensures ColorOf(BodyRatio(current, target)) == Red <==> current < 0.5 * target
    ensures ColorOf(BodyRatio(current, target)) == Amber <==> 0.5 * target <= current < 0.8 * target
    ensures ColorOf(BodyRatio(current, target)) == Green <==> current >= 0.8 * target
  {
    Data.DivCompare(current, target, 0.5);
    Data.DivCompare(current, target, 0.8);
    BodyRatioMeaning(current, target);
  }

  /**
   * Against the dashboard's gap test (cover under 70% of the standard): a red
   * region is always a gap and a green one never is; amber regions fall on
   * both sides.
   */
  lemma ColorsAgainstGaps(user: Coverage, standard: Coverage, c: Category)
    requires standard.Positive()
    ensures RegionColor(user, standard, c) == Red ==> Data.IsGap(user, standard, c)
    ensures RegionColor(user, standard, c) == Green ==> !Data.IsGap(user, standard, c)
  {
    ColorMeaning(user.Get(c), standard.Get(c));
  }

  /** How severe a band is: red 2, amber 1, green 0. */
  function Severity(k: Color): int
  {
    match k
    case Red => 2
    case Amber => 1
    case Green => 0
  }

  /**
   * More cover never moves a region to a more severe band, for any
   * standard that is not negative (a negative one would reverse the order).
   */
  lemma ColorMonotone(low: real, high: real, target: real)
    requires low <= high && target >= 0.0
    ensures Severity(ColorOf(BodyRatio(high, target))) <= Severity(ColorOf(BodyRatio(low, target)))
  {
    Data.DivMonotone(low, high, OrOne(target));
  }

  /** An amber region can be a gap (60% covered) or not (75% covered). */
  lemma AmberStraddlesGapLine()
    ensures var standard := Coverage(100.0, 100.0, 100.0, 100.0, 100.0);
      var gap := standard.With(Brain, 60.0);
      var close := standard.With(Brain, 75.0);
      RegionColor(gap, standard, Brain) == Amber && Data.IsGap(gap, standard, Brain) &&
      RegionColor(close, standard, Brain) == Amber && !Data.IsGap(close, standard, Brain)
  {
    var standard := Coverage(100.0, 100.0, 100.0, 100.0, 100.0);
    ColorMeaning(60.0, 100.0);
    ColorMeaning(75.0, 100.0);
  }
}

=== FILE: common.dfy ===
/**
 * Helpers shared by every module: an optional value, JavaScript's
 * `Math.round` and `Math.min` over exact reals, `Array.prototype.join`
 * and `String.prototype.includes`.
 */
module Common {

  /** A value that may be absent (`undefined` in the source). */
  datatype Option<+T> = None | Some(value: T)

  /** `Math.round` on exact reals: the nearest integer, halves rounded up. */
  function Round(x: real): (r: int)
    ensures r as real <= x + 0.5 < r as real + 1.0
  {
    (x + 0.5).Floor
  }

  /** Rounding never reverses the order of two numbers. */
  lemma RoundMonotone(x: real, y: real)
    requires x <= y
    ensures Round(x) <= Round(y)
  {
  }

  /** A whole number is its own rounding. */
  lemma RoundOfInt(n: int)
    ensures Round(n as real) == n
  {
  }

  /** Rounding a number inside [lo, hi] with whole bounds stays inside. */
  lemma RoundWithin(x: real, lo: int, hi: int)
    requires lo as real <= x <= hi as real
    ensures lo <= Round(x) <= hi
  {
    RoundMonotone(lo as real, x);
    RoundMonotone(x, hi as real);
    RoundOfInt(lo);
    RoundOfInt(hi);
  }

  /** `Math.min` of two numbers. */
  function Min(a: real, b: real): (r: real)
    ensures r <= a && r <= b
    ensures r == a || r == b
  {
    if a <= b then a else b
  }

  /**
   * `Math.min` of two whole numbers: the risk scores and the progress bar
   * cap integer points at 100, where `Min` caps real amounts.
   */
  function MinInt(a: int, b: int): (r: int)
    ensures r <= a && r <= b
    ensures r == a || r == b
  {
    if a <= b then a else b
  }

  /**
   * `value || 1`, for a standard in the body map and for the asset total of
   * the report: zero is replaced by 1 (NaN, the other falsy number, is not
   * modelled).
   */
  function OrOne(x: real): (r: real)
    ensures r != 0.0
    ensures x != 0.0 ==> r == x
    ensures x == 0.0 ==> r == 1.0
  {
    if x == 0.0 then 1.0 else x
  }

  /** `items.join(sep)`: the items with `sep` between neighbours. */
  function Join(items: seq<string>, sep: string): (r: string)
    ensures |items| == 0 ==> r == ""
    ensures |items| == 1 ==> r == items[0]
  {
    if |items| == 0 then ""
    else if |items| == 1 then items[0]
    else items[0] + sep + Join(items[1..], sep)
  }

  /** `s.includes(p)`: `p` occurs in `s` at some position. */
  predicate Contains(s: string, p: string)
    decreases |s|
  {
    p <= s || (|s| > 0 && Contains(s[1..], p))
  }

  /** Every occurrence at a position is found by `Contains`. */
  lemma {:induction false} ContainsAt(s: string, p: string, i: nat)
    requires i + |p| <= |s| && s[i..i + |p|] == p
    ensures Contains(s, p)
    decreases i
  {
    if i == 0 {
      assert s[..|p|] == p;
    } else {
      assert s[1..][i - 1..i - 1 + |p|] == s[i..i + |p|];
      ContainsAt(s[1..], p, i - 1);
    }
  }

  /** `p` occurs in `s` starting at position `i`. */
  predicate OccursAt(s: string, p: string, i: nat)
  {
    i + |p| <= |s| && s[i..i + |p|] == p
  }

  /** Conversely, whatever `Contains` finds occurs at some position of the text. */
  lemma {:induction false} ContainsHasPosition(s: string, p: string)
    requires Contains(s, p)
    ensures exists i: nat :: OccursAt(s, p, i)
    decreases |s|
  {
    if p <= s {
      assert OccursAt(s, p, 0);
    } else {
      ContainsHasPosition(s[1..], p);
      var k: nat :| OccursAt(s[1..], p, k);
      assert s[1..][k..k + |p|] == s[k + 1..k + 1 + |p|];
      assert OccursAt(s, p, k + 1);
    }
  }

  /** `Contains` holds exactly when some position of the text starts an occurrence. */
  lemma ContainsIffPosition(s: string, p: string)
    ensures Contains(s, p) <==> exists i: nat :: OccursAt(s, p, i)
  {
    if Contains(s, p) {
      ContainsHasPosition(s, p);
    } else if exists i: nat :: OccursAt(s, p, i) {
      var i: nat :| OccursAt(s, p, i);
      ContainsAt(s, p, i);
    }
  }

  /** Nothing but the empty word occurs in the empty text. */
  lemma EmptyContainsOnlyEmpty(p: string)
    requires |p| > 0
    ensures !Contains("", p)
  {
  }
}

=== FILE: data.dfy ===
/**
 * The recommended-coverage table and the gap scorer (src/lib/data.ts).
 */
module Data {
  import opened Common
  import opened Types

  /** One row of the table: a decade bucket, a gender and its recommended cover. */
  datatype StandardEntry = StandardEntry(ageGroup: int, gender: Gender, recommended: Coverage)

  /** The eight rows, men 20s to 50s then women 20s to 50s. */
  const StandardTable: seq<StandardEntry> := [
    StandardEntry(20, Male, Coverage(5000.0, 3000.0, 3000.0, 10000.0, 10000.0)),
    StandardEntry(30, Male, Coverage(7000.0, 5000.0, 5000.0, 10000.0, 20000.0)),
    StandardEntry(40, Male, Coverage(10000.0, 7000.0, 7000.0, 10000.0, 30000.0)),
    StandardEntry(50, Male, Coverage(10000.0, 10000.0, 10000.0, 10000.0, 30000.0)),
    StandardEntry(20, Female, Coverage(5000.0, 3000.0, 3000.0, 10000.0, 5000.0)),
    StandardEntry(30, Female, Coverage(7000.0, 5000.0, 5000.0, 10000.0, 10000.0)),
    StandardEntry(40, Female, Coverage(10000.0, 7000.0, 7000.0, 10000.0, 15000.0)),
    StandardEntry(50, Female, Coverage(10000.0, 10000.0, 10000.0, 10000.0, 15000.0))
  ]

  /** The default row used when no row matches: 40s, male. */
  const FallbackIndex := 2

  /** `Math.floor(age / 10) * 10`; Dafny's division by a positive divisor floors. */
  function AgeGroup(age: int): int
  {
    (age / 10) * 10
  }

  /** `Array.prototype.find`: the first row of `table` for this bucket and gender. */
  function Find(table: seq<StandardEntry>, ageGroup: int, gender: Gender): (r: Option<StandardEntry>)
    ensures r.Some? ==> r.value in table && r.value.ageGroup == ageGroup && r.value.gender == gender
    ensures r.None? ==> forall i :: 0 <= i < |table| ==> !(table[i].ageGroup == ageGroup && table[i].gender == gender)
  {
    if |table| == 0 then None
    else if table[0].ageGroup == ageGroup && table[0].gender == gender then Some(table[0])
    else Find(table[1..], ageGroup, gender)
  }

  /** Where a bucket's row sits in the table: four rows per gender, one per decade. */
  function RowIndex(ageGroup: int, gender: Gender): int
  {
    (ageGroup - 20) / 10 + (if gender == Female then 4 else 0)
  }

  /**
   * The recommended cover for an age and gender. Ages 20 to 59 get the row of
   * their decade and gender (found at its table position); every other age,
   * negative ones included, gets the 40s-male row whatever the gender.
   */
  function GetStandardCoverage(age: int, gender: Gender): (r: Coverage)
    ensures 20 <= age < 60 ==>
      var i := RowIndex(AgeGroup(age), gender);
      0 <= i < |StandardTable| &&
      StandardTable[i].ageGroup == AgeGroup(age) &&
      StandardTable[i].gender == gender &&
      r == StandardTable[i].recommended
    ensures !(20 <= age < 60) ==> r == StandardTable[FallbackIndex].recommended
    ensures r.Positive()
  {
    FindRow(age, gender);
    match Find(StandardTable, AgeGroup(age), gender)
    case Some(e) => e.recommended
    case None => StandardTable[FallbackIndex].recommended
  }

  /** Rows are told apart by bucket and gender: no two rows share both. */
  lemma RowsDistinct()
    ensures forall i, j ::
              0 <= i < |StandardTable| && 0 <= j < |StandardTable| &&
              StandardTable[i].ageGroup == StandardTable[j].ageGroup &&
              StandardTable[i].gender == StandardTable[j].gender
              ==> i == j
  {
  }

  /** The search finds the row at the bucket's table position, or nothing outside 20 to 59. */
  lemma FindRow(age: int, gender: Gender)
    ensures 20 <= age < 60 ==>
      var i := RowIndex(AgeGroup(age), gender);
      0 <= i < |StandardTable| &&
      StandardTable[i].ageGroup == AgeGroup(age) &&
      StandardTable[i].gender == gender &&
      Find(StandardTable, AgeGroup(age), gender) == Some(StandardTable[i])
    ensures !(20 <= age < 60) ==> Find(StandardTable, AgeGroup(age), gender) == None
  {
    var g := AgeGroup(age);
    var f := Find(StandardTable, g, gender);
    if 20 <= age < 60 {
      var i := RowIndex(g, gender);
      assert g == 20 || g == 30 || g == 40 || g == 50;
      assert 0 <= i < |StandardTable|;
      assert StandardTable[i].ageGroup == g && StandardTable[i].gender == gender;
      RowsDistinct();
      if f.Some? {
        var j :| 0 <= j < |StandardTable| && StandardTable[j] == f.value;
        assert j == i;
      }
    } else {
      assert g < 20 || g >= 60;
      assert forall e :: e in StandardTable ==> e.ageGroup != g;
    }
  }

  /** Every row of the table recommends a positive amount in each category. */
  lemma TablePositive()
    ensures forall i :: 0 <= i < |StandardTable| ==> StandardTable[i].recommended.Positive()
  {
  }

  // ---------------------------------------------------------------------------
  // Gap scoring

  /** `Math.min(user / standard, 1)`: the covered share of a category, capped at 1. */
  function Ratio(user: real, standard: real): (r: real)
    requires standard > 0.0
    ensures r <= 1.0
    ensures user >= 0.0 ==> r >= 0.0
    ensures r == 1.0 <==> user >= standard
    ensures r < 0.7 <==> user < 0.7 * standard
  {
    DivCompare(user, standard, 1.0);
    DivCompare(user, standard, 0.7);
    DivCompare(user, standard, 0.0);
    Min(user / standard, 1.0)
  }

  /** Comparing a quotient with a constant is comparing the numerator with the scaled constant. */
  lemma DivCompare(u: real, d: real, k: real)
    requires d > 0.0
    ensures u / d < k <==> u < k * d
  {
    var q := u / d;
    assert u == q * d;
    if q < k {
      assert (k - q) * d > 0.0;
    } else {
      assert (q - k) * d >= 0.0;
    }
  }

  /** The points one category adds to the score: its ratio times 20. */
  function Contribution(user: Coverage, standard: Coverage, c: Category): real
    requires standard.Positive()
  {
    Ratio(user.Get(c), standard.Get(c)) * 20.0
  }

  /** The exact-arithmetic gap test: cover below 70% of the standard. */
  predicate IsGap(user: Coverage, standard: Coverage, c: Category)
  {
    user.Get(c) < 0.7 * standard.Get(c)
  }

  /** Running totals of the `forEach` loop: unrounded score and gap count. */
  datatype Tally = Tally(total: real, gaps: int)

  /** The `forEach` over `keys`, accumulating contributions and gaps into `acc`. */
  function ScoreLoop(user: Coverage, standard: Coverage, keys: seq<Category>, acc: Tally): Tally
    requires standard.Positive()
  {
    if |keys| == 0 then acc
    else
      var ratio := Ratio(user.Get(keys[0]), standard.Get(keys[0]));
      var next := Tally(acc.total + ratio * 20.0, if ratio < 0.7 then acc.gaps + 1 else acc.gaps);
      ScoreLoop(user, standard, keys[1..], next)
  }

  /** `calculateGapScore`: the loop over the five keys, rounded once at the end. */
  function CalculateGapScore(user: Coverage, standard: Coverage): (r: AnalysisResult)
    requires standard.Positive()
    ensures user.NonNegative() ==> 0 <= r.score <= 100
    ensures 0 <= r.gapCount <= 5
  {
    var t := ScoreLoop(user, standard, Categories, Tally(0.0, 0));
    ScoreLoopBounds(user, standard, Categories, Tally(0.0, 0));
    RoundInRange(t.total);
    AnalysisResult(Round(t.total), t.gaps)
  }

  lemma RoundInRange(x: real)
    ensures 0.0 <= x <= 100.0 ==> 0 <= Round(x) <= 100
  {
    if 0.0 <= x <= 100.0 {
      RoundWithin(x, 0, 100);
    }
  }

  /** The categories `keys` counts as gaps, in key order. */
  function GapsIn(user: Coverage, standard: Coverage, keys: seq<Category>): (r: seq<Category>)
    ensures forall c :: c in r <==> c in keys && IsGap(user, standard, c)
  {
    if |keys| == 0 then []
    else if IsGap(user, standard, keys[0]) then [keys[0]] + GapsIn(user, standard, keys[1..])
    else GapsIn(user, standard, keys[1..])
  }

  /** The unrounded sum of the contributions of `keys`. */
  function ContributionSum(user: Coverage, standard: Coverage, keys: seq<Category>): real
    requires standard.Positive()
  {
    if |keys| == 0 then 0.0 else Contribution(user, standard, keys[0]) + ContributionSum(user, standard, keys[1..])
  }

  /**
   * The loop adds exactly the contributions of its keys to the running total
   * and counts exactly the keys that fall under 70% of the standard.
   */
  lemma {:induction false} ScoreLoopMeaning(user: Coverage, standard: Coverage, keys: seq<Category>, acc: Tally)
    requires standard.Positive()
    ensures ScoreLoop(user, standard, keys, acc).total == acc.total + ContributionSum(user, standard, keys)
    ensures ScoreLoop(user, standard, keys, acc).gaps == acc.gaps + |GapsIn(user, standard, keys)|
    decreases |keys|
  {
    if |keys| > 0 {
      var ratio := Ratio(user.Get(keys[0]), standard.Get(keys[0]));
      var next := Tally(acc.total + ratio * 20.0, if ratio < 0.7 then acc.gaps + 1 else acc.gaps);
      ScoreLoopMeaning(user, standard, keys[1..], next);
    }
  }

  /** Each key adds between 0 and 20 points and at most one gap. */
  lemma {:induction false} ScoreLoopBounds(user: Coverage, standard: Coverage, keys: seq<Category>, acc: Tally)
    requires standard.Positive()
    ensures var t := ScoreLoop(user, standard, keys, acc);
      acc.gaps <= t.gaps <= acc.gaps + |keys| &&
      t.total <= acc.total + 20.0 * |keys| as real &&
      (user.NonNegative() ==> acc.total <= t.total)
    decreases |keys|
  {
    if |keys| > 0 {
      var ratio := Ratio(user.Get(keys[0]), standard.Get(keys[0]));
      var next := Tally(acc.total + ratio * 20.0, if ratio < 0.7 then acc.gaps + 1 else acc.gaps);
      ScoreLoopBounds(user, standard, keys[1..], next);
    }
  }

  /**
   * The score is the rounded sum of the five contributions (rounded once, at
   * the end), and the gap count is the number of categories under 70% of the
   * standard: a category is counted exactly when user < 0.7 * standard.
   */
  lemma GapScoreMeaning(user: Coverage, standard: Coverage)
    requires standard.Positive()
    ensures CalculateGapScore(user, standard).score == Round(ContributionSum(user, standard, Categories))
    ensures CalculateGapScore(user, standard).gapCount == |GapsIn(user, standard, Categories)|
    ensures forall c :: c in GapsIn(user, standard, Categories) <==> user.Get(c) < 0.7 * standard.Get(c)
  {
    ScoreLoopMeaning(user, standard, Categories, Tally(0.0, 0));
  }

  /** A fully covered category earns exactly 20 points, and over-coverage earns no more. */
  lemma FullCoverageEarnsTwenty(user: Coverage, standard: Coverage, c: Category)
    requires standard.Positive()
    ensures user.Get(c) >= standard.Get(c) <==> Contribution(user, standard, c) == 20.0
    ensures Contribution(user.With(c, 1000.0 * standard.Get(c)), standard, c)
         == Contribution(user.With(c, standard.Get(c)), standard, c)
  {
  }

  /** Raising one category's cover does not lower the loop's total nor raise its gap count. */
  lemma {:induction false} ScoreLoopMonotone(user: Coverage, standard: Coverage, c: Category, v: real,
                                             keys: seq<Category>, acc: Tally)
    requires standard.Positive()
    requires v >= user.Get(c)
    ensures var lo := ScoreLoop(user, standard, keys, acc);
            var hi := ScoreLoop(user.With(c, v), standard, keys, acc);
            lo.total <= hi.total && hi.gaps <= lo.gaps
    decreases |keys|
  {
    if |keys| > 0 {
      var k := keys[0];
      var up := user.With(c, v);
      var r1 := Ratio(user.Get(k), standard.Get(k));
      var r2 := Ratio(up.Get(k), standard.Get(k));
      assert r1 <= r2 by {
        if k == c {
          assert user.Get(k) / standard.Get(k) <= up.Get(k) / standard.Get(k) by {
            DivMonotone(user.Get(k), up.Get(k), standard.Get(k));
          }
        }
      }
      var n1 := Tally(acc.total + r1 * 20.0, if r1 < 0.7 then acc.gaps + 1 else acc.gaps);
      var n2 := Tally(acc.total + r2 * 20.0, if r2 < 0.7 then acc.gaps + 1 else acc.gaps);
      ScoreLoopMonotone(user, standard, c, v, keys[1..], n1);
      ScoreLoopShift(up, standard, keys[1..], n1, n2);
    }
  }

  /** A larger starting tally gives a larger (or equal) final tally, key by key. */
  lemma {:induction false} ScoreLoopShift(user: Coverage, standard: Coverage, keys: seq<Category>, a: Tally, b: Tally)
    requires standard.Positive()
    requires a.total <= b.total && b.gaps <= a.gaps
    ensures ScoreLoop(user, standard, keys, a).total <= ScoreLoop(user, standard, keys, b).total
    ensures ScoreLoop(user, standard, keys, b).gaps <= ScoreLoop(user, standard, keys, a).gaps
    decreases |keys|
  {
    if |keys| > 0 {
      var ratio := Ratio(user.Get(keys[0]), standard.Get(keys[0]));
      var na := Tally(a.total + ratio * 20.0, if ratio < 0.7 then a.gaps + 1 else a.gaps);
      var nb := Tally(b.total + ratio * 20.0, if ratio < 0.7 then b.gaps + 1 else b.gaps);
      ScoreLoopShift(user, standard, keys[1..], na, nb);
    }
  }

  lemma DivMonotone(x: real, y: real, d: real)
    requires d > 0.0 && x <= y
    ensures x / d <= y / d
  {
    assert y / d - x / d == (y - x) / d;
  }

  /** Raising one user value never decreases the score and never increases the gap count. */
  lemma GapScoreMonotone(user: Coverage, standard: Coverage, c: Category, v: real)
    requires standard.Positive()
    requires v >= user.Get(c)
    ensures CalculateGapScore(user, standard).score <= CalculateGapScore(user.With(c, v), standard).score
    ensures CalculateGapScore(user.With(c, v), standard).gapCount <= CalculateGapScore(user, standard).gapCount
  {
    var t1 := ScoreLoop(user, standard, Categories, Tally(0.0, 0));
    var t2 := ScoreLoop(user.With(c, v), standard, Categories, Tally(0.0, 0));
    ScoreLoopMonotone(user, standard, c, v, Categories, Tally(0.0, 0));
    RoundMonotone(t1.total, t2.total);
  }

  /** No cover at all scores 0 with five gaps; cover at or above the standard everywhere scores 100 with none. */
  lemma GapScoreExtremes(standard: Coverage, full: Coverage)
    requires standard.Positive()
    requires forall c :: full.Get(c) >= standard.Get(c)
    ensures CalculateGapScore(Coverage(0.0, 0.0, 0.0, 0.0, 0.0), standard) == AnalysisResult(0, 5)
    ensures CalculateGapScore(full, standard) == AnalysisResult(100, 0)
  {
    var zero := Coverage(0.0, 0.0, 0.0, 0.0, 0.0);
    GapScoreMeaning(zero, standard);
    GapScoreMeaning(full, standard);
    UniformKeys(zero, standard, Categories);
    UniformKeys(full, standard, Categories);
    RoundOfInt(0);
    RoundOfInt(100);
  }

  /**
   * Keys that are all uncovered are all gaps and add nothing; keys that are
   * all fully covered are no gaps and add 20 points each.
   */
  lemma {:induction false} UniformKeys(user: Coverage, standard: Coverage, keys: seq<Category>)
    requires standard.Positive()
    ensures (forall c :: user.Get(c) == 0.0) ==>
      GapsIn(user, standard, keys) == keys && ContributionSum(user, standard, keys) == 0.0
    ensures (forall c :: user.Get(c) >= standard.Get(c)) ==>
      GapsIn(user, standard, keys) == [] && ContributionSum(user, standard, keys) == 20.0 * |keys| as real
    decreases |keys|
  {
    if |keys| > 0 {
      UniformKeys(user, standard, keys[1..]);
      assert keys == [keys[0]] + keys[1..];
    }
  }
}

=== FILE: diet_logic.dfy ===
/**
 * The over-coverage "insurance diet" recommender (src/lib/dietLogic.ts).
 * A category covered above 150% of its standard gets a proposal to cut it
 * back to 110% of the standard, with an estimated monthly premium saving.
 */
module DietLogic {
  import opened Common
  import opened Types

  /** Premium per unit of reduction, per category. */
  function PremiumRate(c: Category): int
  {
    match c
    case Cancer => 120
    case Brain => 150
    case Heart => 150
    case Death => 40
    case Medical => 2
  }

  /** `premiumRates[cat] || 100`: the fallback 100 applies only to a zero or missing rate. */
  function RateOrDefault(c: Category): (r: int)
    ensures r == PremiumRate(c) && r > 0
  {
    if PremiumRate(c) != 0 then PremiumRate(c) else 100
  }

  /** The proposal for one category, or none when its standard is not positive or it is not over 150%. */
  function Recommend(user: Coverage, standard: Coverage, c: Category): Option<DietRecommendation>
  {
    var amount := user.Get(c);
    var std := standard.Get(c);
    if std <= 0.0 then None
    else if amount > std * 1.5 then
      var target := Round(std * 1.1);
      var reduction := amount - target as real;
      var savings := Round((reduction / 100.0) * RateOrDefault(c) as real);
      Some(DietRecommendation(c, amount, target, savings, if amount > std * 2.0 then High else Medium))
    else None
  }

  /** The `forEach` over the coverage keys, collecting proposals in key order. */
  function RecommendAll(user: Coverage, standard: Coverage, keys: seq<Category>): seq<DietRecommendation>
  {
    if |keys| == 0 then []
    else
      match Recommend(user, standard, keys[0])
      case Some(rec) => [rec] + RecommendAll(user, standard, keys[1..])
      case None => RecommendAll(user, standard, keys[1..])
  }

  /**
   * `calculateDietRecommendations`. The second rule of the source (the
   * medical indemnity check) has an empty body and adds nothing.
   */
  function CalculateDietRecommendations(user: Coverage, standard: Coverage): seq<DietRecommendation>
  {
    RecommendAll(user, standard, Categories)
  }

  /** The trigger condition: a positive standard exceeded by more than half. */
  predicate OverCovered(user: Coverage, standard: Coverage, c: Category)
  {
    standard.Get(c) > 0.0 && user.Get(c) > 1.5 * standard.Get(c)
  }

  /** The first proposal for category `c`, if any. */
  function Lookup(recs: seq<DietRecommendation>, c: Category): (r: Option<DietRecommendation>)
    ensures r.Some? ==> r.value in recs && r.value.category == c
    ensures r.None? <==> forall i :: 0 <= i < |recs| ==> recs[i].category != c
  {
    if |recs| == 0 then None
    else if recs[0].category == c then Some(recs[0])
    else Lookup(recs[1..], c)
  }

  /** Position of a category in the coverage key order. */
  function KeyIndex(c: Category): int
  {
    match c
    case Cancer => 0
    case Brain => 1
    case Heart => 2
    case Medical => 3
    case Death => 4
  }

  /** Keys listed in strictly increasing key order (so each at most once). */
  predicate Ascending(keys: seq<Category>)
  {
    forall i, j :: 0 <= i < j < |keys| ==> KeyIndex(keys[i]) < KeyIndex(keys[j])
  }

  /** Proposals listed in strictly increasing key order (so at most one per category). */
  predicate InKeyOrder(r: seq<DietRecommendation>)
  {
    forall i, j :: 0 <= i < j < |r| ==> KeyIndex(r[i].category) < KeyIndex(r[j].category)
  }

  /** Every proposal's key index is at least `b` when every visited key's is. */
  lemma {:induction false} RecommendAllAbove(user: Coverage, standard: Coverage, keys: seq<Category>, b: int)
    requires forall k :: 0 <= k < |keys| ==> KeyIndex(keys[k]) >= b
    ensures forall i :: 0 <= i < |RecommendAll(user, standard, keys)| ==>
      KeyIndex(RecommendAll(user, standard, keys)[i].category) >= b
    decreases |keys|
  {
    if |keys| > 0 {
      assert forall k :: 0 <= k < |keys[1..]| ==> keys[1..][k] == keys[k + 1];
      RecommendAllAbove(user, standard, keys[1..], b);
      var rest := RecommendAll(user, standard, keys[1..]);
      match Recommend(user, standard, keys[0])
      case Some(rec) =>
        assert RecommendAll(user, standard, keys) == [rec] + rest;
        assert rec.category == keys[0];
      case None =>
        assert RecommendAll(user, standard, keys) == rest;
        assert forall i :: 0 <= i < |rest| ==> KeyIndex(rest[i].category) >= b;
    }
  }

  /** Over keys in key order, the proposals come out in key order. */
  lemma {:induction false} RecommendAllOrdered(user: Coverage, standard: Coverage, keys: seq<Category>)
    requires Ascending(keys)
    ensures InKeyOrder(RecommendAll(user, standard, keys))
    decreases |keys|
  {
    if |keys| > 0 {
      assert forall k :: 0 <= k < |keys[1..]| ==> keys[1..][k] == keys[k + 1];
      RecommendAllOrdered(user, standard, keys[1..]);
      RecommendAllAbove(user, standard, keys[1..], KeyIndex(keys[0]) + 1);
      var rest := RecommendAll(user, standard, keys[1..]);
      match Recommend(user, standard, keys[0])
      case Some(rec) =>
        var r := [rec] + rest;
        assert RecommendAll(user, standard, keys) == r;
        assert rec.category == keys[0];
        assert forall j :: 1 <= j < |r| ==> r[j] == rest[j - 1];
      case None =>
        assert RecommendAll(user, standard, keys) == rest;
    }
  }

  /** Over keys in key order, the proposal found for a visited key is that key's own proposal. */
  lemma {:induction false} RecommendAllLookup(user: Coverage, standard: Coverage, keys: seq<Category>, c: Category)
    requires Ascending(keys)
    requires c in keys
    ensures Lookup(RecommendAll(user, standard, keys), c) == Recommend(user, standard, c)
    decreases |keys|
  {
    assert forall k :: 0 <= k < |keys[1..]| ==> keys[1..][k] == keys[k + 1];
    var rest := RecommendAll(user, standard, keys[1..]);
    if c == keys[0] {
      RecommendAllAbove(user, standard, keys[1..], KeyIndex(keys[0]) + 1);
      assert Lookup(rest, c).None?;
    } else {
      assert c in keys[1..];
      RecommendAllLookup(user, standard, keys[1..], c);
    }
    match Recommend(user, standard, keys[0])
    case Some(rec) =>
      assert RecommendAll(user, standard, keys) == [rec] + rest;
      assert ([rec] + rest)[1..] == rest;
    case None =>
      assert RecommendAll(user, standard, keys) == rest;
  }

  /** The coverage keys are listed in key order. */
  lemma CategoriesAscending()
    ensures Ascending(Categories)
  {
    forall i, j | 0 <= i < j < |Categories|
      ensures KeyIndex(Categories[i]) < KeyIndex(Categories[j])
    {
      assert forall k :: 0 <= k < |Categories| ==> KeyIndex(Categories[k]) == k;
    }
  }

  /** The proposal found for any category is that category's own proposal. */
  lemma RecommendationFor(user: Coverage, standard: Coverage, c: Category)
    ensures Lookup(CalculateDietRecommendations(user, standard), c) == Recommend(user, standard, c)
  {
    assert Categories[KeyIndex(c)] == c;
    CategoriesAscending();
    RecommendAllLookup(user, standard, Categories, c);
  }

  /**
   * A proposal for `c` is emitted exactly when its standard is positive and
   * the cover exceeds 1.5 times it. The proposal keeps the current amount,
   * targets round(1.1 * standard), is high priority exactly above twice the
   * standard, and estimates the saving as round(reduction / 100 * rate).
   * Proposals follow the key order, at most one per category.
   */
  lemma DietRecommendationsMeaning(user: Coverage, standard: Coverage, c: Category)
    ensures InKeyOrder(CalculateDietRecommendations(user, standard))
    ensures Lookup(CalculateDietRecommendations(user, standard), c).Some? <==> OverCovered(user, standard, c)
    ensures var e := Lookup(CalculateDietRecommendations(user, standard), c);
      var target := Round(1.1 * standard.Get(c));
      e.Some? ==>
        e.value.currentAmount == user.Get(c) &&
        e.value.targetAmount == target &&
        (e.value.priority == High <==> user.Get(c) > 2.0 * standard.Get(c)) &&
        e.value.savingsPotential == Round((user.Get(c) - target as real) / 100.0 * PremiumRate(c) as real)
  {
    CategoriesAscending();
    RecommendAllOrdered(user, standard, Categories);
    RecommendationFor(user, standard, c);
  }

  /** No category over 150% of a positive standard exactly when there are no proposals ("already optimised"). */
  lemma NoOverCoverageNoProposals(user: Coverage, standard: Coverage)
    ensures (forall c :: !OverCovered(user, standard, c)) <==> CalculateDietRecommendations(user, standard) == []
  {
    var r := CalculateDietRecommendations(user, standard);
    if r != [] {
      DietRecommendationsMeaning(user, standard, r[0].category);
      assert Lookup(r, r[0].category).Some?;
    } else {
      forall c ensures !OverCovered(user, standard, c) {
        DietRecommendationsMeaning(user, standard, c);
      }
    }
  }

  /** A real number with no fractional part. */
  predicate IsWhole(x: real)
  {
    x == x.Floor as real
  }

  /**
   * With a whole positive standard, the target is below the current amount,
   * so every saving estimate is non-negative.
   */
  lemma TargetBelowCurrent(amount: real, std: real)
    requires IsWhole(std) && std > 0.0
    requires amount > std * 1.5
    ensures (Round(std * 1.1) as real) < amount
  {
    var t := Round(std * 1.1);
    if std == 1.0 {
      assert t == 1;
    } else {
      assert std >= 2.0;
      assert (t as real) <= std * 1.1 + 0.5;
    }
  }

  /**
   * Over 150% of a positive standard, the cover is never more than a third
   * of a unit below the rounded target, so the rounded saving is never negative.
   */
  lemma ReductionAboveMinusThird(amount: real, std: real)
    requires std > 0.0 && amount > std * 1.5
    ensures amount - Round(std * 1.1) as real > -1.0 / 3.0
  {
    var t := Round(std * 1.1);
    assert (t as real) <= std * 1.1 + 0.5;
    if t >= 2 {
      assert std >= 15.0 / 11.0;
    } else if t == 1 {
      assert std >= 5.0 / 11.0;
    }
  }

  lemma SavingNonNegative(amount: real, std: real, c: Category)
    requires std > 0.0 && amount > std * 1.5
    ensures Round((amount - Round(std * 1.1) as real) / 100.0 * PremiumRate(c) as real) >= 0
  {
    ReductionAboveMinusThird(amount, std);
    var d := amount - Round(std * 1.1) as real;
    var x := d / 100.0 * PremiumRate(c) as real;
    if d < 0.0 {
      assert x >= d / 100.0 * 150.0;
      assert x > -0.5;
    }
    RoundMonotone(-0.5, x);
    assert Round(-0.5) == 0;
  }

  /**
   * Every proposal has a non-negative saving estimate; with whole standards
   * (as in the standard table) its target is also below the current amount.
   */
  lemma ProposalsSaveMoney(user: Coverage, standard: Coverage)
    ensures forall e :: e in CalculateDietRecommendations(user, standard) ==> e.savingsPotential >= 0
    ensures (forall c :: IsWhole(standard.Get(c))) ==>
      forall e :: e in CalculateDietRecommendations(user, standard) ==> (e.targetAmount as real) < e.currentAmount
  {
    var r := CalculateDietRecommendations(user, standard);
    forall e | e in r
      ensures e.savingsPotential >= 0
      ensures (forall c :: IsWhole(standard.Get(c))) ==> (e.targetAmount as real) < e.currentAmount
    {
      var i :| 0 <= i < |r| && r[i] == e;
      ProposalSavesMoney(user, standard, i);
    }
  }

  /** The facts of the lemma above for the proposal at position `i`. */
  lemma ProposalSavesMoney(user: Coverage, standard: Coverage, i: int)
    requires 0 <= i < |CalculateDietRecommendations(user, standard)|
    ensures CalculateDietRecommendations(user, standard)[i].savingsPotential >= 0
    ensures (forall c :: IsWhole(standard.Get(c))) ==>
      (CalculateDietRecommendations(user, standard)[i].targetAmount as real) <
      CalculateDietRecommendations(user, standard)[i].currentAmount
  {
    var r := CalculateDietRecommendations(user, standard);
    var c := r[i].category;
    CategoriesAscending();
    RecommendAllOrdered(user, standard, Categories);
    LookupFirst(r, i);
    DietRecommendationsMeaning(user, standard, c);
    var amount, std := user.Get(c), standard.Get(c);
    assert std > 0.0 && amount > std * 1.5;
    SavingNonNegative(amount, std, c);
    if IsWhole(std) {
      TargetBelowCurrent(amount, std);
    }
  }

  /** In a list with distinct categories, looking up an element's category finds that element. */
  lemma {:induction false} LookupFirst(r: seq<DietRecommendation>, i: int)
    requires 0 <= i < |r|
    requires InKeyOrder(r)
    ensures Lookup(r, r[i].category) == Some(r[i])
    decreases i
  {
    if i > 0 {
      assert KeyIndex(r[0].category) < KeyIndex(r[i].category);
      assert r[1..][i - 1] == r[i];
      LookupFirst(r[1..], i - 1);
    }
  }

  /**
   * The whole-standard assumption matters for the target: a standard of 0.5
   * with a cover of 0.8 triggers a proposal whose target (1) exceeds the
   * current amount; its saving still rounds to 0.
   */
  lemma FractionalStandardTargetsAboveCurrent()
    ensures var user := Coverage(0.8, 0.0, 0.0, 0.0, 0.0);
            var std := Coverage(0.5, 0.0, 0.0, 0.0, 0.0);
            var rec := Recommend(user, std, Cancer);
            rec.Some? && rec.value.targetAmount == 1 && rec.value.currentAmount == 0.8 &&
            rec.value.savingsPotential == 0
  {
    assert Round(0.5 * 1.1) == 1;
    assert Round((0.8 - 1.0) / 100.0 * 120.0) == 0;
  }
}

=== FILE: family_analysis_result.dfy ===
/**
 * The family coverage report (src/components/FamilyAnalysisResult.tsx): the
 * members' cover added up per category, a recommended level that scales with
 * the number of members, the radar chart rows, and the two insight rules
 * (members without medical-expense cover; family cancer cover under half the
 * recommended level).
 */
module FamilyAnalysisResult {
  import opened Common
  import opened Types

  const NoCover := Coverage(0.0, 0.0, 0.0, 0.0, 0.0)

  /** Two coverage records added key by key. */
  function Plus(a: Coverage, b: Coverage): (r: Coverage)
    ensures forall c :: r.Get(c) == a.Get(c) + b.Get(c)
  {
    Coverage(a.cancer + b.cancer, a.brain + b.brain, a.heart + b.heart, a.medical + b.medical, a.death + b.death)
  }

  /** The `forEach` that adds each member's cover, in list order, onto a zero record. */
  function Totals(members: seq<FamilyMember>): Coverage
  {
    if |members| == 0 then NoCover
    else Plus(Totals(members[..|members| - 1]), members[|members| - 1].coverages)
  }

  /** Reference definition: the members' cover in one category, summed first member first. */
  function MemberSum(members: seq<FamilyMember>, c: Category): real
  {
    if |members| == 0 then 0.0 else members[0].coverages.Get(c) + MemberSum(members[1..], c)
  }

  /** Adding up two groups of members is adding up each group and then the two totals. */
  lemma {:induction false} TotalsConcat(a: seq<FamilyMember>, b: seq<FamilyMember>)
    ensures forall c :: Totals(a + b).Get(c) == Totals(a).Get(c) + Totals(b).Get(c)
    decreases |b|
  {
    if |b| == 0 {
      assert a + b == a;
    } else {
      var n := |b|;
      assert (a + b)[..|a + b| - 1] == a + b[..n - 1];
      assert (a + b)[|a + b| - 1] == b[n - 1];
      TotalsConcat(a, b[..n - 1]);
    }
  }

  /** Every category of the totals is the plain sum over the members. */
  lemma {:induction false} TotalsMeaning(members: seq<FamilyMember>)
    ensures forall c :: Totals(members).Get(c) == MemberSum(members, c)
    decreases |members|
  {
    if |members| > 0 {
      var first := [members[0]];
      assert members == first + members[1..];
      assert first[..0] == [];
      assert Totals(first) == Plus(Totals(first[..0]), members[0].coverages);
      TotalsConcat(first, members[1..]);
      TotalsMeaning(members[1..]);
    }
  }

  /** The order in which members are listed does not change the totals. */
  lemma TotalsIgnoreOrder(a: seq<FamilyMember>, b: seq<FamilyMember>)
    ensures Totals(a + b) == Totals(b + a)
  {
    TotalsConcat(a, b);
    TotalsConcat(b, a);
    var x, y := Totals(a + b), Totals(b + a);
    assert x.Get(Cancer) == y.Get(Cancer) && x.Get(Brain) == y.Get(Brain) && x.Get(Heart) == y.Get(Heart);
    assert x.Get(Medical) == y.Get(Medical) && x.Get(Death) == y.Get(Death);
  }

  /** Two coverage records that agree in every category are the same record. */
  lemma SameGetsSameCoverage(x: Coverage, y: Coverage)
    requires forall c :: x.Get(c) == y.Get(c)
    ensures x == y
  {
    assert x.Get(Cancer) == y.Get(Cancer) && x.Get(Brain) == y.Get(Brain) && x.Get(Heart) == y.Get(Heart);
    assert x.Get(Medical) == y.Get(Medical) && x.Get(Death) == y.Get(Death);
  }

  /** Taking one member out of the list takes exactly that member's cover out of the totals. */
  lemma TotalsWithout(members: seq<FamilyMember>, j: nat)
    requires j < |members|
    ensures forall c ::
              Totals(members).Get(c) == Totals(members[..j] + members[j + 1..]).Get(c) + members[j].coverages.Get(c)
  {
    var front, back := members[..j], members[j + 1..];
    assert members == front + ([members[j]] + back);
    assert [members[j]][..0] == [];
    assert Totals([members[j]]) == Plus(NoCover, members[j].coverages);
    TotalsConcat(front, [members[j]] + back);
    TotalsConcat([members[j]], back);
    TotalsConcat(front, back);
  }

  /** Taking the member at `j` out of the list takes one copy of it out of the multiset. */
  lemma MultisetWithout(members: seq<FamilyMember>, j: nat)
    requires j < |members|
    ensures multiset(members[..j] + members[j + 1..]) == multiset(members) - multiset{members[j]}
  {
    var rest := members[..j] + members[j + 1..];
    assert members == members[..j] + [members[j]] + members[j + 1..];
    assert multiset(members) == multiset(rest) + multiset{members[j]};
    assert multiset(rest) == (multiset(rest) + multiset{members[j]}) - multiset{members[j]};
  }

  /** Two lists whose first and `j`-th members match, and whose remainders total alike, total alike. */
  lemma TotalsMatchOut(a: seq<FamilyMember>, b: seq<FamilyMember>, j: nat)
    requires |a| > 0 && j < |b| && a[0] == b[j]
    requires Totals(a[1..]) == Totals(b[..j] + b[j + 1..])
    ensures Totals(a) == Totals(b)
  {
    TotalsWithout(b, j);
    TotalsWithout(a, 0);
    assert a[..0] + a[1..] == a[1..];
    SameGetsSameCoverage(Totals(a), Totals(b));
  }

  /**
   * Any reordering of the members, not only a rotation, gives the same
   * totals: the totals depend on the multiset of members alone.
   */
  lemma {:induction false} TotalsOfPermutation(a: seq<FamilyMember>, b: seq<FamilyMember>)
    requires multiset(a) == multiset(b)
    ensures Totals(a) == Totals(b)
    decreases |a|
  {
    if |a| == 0 {
      assert |b| == |multiset(b)| == 0;
    } else {
      assert a[0] in multiset(b);
      var j :| 0 <= j < |b| && b[j] == a[0];
      MultisetWithout(a, 0);
      MultisetWithout(b, j);
      assert a[..0] + a[1..] == a[1..];
      TotalsOfPermutation(a[1..], b[..j] + b[j + 1..]);
      TotalsMatchOut(a, b, j);
    }
  }

  /** The recommended family level: a fixed amount per member in each category. */
  function PerMember(c: Category): real
  {
    match c
    case Cancer => 3000.0
    case Brain => 2000.0
    case Heart => 2000.0
    case Medical => 10000.0
    case Death => 10000.0
  }

  /** `familyIdeally`: the per-member amounts times the number of members. */
  function Ideal(memberCount: nat): Coverage
  {
    var n := memberCount as real;
    Coverage(n * 3000.0, n * 2000.0, n * 2000.0, n * 10000.0, n * 10000.0)
  }

  /** Each category of the recommendation is its per-member amount times the member count. */
  lemma IdealMeaning(memberCount: nat)
    ensures forall c :: Ideal(memberCount).Get(c) == memberCount as real * PerMember(c)
  {
  }

  /** Adding up cover is order-insensitive and grouping-insensitive, and starts from no cover. */
  lemma PlusAlgebra(a: Coverage, b: Coverage, c: Coverage)
    ensures Plus(a, b) == Plus(b, a)
    ensures Plus(Plus(a, b), c) == Plus(a, Plus(b, c))
    ensures Plus(a, NoCover) == a && Plus(NoCover, a) == a
  {
  }

  /** The recommendation for two groups is the sum of the recommendations for each. */
  lemma IdealAdditive(a: nat, b: nat)
    ensures Ideal(a + b) == Plus(Ideal(a), Ideal(b))
  {
  }

  /** A member who holds exactly the per-member amounts. */
  predicate AtPerMemberLevel(m: FamilyMember)
  {
    forall c :: m.coverages.Get(c) == PerMember(c)
  }

  /**
   * The recommendation is what the family would total if every member held
   * exactly the per-member amounts, whatever the size of the family.
   */
  lemma {:induction false} IdealIsFamilyAtPerMemberLevel(members: seq<FamilyMember>)
    requires forall i :: 0 <= i < |members| ==> AtPerMemberLevel(members[i])
    ensures Totals(members) == Ideal(|members|)
    decreases |members|
  {
    if |members| > 0 {
      var n := |members|;
      var last := members[n - 1];
      IdealIsFamilyAtPerMemberLevel(members[..n - 1]);
      assert AtPerMemberLevel(last);
      assert last.coverages == Coverage(3000.0, 2000.0, 2000.0, 10000.0, 10000.0) by {
        assert last.coverages.Get(Cancer) == 3000.0 && last.coverages.Get(Brain) == 2000.0;
        assert last.coverages.Get(Heart) == 2000.0 && last.coverages.Get(Medical) == 10000.0;
        assert last.coverages.Get(Death) == 10000.0;
      }
      IdealAdditive(n - 1, 1);
    }
  }

  /** The radar's outer ring: half again the recommendation for the three diagnoses, a fifth more otherwise. */
  function FullMarkFactor(c: Category): real
  {
    if c == Cancer || c == Brain || c == Heart then 1.5 else 1.2
  }

  /** One radar row: the family's cover, the recommendation and the ring. */
  datatype ChartRow = ChartRow(category: Category, actual: real, recommended: real, fullMark: real)

  /** `chartData`, one row per category in key order. */
  function ChartData(members: seq<FamilyMember>): (r: seq<ChartRow>)
    ensures |r| == |Categories|
  {
    var total := Totals(members);
    var ideal := Ideal(|members|);
    seq(|Categories|, i requires 0 <= i < |Categories| =>
      var c := Categories[i];
      ChartRow(c, total.Get(c), ideal.Get(c), ideal.Get(c) * FullMarkFactor(c)))
  }

  /**
   * Row i plots category i of the key order with the members' summed cover
   * against the scaled recommendation, and the ring always encloses the
   * recommendation, by half again for the diagnoses and a fifth for the rest.
   */
  lemma ChartDataMeaning(members: seq<FamilyMember>, i: int)
    requires 0 <= i < |Categories|
    ensures ChartData(members)[i].category == Categories[i]
    ensures ChartData(members)[i].actual == MemberSum(members, Categories[i])
    ensures ChartData(members)[i].recommended == |members| as real * PerMember(Categories[i])
    ensures ChartData(members)[i].recommended <= ChartData(members)[i].fullMark
    ensures ChartData(members)[i].fullMark == (if i < 3 then 1.5 else 1.2) * ChartData(members)[i].recommended
  {
    TotalsMeaning(members);
    IdealMeaning(|members|);
    assert |members| as real >= 0.0;
  }

  /** `members.filter(m => m.coverages.medical === 0)` */
  function NoMedicalMembers(members: seq<FamilyMember>): (r: seq<FamilyMember>)
    ensures |r| <= |members|
    ensures forall m :: m in r <==> m in members && m.coverages.medical == 0.0
  {
    if |members| == 0 then []
    else
      var rest := NoMedicalMembers(members[1..]);
      assert forall m :: m in members <==> m == members[0] || m in members[1..];
      if members[0].coverages.medical == 0.0 then [members[0]] + rest else rest
  }

  /**
   * `filter` keeps list order and multiplicity: filtering two groups is
   * filtering each and putting the results side by side, and a single
   * member is kept exactly when it has no medical-expense cover.
   */
  lemma {:induction false} NoMedicalMembersAppend(a: seq<FamilyMember>, b: seq<FamilyMember>)
    ensures NoMedicalMembers(a + b) == NoMedicalMembers(a) + NoMedicalMembers(b)
    decreases |a|
  {
    if |a| == 0 {
      assert a + b == b;
    } else {
      assert (a + b)[0] == a[0];
      assert (a + b)[1..] == a[1..] + b;
      NoMedicalMembersAppend(a[1..], b);
    }
  }

  /** One member is kept exactly when it has no medical-expense cover. */
  lemma NoMedicalMembersSingle(m: FamilyMember)
    ensures NoMedicalMembers([m]) == if m.coverages.medical == 0.0 then [m] else []
  {
    assert [m][1..] == [];
  }

  /** `.map(m => m.name)` */
  function Names(members: seq<FamilyMember>): (r: seq<string>)
    ensures |r| == |members|
    ensures forall i :: 0 <= i < |members| ==> r[i] == members[i].name
  {
    seq(|members|, i requires 0 <= i < |members| => members[i].name)
  }

  /** Naming two groups is naming each, side by side. */
  lemma NamesAppend(x: seq<FamilyMember>, y: seq<FamilyMember>)
    ensures Names(x + y) == Names(x) + Names(y)
  {
    var l, r := Names(x + y), Names(x) + Names(y);
    assert |l| == |r|;
    forall i | 0 <= i < |l| ensures l[i] == r[i] {
      if i < |x| {
        assert (x + y)[i] == x[i];
      } else {
        assert (x + y)[i] == y[i - |x|];
      }
    }
  }

  /** The report's insight cards; the Korean wording is not modelled, the names in it are. */
  datatype Insight =
    | MissingMedical(who: string)   // warning: the listed members have no medical-expense cover
    | CancerShort(recommended: real) // warning: family cancer cover under half of the recommendation
    | CancerReady                    // good: family cancer cover is sufficient

  datatype Insights = Insights(warnings: seq<Insight>, goods: seq<Insight>)

  /** The medical rule: one warning naming every member without medical-expense cover, if any. */
  function MedicalWarnings(members: seq<FamilyMember>): (r: seq<Insight>)
    ensures |r| <= 1
  {
    var noMedical := NoMedicalMembers(members);
    if |noMedical| > 0 then [MissingMedical(Join(Names(noMedical), ", "))] else []
  }

  /** The cancer rule: a warning under half the recommendation, a good card otherwise. */
  function CancerRule(members: seq<FamilyMember>): (r: Insights)
  {
    var ideal := Ideal(|members|).cancer;
    if Totals(members).cancer < ideal * 0.5 then Insights([CancerShort(ideal)], []) else Insights([], [CancerReady])
  }

  /** The two rules, in the order the source pushes their cards. */
  function Analyze(members: seq<FamilyMember>): (r: Insights)
    ensures |r.warnings| <= 2 && |r.goods| <= 1
  {
    var cancer := CancerRule(members);
    Insights(MedicalWarnings(members) + cancer.warnings, cancer.goods)
  }

  /** The "nothing to report" placeholder of the insight list. */
  predicate ShowsPlaceholder(r: Insights)
  {
    |r.warnings| == 0 && |r.goods| == 0
  }

  /**
   * A medical warning appears exactly when some member has no medical
   * cover, and it names those members, in list order.
   */
  lemma MedicalWarningMeaning(members: seq<FamilyMember>)
    ensures HasMedicalWarning(Analyze(members)) <==>
      exists i :: 0 <= i < |members| && members[i].coverages.medical == 0.0
    ensures HasMedicalWarning(Analyze(members)) ==>
      Analyze(members).warnings[0] == MissingMedical(Join(Names(NoMedicalMembers(members)), ", "))
  {
    NoMedicalExists(members);
    var medical := MedicalWarnings(members);
    var cancer := CancerRule(members).warnings;
    assert forall w :: w in cancer ==> w.CancerShort?;
    var ws := Analyze(members).warnings;
    assert ws == medical + cancer;
    if |medical| > 0 {
      assert ws[0] == medical[0];
    } else {
      assert ws == cancer;
      assert |ws| > 0 ==> ws[0] in cancer;
    }
  }

  /**
   * The warning lists the names in member order: for a family listed as one
   * group followed by another, the first group's uncovered members are named
   * before the second group's.
   */
  lemma MedicalWarningInListOrder(a: seq<FamilyMember>, b: seq<FamilyMember>)
    ensures HasMedicalWarning(Analyze(a + b)) ==>
      Analyze(a + b).warnings[0] ==
        MissingMedical(Join(Names(NoMedicalMembers(a)) + Names(NoMedicalMembers(b)), ", "))
  {
    if HasMedicalWarning(Analyze(a + b)) {
      MedicalWarningMeaning(a + b);
      NoMedicalMembersAppend(a, b);
      NamesAppend(NoMedicalMembers(a), NoMedicalMembers(b));
    }
  }

  /** The first card is the medical warning (the cancer rule's cards come second). */
  predicate HasMedicalWarning(r: Insights)
  {
    |r.warnings| > 0 && r.warnings[0].MissingMedical?
  }

  lemma NoMedicalExists(members: seq<FamilyMember>)
    ensures |NoMedicalMembers(members)| > 0 <==> exists i :: 0 <= i < |members| && members[i].coverages.medical == 0.0
  {
    var noMedical := NoMedicalMembers(members);
    if exists i :: 0 <= i < |members| && members[i].coverages.medical == 0.0 {
      var i :| 0 <= i < |members| && members[i].coverages.medical == 0.0;
      assert members[i] in noMedical;
    }
  }

  /** The warnings are the medical card, if any, followed by the cancer card when cover is short. */
  lemma CancerWarningShape(members: seq<FamilyMember>)
    ensures MemberSum(members, Cancer) < 1500.0 * |members| as real ==>
      Analyze(members).warnings == MedicalWarnings(members) + [CancerShort(3000.0 * |members| as real)]
    ensures MemberSum(members, Cancer) >= 1500.0 * |members| as real ==>
      Analyze(members).warnings == MedicalWarnings(members)
  {
    CancerRuleMeaning(members);
  }

  /** The cancer warning appears exactly when the summed cancer cover is under 1500 per member. */
  lemma CancerWarningMeaning(members: seq<FamilyMember>)
    ensures CancerShort(3000.0 * |members| as real) in Analyze(members).warnings <==>
      MemberSum(members, Cancer) < 1500.0 * |members| as real
  {
    CancerWarningShape(members);
    var medical := MedicalWarnings(members);
    MedicalWarningsOnlyMedical(members);
    var ideal := 3000.0 * |members| as real;
    if MemberSum(members, Cancer) < 1500.0 * |members| as real {
      assert (medical + [CancerShort(ideal)])[|medical|] == CancerShort(ideal);
    } else {
      assert CancerShort(ideal) !in medical;
    }
  }

  /** The cancer good card appears exactly when the summed cancer cover reaches 1500 per member. */
  lemma CancerReadyMeaning(members: seq<FamilyMember>)
    ensures CancerReady in Analyze(members).goods <==>
      MemberSum(members, Cancer) >= 1500.0 * |members| as real
  {
    CancerRuleMeaning(members);
    assert Analyze(members).goods == CancerRule(members).goods;
  }

  /** The cancer rule's one card, in terms of the summed cover. */
  lemma CancerRuleMeaning(members: seq<FamilyMember>)
    ensures CancerRule(members) ==
      if MemberSum(members, Cancer) < 1500.0 * |members| as real
      then Insights([CancerShort(3000.0 * |members| as real)], [])
      else Insights([], [CancerReady])
  {
    CancerTotal(members);
  }

  /** Every card of the sequence is a medical warning. */
  predicate AllMedical(cards: seq<Insight>)
  {
    forall i :: 0 <= i < |cards| ==> cards[i].MissingMedical?
  }

  lemma MedicalWarningsOnlyMedical(members: seq<FamilyMember>)
    ensures AllMedical(MedicalWarnings(members))
  {
  }

  lemma CancerTotal(members: seq<FamilyMember>)
    ensures Totals(members).cancer == MemberSum(members, Cancer)
    ensures Ideal(|members|).cancer == 3000.0 * |members| as real
  {
    TotalsMeaning(members);
    assert Totals(members).cancer == Totals(members).Get(Cancer);
  }

  /** The cancer rule always adds a card, so the placeholder is never shown. */
  lemma PlaceholderNeverShown(members: seq<FamilyMember>)
    ensures !ShowsPlaceholder(Analyze(members))
    ensures |Analyze(members).warnings| + |Analyze(members).goods| >= 1
  {
  }

  /** An empty family gets no warning and is told its cancer cover is sufficient. */
  lemma EmptyFamilyPraised()
    ensures Analyze([]) == Insights([], [CancerReady])
  {
    assert Totals([]) == NoCover;
  }
}

=== FILE: finance_ai_analysis.dfy ===
/**
 * The rule-based financial report (src/components/FinanceAIAnalysis.tsx):
 * the age at which the projected assets first reach 25 times the annual
 * expenses, an asset-allocation remark, a savings-rate remark, and the
 * closing "early retirement possible" verdict.
 */
module FinanceAIAnalysis {
  import opened Common
  import opened Types

  const GrowthFactor: real := 1.05
  const HorizonAge: int := 100

  // ---------------------------------------------------------------------
  // Financial freedom age
  // ---------------------------------------------------------------------

  /** The 4% rule: 25 times the annual expenses. */
  function TargetNetWorth(fs: FinanceState): real
  {
    fs.currentExpenses * 12.0 * 25.0
  }

  /** Reference definition: the projected assets after `years` years of 5% growth plus savings. */
  function Grown(start: real, savings: real, years: nat): real
  {
    if years == 0 then start else Grown(start, savings, years - 1) * GrowthFactor + savings
  }

  datatype SearchResult = SearchResult(reached: bool, years: nat)

  /**
   * The projection loop with `remaining` iterations left: stop as soon as
   * the assets meet the target, otherwise grow them and count a year.
   */
  function Search(assets: real, target: real, savings: real, remaining: int): SearchResult
    decreases remaining
  {
    if remaining <= 0 then SearchResult(false, 0)
    else if assets >= target then SearchResult(true, 0)
    else
      var r := Search(assets * GrowthFactor + savings, target, savings, remaining - 1);
      SearchResult(r.reached, r.years + 1)
  }

  datatype Freedom = Freedom(reached: bool, freedomAge: int)

  /** `reached` and `freedomAge` after the loop `for (i = 0; i < 100 - age; i++)`. */
  function FinancialFreedom(fs: FinanceState): Freedom
    requires fs.assets.Untracked()
  {
    var r := Search(fs.assets.ManualTotal(), TargetNetWorth(fs), fs.AnnualSavings(), HorizonAge - fs.age);
    Freedom(r.reached, fs.age + r.years)
  }

  /** Growing one year first and then `k` more is growing `k + 1` years. */
  lemma {:induction false} GrownShift(start: real, savings: real, k: nat)
    ensures Grown(start * GrowthFactor + savings, savings, k) == Grown(start, savings, k + 1)
  {
    if k > 0 {
      GrownShift(start, savings, k - 1);
    }
  }

  /** Some year before the horizon meets the target. */
  predicate ReachedWithin(start: real, target: real, savings: real, n: int)
  {
    exists k: nat :: k < n && Grown(start, savings, k) >= target
  }

  /**
   * The loop reports success exactly when some year before the horizon meets
   * the target, and then counts the first such year; otherwise it counts
   * every iteration of the loop.
   */
  lemma {:induction false} SearchMeaning(start: real, target: real, savings: real, n: int)
    ensures Search(start, target, savings, n).reached <==> ReachedWithin(start, target, savings, n)
    ensures Search(start, target, savings, n).reached ==>
      var y := Search(start, target, savings, n).years;
      y < n && Grown(start, savings, y) >= target &&
      forall k: nat :: k < y ==> Grown(start, savings, k) < target
    ensures !Search(start, target, savings, n).reached ==>
      Search(start, target, savings, n).years == if n > 0 then n else 0
    decreases n
  {
    if n > 0 && start < target {
      var next := start * GrowthFactor + savings;
      SearchMeaning(next, target, savings, n - 1);
      forall k: nat ensures Grown(next, savings, k) == Grown(start, savings, k + 1) {
        GrownShift(start, savings, k);
      }
      if ReachedWithin(start, target, savings, n) {
        var k: nat :| k < n && Grown(start, savings, k) >= target;
        assert k > 0;
        assert Grown(next, savings, k - 1) >= target;
      }
      if ReachedWithin(next, target, savings, n - 1) {
        var k: nat :| k < n - 1 && Grown(next, savings, k) >= target;
        assert Grown(start, savings, k + 1) >= target;
      }
      var r := Search(next, target, savings, n - 1);
      if r.reached {
        forall k: nat | k < r.years + 1 ensures Grown(start, savings, k) < target {
          if k > 0 {
            assert Grown(next, savings, k - 1) < target;
          }
        }
      }
    }
  }

  /**
   * The freedom age is the first age before 100 at which the projected
   * assets meet 25 times the annual expenses; when there is none, it is 100
   * (or the current age, for someone already 100 or older).
   */
  lemma FinancialFreedomMeaning(fs: FinanceState)
    requires fs.assets.Untracked()
    ensures var f := FinancialFreedom(fs);
      f.reached <==> ReachedWithin(fs.assets.ManualTotal(), TargetNetWorth(fs), fs.AnnualSavings(), HorizonAge - fs.age)
    ensures var f := FinancialFreedom(fs);
      f.reached ==>
        fs.age <= f.freedomAge < HorizonAge &&
        Grown(fs.assets.ManualTotal(), fs.AnnualSavings(), f.freedomAge - fs.age) >= TargetNetWorth(fs)
    ensures var f := FinancialFreedom(fs);
      !f.reached ==> f.freedomAge == if fs.age < HorizonAge then HorizonAge else fs.age
  {
    SearchMeaning(fs.assets.ManualTotal(), TargetNetWorth(fs), fs.AnnualSavings(), HorizonAge - fs.age);
  }

  /** No earlier year than the reported one meets the target. */
  lemma FreedomAgeIsFirst(fs: FinanceState, k: nat)
    requires fs.assets.Untracked()
    requires FinancialFreedom(fs).reached && fs.age + k < FinancialFreedom(fs).freedomAge
    ensures Grown(fs.assets.ManualTotal(), fs.AnnualSavings(), k) < TargetNetWorth(fs)
  {
    SearchMeaning(fs.assets.ManualTotal(), TargetNetWorth(fs), fs.AnnualSavings(), HorizonAge - fs.age);
  }

  /**
   * Someone under 100 whose assets already meet the target is free now: the
   * loop stops on its first test without counting a year.
   */
  lemma AlreadyFree(fs: FinanceState)
    requires fs.assets.Untracked() && fs.age < HorizonAge
    requires fs.assets.ManualTotal() >= TargetNetWorth(fs)
    ensures FinancialFreedom(fs) == Freedom(true, fs.age)
  {
  }

  /**
   * A target first met only in the year the horizon is reached is not
   * reported: the loop stops one test short of it.
   */
  lemma HorizonYearNotCounted(fs: FinanceState)
    requires fs.assets.Untracked() && fs.age < HorizonAge
    requires forall k: nat :: k < HorizonAge - fs.age ==>
      Grown(fs.assets.ManualTotal(), fs.AnnualSavings(), k) < TargetNetWorth(fs)
    ensures FinancialFreedom(fs) == Freedom(false, HorizonAge)
  {
    FinancialFreedomMeaning(fs);
  }

  /** `freedomAge < retirementAge`: the closing line says early retirement is possible. */
  function EarlyRetirementPossible(fs: FinanceState): bool
    requires fs.assets.Untracked()
  {
    FinancialFreedom(fs).freedomAge < fs.retirementAge
  }

  /**
   * When the target is never met before 100, the closing line promises early
   * retirement only for a retirement age above 100.
   */
  lemma UnreachedMeansNoEarlyRetirement(fs: FinanceState)
    requires fs.assets.Untracked()
    requires !FinancialFreedom(fs).reached && fs.age < HorizonAge
    ensures EarlyRetirementPossible(fs) <==> fs.retirementAge > HorizonAge
  {
    FinancialFreedomMeaning(fs);
  }

  // ---------------------------------------------------------------------
  // Asset allocation remark
  // ---------------------------------------------------------------------

  datatype Allocation = CashHeavy | CryptoHeavy | Aggressive | Balanced

  /** `undefined > 70` is false; a present ratio is compared as a number. */
  predicate ExceedsPercent(ratio: Option<real>, bound: real)
  {
    ratio.Some? && ratio.value > bound
  }

  /**
   * The ratio the aggressive branch reads, `ratios.shares`: the ratio record
   * only has `cash`, `stock`, `realEstate` and `crypto`, so it is absent.
   */
  function SharesRatio(assets: FinanceAssets, total: real): Option<real>
  {
    None
  }

  /** The remark as written, with the aggressive branch testing the absent `shares` ratio. */
  function AllocationAdviceAsWritten(assets: FinanceAssets, total: real): Allocation
  {
    var d := OrOne(total);
    if assets.cash / d * 100.0 > 50.0 then CashHeavy
    else if assets.crypto / d * 100.0 > 20.0 then CryptoHeavy
    else if ExceedsPercent(SharesRatio(assets, total), 70.0) then Aggressive
    else Balanced
  }

  /** As written, the aggressive remark is never given, even for an all-stock portfolio. */
  lemma AggressiveRemarkUnreachable(assets: FinanceAssets, total: real)
    ensures AllocationAdviceAsWritten(assets, total) != Aggressive
    ensures var allStock := FinanceAssets(0.0, 100.0, 0.0, 0.0, 0.0, 0.0, None, None);
      AllocationAdviceAsWritten(allStock, 100.0) == Balanced
  {
  }

  /** The remark as evidently intended: the aggressive branch tests the stock ratio. */
  function AllocationAdvice(assets: FinanceAssets, total: real): Allocation
  {
    var d := OrOne(total);
    if assets.cash / d * 100.0 > 50.0 then CashHeavy
    else if assets.crypto / d * 100.0 > 20.0 then CryptoHeavy
    else if assets.stock / d * 100.0 > 70.0 then Aggressive
    else Balanced
  }

  /** `a / d * 100 > p` is `a > p/100 * d` for a positive `d`. */
  lemma PercentAbove(a: real, d: real, p: real)
    requires d > 0.0
    ensures a / d * 100.0 > p <==> a > p / 100.0 * d
  {
    if a / d * 100.0 > p {
      assert a == (a / d) * d;
      assert (a / d) > p / 100.0;
      assert (a / d) * d > (p / 100.0) * d;
    }
    if a > p / 100.0 * d {
      assert a / d > (p / 100.0 * d) / d;
    }
  }

  /** `a / d * 100 < p` is `a < p/100 * d` for a positive `d`. */
  lemma PercentBelow(a: real, d: real, p: real)
    requires d > 0.0
    ensures a / d * 100.0 < p <==> a < p / 100.0 * d
  {
    PercentAbove(-a, d, -p);
    assert (-a) / d == -(a / d);
  }

  /**
   * For a positive total: more than half in cash gives the cash remark; else
   * more than a fifth in crypto the volatility remark; else more than 70% in
   * stock the aggressive remark; anything else is balanced.
   */
  lemma AllocationAdviceMeaning(assets: FinanceAssets, total: real)
    requires total > 0.0
    ensures AllocationAdvice(assets, total) == CashHeavy <==> assets.cash > 0.5 * total
    ensures AllocationAdvice(assets, total) == CryptoHeavy <==>
      assets.cash <= 0.5 * total && assets.crypto > 0.2 * total
    ensures AllocationAdvice(assets, total) == Aggressive <==>
      assets.cash <= 0.5 * total && assets.crypto <= 0.2 * total && assets.stock > 0.7 * total
  {
    PercentAbove(assets.cash, total, 50.0);
    PercentAbove(assets.crypto, total, 20.0);
    PercentAbove(assets.stock, total, 70.0);
  }

  /**
   * The remark the report shows, as written: the ratios are taken of the
   * six-field asset total, `totalAssets || 1`, and the aggressive branch
   * reads the absent `shares` ratio.
   */
  function ReportAllocation(fs: FinanceState): Allocation
  {
    AllocationAdviceAsWritten(fs.assets, fs.assets.ManualTotal())
  }

  /** The remark the report evidently intends: the same total, the stock ratio in the aggressive branch. */
  function IntendedReportAllocation(fs: FinanceState): Allocation
  {
    AllocationAdvice(fs.assets, fs.assets.ManualTotal())
  }

  /**
   * As written, with a positive asset total the report gives the cash
   * remark above half the total, the crypto remark above a fifth, and the
   * balanced remark otherwise, however much is in stock; with a zero total
   * the fields are compared with 1.
   */
  lemma ReportAllocationMeaning(fs: FinanceState)
    ensures ReportAllocation(fs) != Aggressive
    ensures var total := fs.assets.ManualTotal();
      total > 0.0 ==>
        (ReportAllocation(fs) == CashHeavy <==> fs.assets.cash > 0.5 * total) &&
        (ReportAllocation(fs) == CryptoHeavy <==> fs.assets.cash <= 0.5 * total && fs.assets.crypto > 0.2 * total) &&
        (ReportAllocation(fs) == Balanced <==> fs.assets.cash <= 0.5 * total && fs.assets.crypto <= 0.2 * total)
    ensures fs.assets.ManualTotal() == 0.0 ==> ReportAllocation(fs) == AllocationAdviceAsWritten(fs.assets, 1.0)
    ensures fs.assets.ManualTotal() == 0.0 ==> (ReportAllocation(fs) == CashHeavy <==> fs.assets.cash > 0.5)
  {
    var total := fs.assets.ManualTotal();
    if total > 0.0 {
      PercentAbove(fs.assets.cash, total, 50.0);
      PercentAbove(fs.assets.crypto, total, 20.0);
    }
    if total == 0.0 {
      PercentAbove(fs.assets.cash, 1.0, 50.0);
    }
  }

  /**
   * The intended report differs from the written one only on the aggressive
   * remark: with a positive total it gives that remark exactly when cash and
   * crypto stay under their thresholds and stock exceeds 70% of the total,
   * and otherwise agrees with the written report.
   */
  lemma IntendedReportAllocationMeaning(fs: FinanceState)
    ensures IntendedReportAllocation(fs) != Aggressive ==> IntendedReportAllocation(fs) == ReportAllocation(fs)
    ensures var total := fs.assets.ManualTotal();
      total > 0.0 ==>
        (IntendedReportAllocation(fs) == Aggressive <==>
           fs.assets.cash <= 0.5 * total && fs.assets.crypto <= 0.2 * total && fs.assets.stock > 0.7 * total)
  {
    if fs.assets.ManualTotal() > 0.0 {
      AllocationAdviceMeaning(fs.assets, fs.assets.ManualTotal());
    }
  }

  // ---------------------------------------------------------------------
  // Savings-rate remark
  // ---------------------------------------------------------------------

  /** A JavaScript number as far as this computation needs it: a real, an infinity or NaN. */
  datatype JsNumber = Finite(v: real) | PosInf | NegInf | NaN

  /** IEEE division: by zero gives an infinity of the dividend's sign, or NaN for 0/0. */
  function JsDivide(a: real, b: real): (r: JsNumber)
    ensures b != 0.0 ==> r == Finite(a / b)
    ensures b == 0.0 ==> (r == PosInf <==> a > 0.0) && (r == NegInf <==> a < 0.0) && (r == NaN <==> a == 0.0)
  {
    if b != 0.0 then Finite(a / b)
    else if a > 0.0 then PosInf
    else if a < 0.0 then NegInf
    else NaN
  }

  /** Multiplying by the positive constant 100. */
  function Percent(x: JsNumber): JsNumber
  {
    match x
    case Finite(v) => Finite(v * 100.0)
    case _ => x
  }

  /** `x < k`: false for NaN and +Infinity, true for -Infinity. */
  predicate LessThan(x: JsNumber, k: real)
  {
    match x
    case Finite(v) => v < k
    case NegInf => true
    case _ => false
  }

  /** `x > k`: false for NaN and -Infinity, true for +Infinity. */
  predicate GreaterThan(x: JsNumber, k: real)
  {
    match x
    case Finite(v) => v > k
    case PosInf => true
    case _ => false
  }

  /** `(annualSavings / (currentIncome * 12)) * 100` */
  function SavingsRate(fs: FinanceState): JsNumber
  {
    Percent(JsDivide(fs.AnnualSavings(), fs.currentIncome * 12.0))
  }

  datatype SavingsAdvice = BuildSeedMoney | Excellent | Moderate

  function SavingsAdviceFor(fs: FinanceState): SavingsAdvice
  {
    var rate := SavingsRate(fs);
    if LessThan(rate, 10.0) then BuildSeedMoney
    else if GreaterThan(rate, 50.0) then Excellent
    else Moderate
  }

  /**
   * With a positive income, the seed-money remark means expenses above 90% of
   * income and the praise means expenses below half of it. With no income,
   * any positive expense gives the seed-money remark, a negative one the
   * praise, and zero expenses (0/0) the moderate remark.
   */
  lemma SavingsAdviceMeaning(fs: FinanceState)
    ensures fs.currentIncome > 0.0 ==>
      (SavingsAdviceFor(fs) == BuildSeedMoney <==> fs.currentExpenses > 0.9 * fs.currentIncome) &&
      (SavingsAdviceFor(fs) == Excellent <==> fs.currentExpenses < 0.5 * fs.currentIncome)
    ensures fs.currentIncome == 0.0 ==>
      (SavingsAdviceFor(fs) == BuildSeedMoney <==> fs.currentExpenses > 0.0) &&
      (SavingsAdviceFor(fs) == Excellent <==> fs.currentExpenses < 0.0)
  {
    var inc := fs.currentIncome;
    var exp := fs.currentExpenses;
    if inc > 0.0 {
      assert (inc - exp) * 12.0 / (inc * 12.0) == (inc - exp) / inc;
      PercentBelow(inc - exp, inc, 10.0);
      PercentAbove(inc - exp, inc, 50.0);
    }
  }
}

=== FILE: finance_summary_header.dfy ===
/**
 * The three headline figures of the finance dashboard
 * (src/components/FinanceSummaryHeader.tsx): total net worth including
 * live-priced positions, the monthly free cash flow with its savings
 * percentage, and the progress towards a 4%-rule retirement corpus.
 */
module FinanceSummaryHeader {
  import opened Common
  import opened Types
  import FinanceAIAnalysis

  /** `positions.reduce((sum, a) => sum + a.quantity * a.currentPrice, 0)` */
  function PositionsValue(positions: seq<TrackedAsset>): real
  {
    if |positions| == 0 then 0.0
    else PositionsValue(positions[..|positions| - 1]) + positions[|positions| - 1].quantity * positions[|positions| - 1].currentPrice
  }

  /** `list?.reduce(...) || 0`: an absent list is worth nothing. */
  function TrackedValue(positions: Option<seq<TrackedAsset>>): real
  {
    match positions
    case None => 0.0
    case Some(list) => PositionsValue(list)
  }

  /** The numeric fields (`typeof value === 'number'`) plus both tracked lists. */
  function TotalAssets(assets: FinanceAssets): real
  {
    assets.ManualTotal() + TrackedValue(assets.trackedStocks) + TrackedValue(assets.trackedCrypto)
  }

  /** Income minus expenses, per month. */
  function MonthlyCashFlow(fs: FinanceState): real
  {
    fs.currentIncome - fs.currentExpenses
  }

  /** The 4% rule corpus, or the default of 100000 (one billion won) when expenses are exactly zero. */
  function TargetCorpus(fs: FinanceState): real
  {
    if fs.currentExpenses == 0.0 then 100000.0 else (fs.currentExpenses * 12.0) / 0.04
  }

  /** `Math.min(100, Math.round(totalAssets / targetCorpus * 100))` */
  function Progress(fs: FinanceState): int
  {
    MinInt(100, Round(TotalAssets(fs.assets) / TargetCorpus(fs) * 100.0))
  }

  /** The savings percentage under the cash flow, 0 without a positive income. */
  function DisplayedSavingsRate(fs: FinanceState): int
  {
    if fs.currentIncome > 0.0 then Round(MonthlyCashFlow(fs) / fs.currentIncome * 100.0) else 0
  }

  /** A new position adds its quantity times its price to the list's value. */
  lemma PositionsValueAppend(positions: seq<TrackedAsset>, p: TrackedAsset)
    ensures PositionsValue(positions + [p]) == PositionsValue(positions) + p.quantity * p.currentPrice
  {
    assert (positions + [p])[..|positions|] == positions;
  }

  /**
   * Without tracked positions the header's total equals the six-field sum the
   * chart and the report start from; each tracked position adds its market value.
   */
  lemma TotalAssetsMeaning(assets: FinanceAssets, p: TrackedAsset)
    ensures assets.Untracked() ==> TotalAssets(assets) == assets.ManualTotal()
    ensures var stocks := if assets.trackedStocks.Some? then assets.trackedStocks.value else [];
      TotalAssets(assets.(trackedStocks := Some(stocks + [p]))) == TotalAssets(assets) + p.quantity * p.currentPrice
    ensures var cryptos := if assets.trackedCrypto.Some? then assets.trackedCrypto.value else [];
      TotalAssets(assets.(trackedCrypto := Some(cryptos + [p]))) == TotalAssets(assets) + p.quantity * p.currentPrice
  {
    var stocks := if assets.trackedStocks.Some? then assets.trackedStocks.value else [];
    PositionsValueAppend(stocks, p);
    var cryptos := if assets.trackedCrypto.Some? then assets.trackedCrypto.value else [];
    PositionsValueAppend(cryptos, p);
  }

  /**
   * The corpus is 300 times the monthly expenses, the same 25-times-annual
   * target the report uses, except for exactly zero expenses.
   */
  lemma TargetCorpusMeaning(fs: FinanceState)
    ensures fs.currentExpenses != 0.0 ==> TargetCorpus(fs) == FinanceAIAnalysis.TargetNetWorth(fs)
    ensures fs.currentExpenses != 0.0 ==> TargetCorpus(fs) == 300.0 * fs.currentExpenses
    ensures fs.currentExpenses >= 0.0 ==> TargetCorpus(fs) > 0.0
  {
  }

  /**
   * Progress never exceeds 100; it shows 100 exactly when the assets reach
   * 99.5% of the corpus; and it is not negative for non-negative assets and
   * expenses.
   */
  lemma ProgressMeaning(fs: FinanceState)
    ensures Progress(fs) <= 100
    ensures Progress(fs) == 100 <==> TotalAssets(fs.assets) / TargetCorpus(fs) * 100.0 >= 99.5
    ensures TotalAssets(fs.assets) >= 0.0 && fs.currentExpenses >= 0.0 ==> Progress(fs) >= 0
  {
    var x := TotalAssets(fs.assets) / TargetCorpus(fs) * 100.0;
    if TotalAssets(fs.assets) >= 0.0 && fs.currentExpenses >= 0.0 {
      assert x >= 0.0;
      RoundMonotone(0.0, x);
      RoundOfInt(0);
    }
  }

  /** More assets never show less progress (the corpus is positive for non-negative expenses). */
  lemma ProgressMonotone(fs: FinanceState, extraCash: real)
    requires fs.currentExpenses >= 0.0 && extraCash >= 0.0
    ensures Progress(fs.(assets := fs.assets.(cash := fs.assets.cash + extraCash))) >= Progress(fs)
  {
    var richer := fs.(assets := fs.assets.(cash := fs.assets.cash + extraCash));
    var t := TargetCorpus(fs);
    assert TargetCorpus(richer) == t > 0.0;
    assert TotalAssets(richer.assets) >= TotalAssets(fs.assets);
    assert TotalAssets(richer.assets) / t >= TotalAssets(fs.assets) / t;
    RoundMonotone(TotalAssets(fs.assets) / t * 100.0, TotalAssets(richer.assets) / t * 100.0);
  }

  /**
   * With a positive income the header shows the report's savings rate rounded
   * to a whole percent, within 0..100 when 0 <= expenses <= income; without
   * income it shows 0 where the report divides by zero.
   */
  lemma DisplayedSavingsRateMeaning(fs: FinanceState)
    ensures fs.currentIncome > 0.0 ==>
      FinanceAIAnalysis.SavingsRate(fs).Finite? &&
      DisplayedSavingsRate(fs) == Round(FinanceAIAnalysis.SavingsRate(fs).v)
    ensures fs.currentIncome <= 0.0 ==> DisplayedSavingsRate(fs) == 0
    ensures fs.currentIncome > 0.0 && 0.0 <= fs.currentExpenses <= fs.currentIncome ==>
      0 <= DisplayedSavingsRate(fs) <= 100
  {
    var inc := fs.currentIncome;
    var exp := fs.currentExpenses;
    if inc > 0.0 {
      assert fs.AnnualSavings() / (inc * 12.0) == (inc - exp) / inc;
      if 0.0 <= exp <= inc {
        assert 0.0 <= (inc - exp) / inc <= 1.0;
        RoundWithin((inc - exp) / inc * 100.0, 0, 100);
      }
    }
  }
}

=== FILE: financial_mbti_result.dfy ===
/**
 * The result card of the money-personality test
 * (src/components/FinancialMbtiResult.tsx): the profile looked up by the
 * four-letter type, with "RSPL" as the fallback, and the radar chart that
 * maps each score s to 20*s + 50.
 */
module FinancialMbtiResult {
  import opened FinancialMbtiTest

  /** The sixteen profile keys, in the order of the profile table. */
  const ProfileKeys: seq<string> := [
    "RSPL", "RSPE", "RSIL", "RSIE",
    "RKPL", "RKPE", "RKIL", "RKIE",
    "SSPL", "SSPE", "SSIL", "SSIE",
    "SKPL", "SKPE", "SKIL", "SKIE"]

  const FallbackKey: string := "RSPL"

  /** `MBTI_TYPES[result.type] || MBTI_TYPES["RSPL"]`: the key whose profile is shown. */
  function ProfileKey(code: string): (r: string)
    ensures r in ProfileKeys
    ensures r == code <==> code in ProfileKeys
  {
    if code in ProfileKeys then code else FallbackKey
  }

  /** `score * 20 + 50`, the radar value of one dimension. */
  function ChartValue(score: int): int
  {
    score * 20 + 50
  }

  /** The four letters are chosen independently, one from each pair. */
  predicate WellFormedCode(code: string)
  {
    |code| == 4 && code[0] in "RS" && code[1] in "SK" && code[2] in "PI" && code[3] in "LE"
  }

  /** The profile table has exactly one entry per well-formed code. */
  lemma ProfileKeysComplete(code: string)
    ensures code in ProfileKeys <==> WellFormedCode(code)
  {
    if WellFormedCode(code) {
      var i := (if code[0] == 'R' then 0 else 8) + (if code[1] == 'S' then 0 else 4) +
               (if code[2] == 'P' then 0 else 2) + (if code[3] == 'L' then 0 else 1);
      assert code == [code[0], code[1], code[2], code[3]];
      assert ProfileKeys[i] == code;
    }
  }

  /** Sixteen different keys. */
  lemma ProfileKeysDistinct()
    ensures forall i, j :: 0 <= i < j < |ProfileKeys| ==> ProfileKeys[i] != ProfileKeys[j]
  {
    forall i, j | 0 <= i < j < |ProfileKeys| ensures ProfileKeys[i] != ProfileKeys[j] {
      assert forall k :: 0 <= k < |ProfileKeys| ==> |ProfileKeys[k]| == 4;
    }
  }

  /** Every completed test lands on its own profile: the fallback is never needed. */
  lemma TestResultHasOwnProfile(answers: seq<Choice>)
    requires |answers| == QuestionCount
    ensures ProfileKey(TakeTest(answers).code) == TakeTest(answers).code
  {
    TakeTestMeaning(answers);
    var code := TakeTest(answers).code;
    assert WellFormedCode(code);
    ProfileKeysComplete(code);
  }

  /**
   * The radar values of a completed test are -10, 30, 70 or 110: the two
   * extreme answers plot outside the chart's 0..100 range.
   */
  lemma ChartValuesOfTest(answers: seq<Choice>, d: Dimension)
    requires |answers| == QuestionCount
    ensures ChartValue(TakeTest(answers).finalScores.Get(d)) in {-10, 30, 70, 110}
  {
    FinalScoreValues(answers, d);
  }
}

=== FILE: financial_mbti_test.dfy ===
/**
 * The twelve-question money-personality test
 * (src/components/FinancialMbtiTest.tsx). Each question belongs to one of
 * four dimensions; answer A adds one to that dimension's score and answer B
 * subtracts one. After the last question each score's sign picks one letter
 * of the four-letter type.
 */
module FinancialMbtiTest {

  /** Risk, Spending, Planning and Logic; B answers lean to Safety, Keeper, Improvisor, Emotion. */
  datatype Dimension = Risk | Spending | Planning | Logic

  datatype Choice = A | B

  /** The dimension of each question, in question order. */
  const QuestionDimensions: seq<Dimension> :=
    [Risk, Risk, Risk, Spending, Spending, Spending, Planning, Planning, Planning, Logic, Logic, Logic]

  const QuestionCount: int := 12

  datatype Scores = Scores(r: int, s: int, p: int, l: int)
  {
    function Get(d: Dimension): int
    {
      match d
      case Risk => r
      case Spending => s
      case Planning => p
      case Logic => l
    }

    /** `{ ...prev, [dimension]: prev[dimension] + change }` */
    function Add(d: Dimension, change: int): (result: Scores)
      ensures result.Get(d) == Get(d) + change
      ensures forall e :: e != d ==> result.Get(e) == Get(e)
    {
      match d
      case Risk => this.(r := r + change)
      case Spending => this.(s := s + change)
      case Planning => this.(p := p + change)
      case Logic => this.(l := l + change)
    }
  }

  const InitialScores := Scores(0, 0, 0, 0)

  /** The component state: the current question and the running scores. */
  datatype TestState = TestState(step: int, scores: Scores)

  const InitialState := TestState(0, InitialScores)

  /** After an answer: the next question, or the finished test with its type and final scores. */
  datatype Outcome = Continue(next: TestState) | Finished(code: string, finalScores: Scores)

  function Change(c: Choice): int
  {
    if c == A then 1 else -1
  }

  /** `finishTest`: a positive score picks the first letter of the pair, otherwise the second. */
  function TypeCode(sc: Scores): string
  {
    [if sc.r > 0 then 'R' else 'S',
     if sc.s > 0 then 'S' else 'K',
     if sc.p > 0 then 'P' else 'I',
     if sc.l > 0 then 'L' else 'E']
  }

  /** `handleAnswer` on the question at `st.step`. */
  function HandleAnswer(st: TestState, c: Choice): (r: Outcome)
    requires 0 <= st.step < QuestionCount
    ensures r.Continue? <==> st.step < QuestionCount - 1
    ensures r.Continue? ==> r.next.step == st.step + 1
  {
    var d := QuestionDimensions[st.step];
    var updated := st.scores.Add(d, Change(c));
    if st.step < QuestionCount - 1 then Continue(TestState(st.step + 1, updated))
    else Finished(TypeCode(updated), updated)
  }

  /** Answering the remaining questions one by one. */
  function Run(st: TestState, answers: seq<Choice>): (r: Outcome)
    requires 0 <= st.step && st.step + |answers| == QuestionCount && |answers| > 0
    ensures r.Finished? && |r.code| == 4
    decreases |answers|
  {
    match HandleAnswer(st, answers[0])
    case Continue(next) => Run(next, answers[1..])
    case Finished(code, sc) => Finished(code, sc)
  }

  /** The whole test from the first question. */
  function TakeTest(answers: seq<Choice>): (r: Outcome)
    requires |answers| == QuestionCount
    ensures r.Finished? && |r.code| == 4
  {
    Run(InitialState, answers)
  }

  /** Reference definition: the net A-minus-B count over the answers to `d`'s questions, starting at question `from`. */
  function Tally(answers: seq<Choice>, from: int, d: Dimension): int
    requires 0 <= from && from + |answers| <= QuestionCount
    decreases |answers|
  {
    if |answers| == 0 then 0
    else (if QuestionDimensions[from] == d then Change(answers[0]) else 0) + Tally(answers[1..], from + 1, d)
  }

  lemma {:induction false} RunMeaning(st: TestState, answers: seq<Choice>)
    requires 0 <= st.step && st.step + |answers| == QuestionCount && |answers| > 0
    ensures Run(st, answers).Finished?
    ensures forall d :: Run(st, answers).finalScores.Get(d) == st.scores.Get(d) + Tally(answers, st.step, d)
    ensures Run(st, answers).code == TypeCode(Run(st, answers).finalScores)
    decreases |answers|
  {
    var c := answers[0];
    var updated := st.scores.Add(QuestionDimensions[st.step], Change(c));
    if st.step < QuestionCount - 1 {
      RunMeaning(TestState(st.step + 1, updated), answers[1..]);
    }
  }

  /** A test result is always a finished outcome whose scores are the per-dimension A-minus-B counts. */
  lemma TakeTestMeaning(answers: seq<Choice>)
    requires |answers| == QuestionCount
    ensures TakeTest(answers).Finished?
    ensures forall d :: TakeTest(answers).finalScores.Get(d) == Tally(answers, 0, d)
    ensures TakeTest(answers).code == TypeCode(TakeTest(answers).finalScores)
  {
    RunMeaning(InitialState, answers);
  }

  /** The three answers to a dimension's questions, net. */
  function Vote(a0: Choice, a1: Choice, a2: Choice): int
  {
    Change(a0) + Change(a1) + Change(a2)
  }

  lemma TallyByDimension(answers: seq<Choice>)
    requires |answers| == QuestionCount
    ensures Tally(answers, 0, Risk) == Vote(answers[0], answers[1], answers[2])
    ensures Tally(answers, 0, Spending) == Vote(answers[3], answers[4], answers[5])
    ensures Tally(answers, 0, Planning) == Vote(answers[6], answers[7], answers[8])
    ensures Tally(answers, 0, Logic) == Vote(answers[9], answers[10], answers[11])
  {
    TallySplit(answers, 0, Risk);
    TallySplit(answers, 0, Spending);
    TallySplit(answers, 0, Planning);
    TallySplit(answers, 0, Logic);
    assert answers[0..] == answers;
    TallyFromRisk(answers);
    TallyFromSpending(answers);
    TallyFromPlanning(answers);
    TallyFromLogic(answers);
  }

  /** Only questions 0..2 count towards Risk. */
  lemma TallyFromRisk(answers: seq<Choice>)
    requires |answers| == QuestionCount
    ensures TallyFrom(answers, 0, Risk) == Vote(answers[0], answers[1], answers[2])
  {
    TallyFromTail(answers, 3, Risk);
    assert TallyFrom(answers, 2, Risk) == Change(answers[2]) + TallyFrom(answers, 3, Risk);
    assert TallyFrom(answers, 1, Risk) == Change(answers[1]) + TallyFrom(answers, 2, Risk);
  }

  /** Only questions 3..5 count towards Spending. */
  lemma TallyFromSpending(answers: seq<Choice>)
    requires |answers| == QuestionCount
    ensures TallyFrom(answers, 0, Spending) == Vote(answers[3], answers[4], answers[5])
  {
    TallyFromTail(answers, 6, Spending);
    assert TallyFrom(answers, 5, Spending) == Change(answers[5]) + TallyFrom(answers, 6, Spending);
    assert TallyFrom(answers, 4, Spending) == Change(answers[4]) + TallyFrom(answers, 5, Spending);
    assert TallyFrom(answers, 3, Spending) == Change(answers[3]) + TallyFrom(answers, 4, Spending);
    assert TallyFrom(answers, 2, Spending) == TallyFrom(answers, 3, Spending);
    assert TallyFrom(answers, 1, Spending) == TallyFrom(answers, 2, Spending);
  }

  /** Only questions 6..8 count towards Planning. */
  lemma TallyFromPlanning(answers: seq<Choice>)
    requires |answers| == QuestionCount
    ensures TallyFrom(answers, 0, Planning) == Vote(answers[6], answers[7], answers[8])
  {
    TallyFromTail(answers, 9, Planning);
    assert TallyFrom(answers, 8, Planning) == Change(answers[8]) + TallyFrom(answers, 9, Planning);
    assert TallyFrom(answers, 7, Planning) == Change(answers[7]) + TallyFrom(answers, 8, Planning);
    assert TallyFrom(answers, 6, Planning) == Change(answers[6]) + TallyFrom(answers, 7, Planning);
    TallyFromSkip(answers, 0, 6, Planning);
  }

  /** Only questions 9..11 count towards Logic. */
  lemma TallyFromLogic(answers: seq<Choice>)
    requires |answers| == QuestionCount
    ensures TallyFrom(answers, 0, Logic) == Vote(answers[9], answers[10], answers[11])
  {
    assert TallyFrom(answers, 11, Logic) == Change(answers[11]);
    assert TallyFrom(answers, 10, Logic) == Change(answers[10]) + TallyFrom(answers, 11, Logic);
    assert TallyFrom(answers, 9, Logic) == Change(answers[9]) + TallyFrom(answers, 10, Logic);
    TallyFromSkip(answers, 0, 9, Logic);
  }

  /** Questions of other dimensions contribute nothing. */
  lemma {:induction false} TallyFromSkip(answers: seq<Choice>, k: int, j: int, d: Dimension)
    requires 0 <= k <= j <= |answers| == QuestionCount
    requires forall i :: k <= i < j ==> QuestionDimensions[i] != d
    ensures TallyFrom(answers, k, d) == TallyFrom(answers, j, d)
    decreases j - k
  {
    if k < j {
      TallyFromSkip(answers, k + 1, j, d);
    }
  }

  /** Past the last question of `d`, nothing is left to count. */
  lemma TallyFromTail(answers: seq<Choice>, k: int, d: Dimension)
    requires 0 <= k <= |answers| == QuestionCount
    requires forall i :: k <= i < QuestionCount ==> QuestionDimensions[i] != d
    ensures TallyFrom(answers, k, d) == 0
  {
    TallyFromSkip(answers, k, QuestionCount, d);
  }

  /** `Tally` as an explicit sum, question by question. */
  function TallyFrom(answers: seq<Choice>, k: int, d: Dimension): int
    requires 0 <= k <= |answers| == QuestionCount
    decreases QuestionCount - k
  {
    if k == QuestionCount then 0
    else (if QuestionDimensions[k] == d then Change(answers[k]) else 0) + TallyFrom(answers, k + 1, d)
  }

  lemma {:induction false} TallySplit(answers: seq<Choice>, k: int, d: Dimension)
    requires 0 <= k <= |answers| == QuestionCount
    ensures Tally(answers[k..], k, d) == TallyFrom(answers, k, d)
    decreases QuestionCount - k
  {
    if k < QuestionCount {
      assert answers[k..][1..] == answers[k + 1..];
      TallySplit(answers, k + 1, d);
    } else {
      assert answers[k..] == [];
    }
    assert k == 0 ==> answers[k..] == answers;
  }

  /** A net vote of three answers is odd and within -3..3, so never zero. */
  lemma VoteValues(a0: Choice, a1: Choice, a2: Choice)
    ensures Vote(a0, a1, a2) in {-3, -1, 1, 3}
    ensures Vote(a0, a1, a2) > 0 <==> (a0 == A && a1 == A) || (a0 == A && a2 == A) || (a1 == A && a2 == A)
  {
  }

  /** The answers with every A and B swapped. */
  function Flip(answers: seq<Choice>): (r: seq<Choice>)
    ensures |r| == |answers|
    ensures forall i :: 0 <= i < |answers| ==> r[i] == (if answers[i] == A then B else A)
  {
    seq(|answers|, i requires 0 <= i < |answers| => if answers[i] == A then B else A)
  }

  /** The letter opposite to each letter of the type, pair by pair. */
  function Opposite(code: string): string
    requires |code| == 4
  {
    [if code[0] == 'R' then 'S' else 'R',
     if code[1] == 'S' then 'K' else 'S',
     if code[2] == 'P' then 'I' else 'P',
     if code[3] == 'L' then 'E' else 'L']
  }

  /** Swapping every answer negates every net count. */
  lemma {:induction false} TallyFlip(answers: seq<Choice>, from: int, d: Dimension)
    requires 0 <= from && from + |answers| <= QuestionCount
    ensures Tally(Flip(answers), from, d) == -Tally(answers, from, d)
    decreases |answers|
  {
    if |answers| > 0 {
      assert Flip(answers)[1..] == Flip(answers[1..]);
      TallyFlip(answers[1..], from + 1, d);
    }
  }

  /** With no zero score, negating all scores gives the opposite letters. */
  lemma NegatedScoresOppositeType(sc: Scores)
    requires forall d :: sc.Get(d) != 0
    ensures TypeCode(Scores(-sc.r, -sc.s, -sc.p, -sc.l)) == Opposite(TypeCode(sc))
  {
    assert sc.Get(Risk) != 0 && sc.Get(Spending) != 0 && sc.Get(Planning) != 0 && sc.Get(Logic) != 0;
  }

  /**
   * Each letter is decided by a majority of the three answers to its
   * dimension, so swapping every answer gives the opposite type.
   */
  lemma FlippedAnswersOppositeType(answers: seq<Choice>)
    requires |answers| == QuestionCount
    ensures TakeTest(Flip(answers)).code == Opposite(TakeTest(answers).code)
  {
    var flipped := Flip(answers);
    TakeTestMeaning(answers);
    TakeTestMeaning(flipped);
    var sc := TakeTest(answers).finalScores;
    var fl := TakeTest(flipped).finalScores;
    forall d ensures fl.Get(d) == -sc.Get(d) && sc.Get(d) != 0 {
      TallyFlip(answers, 0, d);
      FinalScoreValues(answers, d);
    }
    assert fl == Scores(-sc.r, -sc.s, -sc.p, -sc.l) by {
      assert fl.Get(Risk) == -sc.r && fl.Get(Spending) == -sc.s;
      assert fl.Get(Planning) == -sc.p && fl.Get(Logic) == -sc.l;
    }
    NegatedScoresOppositeType(sc);
  }

  /** Every final score is one of -3, -1, 1, 3. */
  lemma FinalScoreValues(answers: seq<Choice>, d: Dimension)
    requires |answers| == QuestionCount
    ensures TakeTest(answers).finalScores.Get(d) in {-3, -1, 1, 3}
  {
    TakeTestMeaning(answers);
    TallyByDimension(answers);
    match d
    case Risk => VoteValues(answers[0], answers[1], answers[2]);
    case Spending => VoteValues(answers[3], answers[4], answers[5]);
    case Planning => VoteValues(answers[6], answers[7], answers[8]);
    case Logic => VoteValues(answers[9], answers[10], answers[11]);
  }
}

=== FILE: health_data_input.dfy ===
/**
 * The health-metrics form (src/components/HealthDataInput.tsx): defaults when
 * no metrics exist yet, a merge of each edit into the current metrics, the
 * family-history tag toggle, the numeric inputs with their `|| 0` fallback,
 * and the smoking switch.
 */
module HealthDataInput {
  import opened Common
  import opened Types
  import MedicalLogic

  /** `defaultMetrics`: BMI 22, 120/80 mmHg, fasting glucose 90, no family history, non-smoker. */
  const DefaultMetrics := HealthMetrics(22.0, BloodPressure(120, 80), 90, [], false)

  /** `healthMetrics || defaultMetrics`: the metrics the form shows and edits. */
  function Shown(given: Option<HealthMetrics>): HealthMetrics
  {
    match given
    case Some(m) => m
    case None => DefaultMetrics
  }

  /** `current.filter(t => t !== tag)` */
  function Without(history: seq<string>, tag: string): (r: seq<string>)
    ensures |r| <= |history|
    ensures forall t :: t in r <==> t in history && t != tag
  {
    if |history| == 0 then []
    else
      var rest := Without(history[1..], tag);
      assert forall t :: t in history <==> t == history[0] || t in history[1..];
      if history[0] != tag then [history[0]] + rest else rest
  }

  /** `toggleFamilyHistory`: drop every copy of a present tag, append an absent one. */
  function Toggle(history: seq<string>, tag: string): seq<string>
  {
    if tag in history then Without(history, tag) else history + [tag]
  }

  /** Filtering out a tag that is not there changes nothing. */
  lemma {:induction false} WithoutAbsent(history: seq<string>, tag: string)
    requires tag !in history
    ensures Without(history, tag) == history
    decreases |history|
  {
    if |history| > 0 {
      WithoutAbsent(history[1..], tag);
      assert history == [history[0]] + history[1..];
    }
  }

  /** Filtering keeps the order of the remaining tags: it is a prefix-respecting removal. */
  lemma {:induction false} WithoutAppend(history: seq<string>, extra: seq<string>, tag: string)
    ensures Without(history + extra, tag) == Without(history, tag) + Without(extra, tag)
    decreases |history|
  {
    if |history| == 0 {
      assert history + extra == extra;
    } else {
      assert (history + extra)[1..] == history[1..] + extra;
      WithoutAppend(history[1..], extra, tag);
    }
  }

  /** Removing a present tag removes at least one entry. */
  lemma {:induction false} WithoutShrinks(history: seq<string>, tag: string)
    requires tag in history
    ensures |Without(history, tag)| < |history|
    decreases |history|
  {
    if history[0] != tag {
      WithoutShrinks(history[1..], tag);
    }
  }

  /**
   * A toggle flips the tag's membership and leaves every other tag as it
   * was; toggling an absent tag twice restores the list exactly.
   */
  lemma ToggleMeaning(history: seq<string>, tag: string, other: string)
    requires other != tag
    ensures tag in Toggle(history, tag) <==> tag !in history
    ensures other in Toggle(history, tag) <==> other in history
    ensures tag !in history ==> Toggle(Toggle(history, tag), tag) == history
    ensures tag !in history ==> Toggle(history, tag)[..|history|] == history
    ensures tag in history ==> |Toggle(history, tag)| < |history|
  {
    if tag in history {
      WithoutShrinks(history, tag);
    } else {
      assert (history + [tag])[..|history|] == history;
      WithoutAppend(history, [tag], tag);
      WithoutAbsent(history, tag);
      assert Without([tag], tag) == [];
    }
  }

  /** `{ ...metrics, familyHistory: toggled }` */
  function ToggleFamilyHistory(m: HealthMetrics, tag: string): HealthMetrics
  {
    m.(familyHistory := Toggle(m.familyHistory, tag))
  }

  /** `parseFloat(text) || 0`: an unparsable entry (`None`, NaN in the source) or zero gives zero. */
  function ParsedOrZero(parsed: Option<real>): (r: real)
    ensures parsed.None? ==> r == 0.0
    ensures parsed.Some? ==> r == parsed.value
  {
    match parsed
    case None => 0.0
    case Some(v) => v
  }

  /** `parseInt(text) || 0` */
  function ParsedIntOrZero(parsed: Option<int>): (r: int)
    ensures parsed.None? ==> r == 0
    ensures parsed.Some? ==> r == parsed.value
  {
    match parsed
    case None => 0
    case Some(v) => v
  }

  /** The edits the form sends, each merged into the shown metrics. */
  datatype Edit =
    | SetSystolic(systolic: int)
    | SetDiastolic(diastolic: int)
    | SetBmi(bmiText: Option<real>)
    | SetGlucose(glucoseText: Option<int>)
    | ToggleHistory(tag: string)
    | ToggleSmoking

  /** `updateMetrics({ ... })` for each control. */
  function Apply(m: HealthMetrics, e: Edit): HealthMetrics
  {
    match e
    case SetSystolic(v) => m.(bloodPressure := m.bloodPressure.(systolic := v))
    case SetDiastolic(v) => m.(bloodPressure := m.bloodPressure.(diastolic := v))
    case SetBmi(p) => m.(bmi := ParsedOrZero(p))
    case SetGlucose(p) => m.(glucose := ParsedIntOrZero(p))
    case ToggleHistory(tag) => ToggleFamilyHistory(m, tag)
    case ToggleSmoking => m.(smoking := !m.smoking)
  }

  /** The first edit of a user without metrics starts from the defaults. */
  function EditShown(given: Option<HealthMetrics>, e: Edit): HealthMetrics
  {
    Apply(Shown(given), e)
  }

  /**
   * Each edit changes only its own field: blood pressure edits keep the
   * other reading, and no edit touches a field it does not name.
   */
  lemma EditsAreLocal(m: HealthMetrics, e: Edit)
    ensures !e.SetSystolic? && !e.SetDiastolic? ==> Apply(m, e).bloodPressure == m.bloodPressure
    ensures e.SetSystolic? ==> Apply(m, e).bloodPressure == BloodPressure(e.systolic, m.bloodPressure.diastolic)
    ensures e.SetDiastolic? ==> Apply(m, e).bloodPressure == BloodPressure(m.bloodPressure.systolic, e.diastolic)
    ensures !e.SetBmi? ==> Apply(m, e).bmi == m.bmi
    ensures !e.SetGlucose? ==> Apply(m, e).glucose == m.glucose
    ensures !e.ToggleHistory? ==> Apply(m, e).familyHistory == m.familyHistory
    ensures !e.ToggleSmoking? ==> Apply(m, e).smoking == m.smoking
  {
  }

  /**
   * A blank or unparsable number field is the same edit as typing 0, and
   * the scorer reads that 0 as no finding: a cleared BMI removes exactly
   * its BMI points from the heart risk, and a cleared glucose removes the
   * medical entry.
   */
  lemma BlankFieldsReadAsZero(m: HealthMetrics)
    ensures Apply(m, SetBmi(None)) == Apply(m, SetBmi(Some(0.0)))
    ensures Apply(m, SetGlucose(None)) == Apply(m, SetGlucose(Some(0)))
    ensures MedicalLogic.HeartPoints(Apply(m, SetBmi(None))) == MedicalLogic.HeartPoints(m) - MedicalLogic.BmiPoints(m)
    ensures MedicalLogic.Lookup(MedicalLogic.CalculateHealthRisks(Apply(m, SetGlucose(None))), Medical).None?
  {
    var cleared := Apply(m, SetBmi(None));
    assert cleared == m.(bmi := 0.0);
    assert MedicalLogic.BmiPoints(cleared) == 0;
    var g := Apply(m, SetGlucose(None));
    assert g.glucose == 0;
    MedicalLogic.LookupRisks(g, Medical);
  }

  /** The smoking switch and a fresh tag's toggle undo themselves. */
  lemma TogglesUndo(m: HealthMetrics, tag: string)
    ensures Apply(Apply(m, ToggleSmoking), ToggleSmoking) == m
    ensures tag !in m.familyHistory ==> Apply(Apply(m, ToggleHistory(tag)), ToggleHistory(tag)) == m
  {
    if tag !in m.familyHistory {
      ToggleMeaning(m.familyHistory, tag, tag + "x");
    }
  }

  /** The defaults describe a healthy adult: the risk scorer reports nothing for them. */
  lemma DefaultsCarryNoRisk()
    ensures MedicalLogic.CalculateHealthRisks(DefaultMetrics) == []
  {
    MedicalLogic.PresenceConditions(DefaultMetrics);
  }

  /**
   * Switching on the cancer family-history tag raises the cancer risk by
   * 50 points; switching it off again removes them.
   */
  lemma CancerTagWorth50(m: HealthMetrics)
    requires "cancer" !in m.familyHistory
    ensures MedicalLogic.CancerPoints(ToggleFamilyHistory(m, "cancer")) == MedicalLogic.CancerPoints(m) + 50
    ensures ToggleFamilyHistory(ToggleFamilyHistory(m, "cancer"), "cancer") == m
  {
    ToggleMeaning(m.familyHistory, "cancer", "brain");
  }
}

=== FILE: insurance_dashboard.dfy ===
/**
 * The insurance dashboard's own gap list (src/components/InsuranceDashboard.tsx):
 * the keys of the user's coverage record whose amount is under 70% of the
 * standard, handed with the gap count of src/lib/data.ts to the closing
 * script. The dashboard recomputes the gap test instead of reusing it, so
 * the two must agree for the script to make sense.
 */
module InsuranceDashboard {
  import opened Common
  import opened Types
  import opened Data
  import opened AIClosing

  /** `Object.keys(coverages).filter(k => coverages[k] < standard[k] * 0.7)` over `keys`. */
  function MissingItems(user: Coverage, standard: Coverage, keys: seq<Category>): (r: seq<string>)
    ensures |r| <= |keys|
  {
    if |keys| == 0 then []
    else
      var k := keys[0];
      var rest := MissingItems(user, standard, keys[1..]);
      if user.Get(k) < standard.Get(k) * 0.7 then [KeyName(k)] + rest else rest
  }

  /** The list the dashboard passes, over the record's five keys. */
  function Missing(user: Coverage, standard: Coverage): seq<string>
  {
    MissingItems(user, standard, Categories)
  }

  /** Distinct categories have distinct property names. */
  lemma KeyNameInjective(c: Category, d: Category)
    ensures KeyName(c) == KeyName(d) <==> c == d
  {
    if c != d {
      assert KeyName(c)[0] != KeyName(d)[0] || |KeyName(c)| != |KeyName(d)|;
    }
  }

  /** The names of the gaps data.ts counts, in key order. */
  function GapNames(cs: seq<Category>): (r: seq<string>)
    ensures |r| == |cs|
    ensures forall i :: 0 <= i < |cs| ==> r[i] == KeyName(cs[i])
  {
    seq(|cs|, i requires 0 <= i < |cs| => KeyName(cs[i]))
  }

  /**
   * The dashboard's list is exactly the names of the categories
   * `calculateGapScore` counts as gaps, in the same order; so with a
   * positive standard its length is the gap count.
   */
  lemma {:induction false} MissingItemsAreGaps(user: Coverage, standard: Coverage, keys: seq<Category>)
    ensures MissingItems(user, standard, keys) == GapNames(GapsIn(user, standard, keys))
    decreases |keys|
  {
    if |keys| > 0 {
      MissingItemsAreGaps(user, standard, keys[1..]);
      var k := keys[0];
      assert (standard.Get(k) * 0.7 == 0.7 * standard.Get(k));
      if IsGap(user, standard, k) {
        assert GapsIn(user, standard, keys) == [k] + GapsIn(user, standard, keys[1..]);
        assert GapNames([k] + GapsIn(user, standard, keys[1..])) == [KeyName(k)] + GapNames(GapsIn(user, standard, keys[1..]));
      }
    }
  }

  /** The list the script sees names each category exactly when that category is a gap, and is as long as the gap count. */
  lemma MissingMatchesGapScore(user: Coverage, standard: Coverage, c: Category)
    requires standard.Positive()
    ensures |Missing(user, standard)| == CalculateGapScore(user, standard).gapCount
    ensures KeyName(c) in Missing(user, standard) <==> user.Get(c) < 0.7 * standard.Get(c)
  {
    MissingItemsAreGaps(user, standard, Categories);
    GapScoreMeaning(user, standard);
    var gaps := GapsIn(user, standard, Categories);
    if KeyName(c) in Missing(user, standard) {
      var i :| 0 <= i < |gaps| && GapNames(gaps)[i] == KeyName(c);
      KeyNameInjective(gaps[i], c);
    }
  }

  /** The closing script the dashboard shows. */
  function DashboardScript(user: Coverage, standard: Coverage): Script
    requires standard.Positive()
  {
    ScriptFor(CalculateGapScore(user, standard).gapCount, Missing(user, standard))
  }

  /** The gap count is zero exactly when no category is a gap. */
  lemma NoGapsMeansZeroCount(user: Coverage, standard: Coverage)
    requires standard.Positive()
    ensures CalculateGapScore(user, standard).gapCount == 0 <==> forall c :: !IsGap(user, standard, c)
  {
    GapScoreMeaning(user, standard);
    var gaps := GapsIn(user, standard, Categories);
    if |gaps| > 0 {
      assert IsGap(user, standard, gaps[0]);
    } else {
      forall c ensures !IsGap(user, standard, c) {
        assert c in Categories;
      }
    }
  }

  /** Every entry of the list is the property name of a category that is a gap. */
  lemma MissingAreGapNames(user: Coverage, standard: Coverage, k: string)
    requires k in Missing(user, standard)
    ensures exists c :: KeyName(c) == k && IsGap(user, standard, c)
  {
    MissingItemsAreGaps(user, standard, Categories);
    var gaps := GapsIn(user, standard, Categories);
    var i :| 0 <= i < |gaps| && GapNames(gaps)[i] == k;
    assert KeyName(gaps[i]) == k && gaps[i] in gaps;
  }

  /**
   * The pitch in terms of the cover itself: perfect exactly without gaps;
   * vascular exactly when brain or heart is a gap; cancer exactly when only
   * cancer among the three is.
   */
  lemma DashboardScriptMeaning(user: Coverage, standard: Coverage)
    requires standard.Positive()
    ensures DashboardScript(user, standard) == Perfect <==> forall c :: !IsGap(user, standard, c)
    ensures DashboardScript(user, standard) == Vascular <==> IsGap(user, standard, Brain) || IsGap(user, standard, Heart)
    ensures DashboardScript(user, standard) == CancerFocus <==>
      IsGap(user, standard, Cancer) && !IsGap(user, standard, Brain) && !IsGap(user, standard, Heart)
  {
    NoGapsMeansZeroCount(user, standard);
    MissingMatchesGapScore(user, standard, Cancer);
    MissingMatchesGapScore(user, standard, Brain);
    MissingMatchesGapScore(user, standard, Heart);
  }

  /**
   * The rebalance pitch is only reached with gaps in medical or death
   * alone, and then its list is never empty and names nothing else.
   */
  lemma RebalanceListsMedicalAndDeath(user: Coverage, standard: Coverage, k: string)
    requires standard.Positive()
    requires DashboardScript(user, standard).Rebalance?
    ensures Missing(user, standard) != []
    ensures k in Missing(user, standard) ==> k == "medical" || k == "death"
  {
    NoGapsMeansZeroCount(user, standard);
    MissingMatchesGapScore(user, standard, Medical);
    MissingMatchesGapScore(user, standard, Death);
    MissingMatchesGapScore(user, standard, Cancer);
    MissingMatchesGapScore(user, standard, Brain);
    MissingMatchesGapScore(user, standard, Heart);
    var c :| IsGap(user, standard, c);
    MissingMatchesGapScore(user, standard, c);
    if k in Missing(user, standard) {
      MissingAreGapNames(user, standard, k);
    }
  }
}

=== FILE: insurance_diet_summary.dfy ===
/**
 * The over-coverage summary card (src/components/InsuranceDietSummary.tsx):
 * an "already optimised" card for an empty proposal list, otherwise the
 * summed monthly saving and, per proposal, a category label and a bar
 * whose width is the target as a percentage of the current amount.
 */
module InsuranceDietSummary {
  import opened Common
  import opened Types
  import opened DietLogic
  import FinanceAIAnalysis
  import Data

  /** The heading of a proposal: the three diagnoses by name, anything else as "other cover". */
  datatype Label = CancerLabel | BrainLabel | HeartLabel | OtherLabel

  function LabelOf(c: Category): Label
  {
    if c == Cancer then CancerLabel else if c == Brain then BrainLabel else if c == Heart then HeartLabel else OtherLabel
  }

  /** `recommendations.reduce((sum, rec) => sum + rec.savingsPotential, 0)` */
  function TotalSavings(recs: seq<DietRecommendation>): int
  {
    if |recs| == 0 then 0 else TotalSavings(recs[..|recs| - 1]) + recs[|recs| - 1].savingsPotential
  }

  /** `(rec.targetAmount / rec.currentAmount) * 100`, with the source's division by zero. */
  function BarWidth(rec: DietRecommendation): FinanceAIAnalysis.JsNumber
  {
    FinanceAIAnalysis.Percent(FinanceAIAnalysis.JsDivide(rec.targetAmount as real, rec.currentAmount))
  }

  /** One row of the list: label, "strongly advised" badge for high priority, saving and bar. */
  datatype Row = Row(heading: Label, strong: bool, saving: int, width: FinanceAIAnalysis.JsNumber)

  datatype Summary = Optimised | Proposals(totalSaving: int, rows: seq<Row>)

  /** The card for a list of proposals. */
  function Summarize(recs: seq<DietRecommendation>): (r: Summary)
    ensures r.Optimised? <==> |recs| == 0
    ensures r.Proposals? ==> |r.rows| == |recs|
  {
    if |recs| == 0 then Optimised
    else Proposals(TotalSavings(recs), seq(|recs|, i requires 0 <= i < |recs| =>
      Row(LabelOf(recs[i].category), recs[i].priority == High, recs[i].savingsPotential, BarWidth(recs[i]))))
  }

  /** Reference definition: the savings summed first to last. */
  function SavingsFrom(recs: seq<DietRecommendation>): int
  {
    if |recs| == 0 then 0 else recs[0].savingsPotential + SavingsFrom(recs[1..])
  }

  /** The left-to-right `reduce` adds up the same savings as the reference sum. */
  lemma {:induction false} TotalSavingsMeaning(recs: seq<DietRecommendation>)
    ensures TotalSavings(recs) == SavingsFrom(recs)
    decreases |recs|
  {
    if |recs| > 0 {
      var init := recs[..|recs| - 1];
      TotalSavingsMeaning(init);
      SavingsFromSnoc(init, recs[|recs| - 1]);
      assert init + [recs[|recs| - 1]] == recs;
    }
  }

  lemma {:induction false} SavingsFromSnoc(recs: seq<DietRecommendation>, last: DietRecommendation)
    ensures SavingsFrom(recs + [last]) == SavingsFrom(recs) + last.savingsPotential
    decreases |recs|
  {
    if |recs| > 0 {
      assert (recs + [last])[1..] == recs[1..] + [last];
      SavingsFromSnoc(recs[1..], last);
    }
  }

  /** With no negative saving, the headline total is at least every single proposal's saving. */
  lemma {:induction false} TotalCoversEachSaving(recs: seq<DietRecommendation>, i: int)
    requires forall e :: e in recs ==> e.savingsPotential >= 0
    requires 0 <= i < |recs|
    ensures TotalSavings(recs) >= recs[i].savingsPotential >= 0
    decreases |recs|
  {
    TotalNonNegative(recs[..|recs| - 1]);
    if i < |recs| - 1 {
      assert recs[..|recs| - 1][i] == recs[i];
      TotalCoversEachSaving(recs[..|recs| - 1], i);
    }
  }

  lemma {:induction false} TotalNonNegative(recs: seq<DietRecommendation>)
    requires forall e :: e in recs ==> e.savingsPotential >= 0
    ensures TotalSavings(recs) >= 0
    decreases |recs|
  {
    if |recs| > 0 {
      assert forall e :: e in recs[..|recs| - 1] ==> e in recs;
      TotalNonNegative(recs[..|recs| - 1]);
    }
  }

  /** The card the dashboard shows for a user's cover against the standard. */
  function SummaryFor(user: Coverage, standard: Coverage): Summary
  {
    Summarize(CalculateDietRecommendations(user, standard))
  }

  /**
   * The optimised card appears exactly when no category is over 150% of a
   * positive standard; otherwise the headline saving is non-negative and
   * at least each listed saving.
   */
  lemma SummaryMeaning(user: Coverage, standard: Coverage, i: int)
    ensures SummaryFor(user, standard).Optimised? <==> forall c :: !OverCovered(user, standard, c)
    ensures SummaryFor(user, standard).Proposals? ==> SummaryFor(user, standard).totalSaving >= 0
    ensures SummaryFor(user, standard).Proposals? && 0 <= i < |SummaryFor(user, standard).rows| ==>
      SummaryFor(user, standard).totalSaving >= SummaryFor(user, standard).rows[i].saving >= 0
  {
    var recs := CalculateDietRecommendations(user, standard);
    NoOverCoverageNoProposals(user, standard);
    ProposalsSaveMoney(user, standard);
    TotalNonNegative(recs);
    if 0 <= i < |recs| {
      TotalCoversEachSaving(recs, i);
    }
  }

  /**
   * For a proposal of the recommender with a whole standard, the bar is a
   * finite width strictly between 0% and 100%: the target is at least 1
   * and below the current amount.
   */
  lemma BarWidthInRange(user: Coverage, standard: Coverage, c: Category)
    requires IsWhole(standard.Get(c))
    requires Lookup(CalculateDietRecommendations(user, standard), c).Some?
    ensures var w := BarWidth(Lookup(CalculateDietRecommendations(user, standard), c).value);
      w.Finite? && 0.0 < w.v < 100.0
  {
    var e := Lookup(CalculateDietRecommendations(user, standard), c).value;
    DietRecommendationsMeaning(user, standard, c);
    var std := standard.Get(c);
    TargetBelowCurrent(user.Get(c), std);
    assert std >= 1.0;
    RoundMonotone(1.0, 1.1 * std);
    RoundOfInt(1);
    var t := e.targetAmount as real;
    var a := e.currentAmount;
    assert 0.0 < t < a;
    assert 0.0 < t / a < 1.0 by {
      Data.DivCompare(t, a, 1.0);
    }
  }

  /** Medical and death proposals share the "other cover" heading. */
  lemma OtherLabelCategories(c: Category)
    ensures LabelOf(c) == OtherLabel <==> c == Medical || c == Death
  {
  }
}

=== FILE: life_event_selector.dfy ===
/**
 * The life-event planner (src/components/LifeEventSelector.tsx): six event
 * types with default costs, a configuration step that proposes an age three
 * years ahead, the creation of the event, and the timeline of existing
 * events ordered by age.
 */
module LifeEventSelector {
  import opened Common
  import opened Types
  import opened Sorting

  /** One entry of `EVENT_TYPES`; icons and colours are not modelled. */
  datatype EventType = EventType(kind: string, title: string, defaultCost: real)

  const EventTypes: seq<EventType> := [
    EventType("marriage", "결혼", 3000.0),
    EventType("childbirth", "출산", 1000.0),
    EventType("house", "주택 구입", 50000.0),
    EventType("car", "차량 구입", 4000.0),
    EventType("education", "자녀 교육", 5000.0),
    EventType("other", "기타 이벤트", 1000.0)]

  /** `EVENT_TYPES.find(t => t.type === kind)`: the first entry of that kind. */
  function FindType(types: seq<EventType>, kind: string): (r: Option<EventType>)
    ensures r.Some? ==> r.value in types && r.value.kind == kind
    ensures r.None? <==> forall i :: 0 <= i < |types| ==> types[i].kind != kind
  {
    if |types| == 0 then None
    else if types[0].kind == kind then Some(types[0])
    else FindType(types[1..], kind)
  }

  /** The six kinds are pairwise different, so each has exactly one entry. */
  lemma KindsDistinct()
    ensures forall i, j :: 0 <= i < j < |EventTypes| ==> EventTypes[i].kind != EventTypes[j].kind
  {
    assert forall i :: 0 <= i < |EventTypes| ==> EventTypes[i].kind[0] == "mchceo"[i];
  }

  /** Looking up the kind of any table entry finds that entry. */
  lemma {:induction false} FindEntry(types: seq<EventType>, i: int)
    requires 0 <= i < |types|
    requires forall a, b :: 0 <= a < b < |types| ==> types[a].kind != types[b].kind
    ensures FindType(types, types[i].kind) == Some(types[i])
    decreases i
  {
    if i > 0 {
      assert types[1..][i - 1] == types[i];
      FindEntry(types[1..], i - 1);
    }
  }

  /** `EVENT_TYPES.find(...) || EVENT_TYPES[5]`: the entry shown for an event on the timeline. */
  function DisplayType(kind: string): EventType
  {
    match FindType(EventTypes, kind)
    case Some(t) => t
    case None => EventTypes[5]
  }

  /**
   * A kind in the table is shown with its own entry (label and default
   * cost); any other kind is shown as the "other" entry.
   */
  lemma DisplayTypeMeaning(kind: string, i: int)
    requires 0 <= i < |EventTypes|
    ensures kind == EventTypes[i].kind ==> DisplayType(kind) == EventTypes[i]
    ensures (forall j :: 0 <= j < |EventTypes| ==> EventTypes[j].kind != kind) ==>
      DisplayType(kind) == EventType("other", "기타 이벤트", 1000.0)
  {
    KindsDistinct();
    FindEntry(EventTypes, i);
  }

  /** The form: the selected kind (if any) and the configured age and cost. */
  datatype Selector = Selector(selected: Option<string>, age: int, cost: real)

  /** Initial form: nothing selected, next year's age, no cost. */
  function InitialSelector(fs: FinanceState): Selector
  {
    Selector(None, fs.age + 1, 0.0)
  }

  /** The selection only ever holds a kind of the table. */
  predicate ValidSelector(s: Selector)
  {
    s.selected.Some? ==> FindType(EventTypes, s.selected.value).Some?
  }

  /** `handleTypeSelect`: select the type and propose its default cost three years from now. */
  function SelectType(fs: FinanceState, t: EventType): (r: Selector)
    requires t in EventTypes
    ensures ValidSelector(r)
  {
    TableKindFound(t);
    Selector(Some(t.kind), fs.age + 3, t.defaultCost)
  }

  lemma TableKindFound(t: EventType)
    requires t in EventTypes
    ensures FindType(EventTypes, t.kind) == Some(t)
  {
    KindsDistinct();
    var i :| 0 <= i < |EventTypes| && EventTypes[i] == t;
    FindEntry(EventTypes, i);
  }

  /** The age and cost inputs (`Number(e.target.value)`) replace one field of the form. */
  function SetAge(s: Selector, age: int): (r: Selector)
    ensures ValidSelector(s) ==> ValidSelector(r)
  {
    s.(age := age)
  }

  /** The cost input is a field of its own, beside the age, and likewise cannot unselect the type. */
  function SetCost(s: Selector, cost: real): (r: Selector)
    ensures ValidSelector(s) ==> ValidSelector(r)
  {
    s.(cost := cost)
  }

  /** What `handleAdd` does: the form afterwards and the event handed to `onAddEvent`, if any. */
  datatype AddResult = AddResult(form: Selector, added: Option<LifeEvent>)

  /**
   * `handleAdd`, with the fresh random identifier supplied as `id`: without
   * a selection nothing happens; otherwise the event is built from the
   * selected type's label and the configured age and cost, and the
   * selection is cleared.
   */
  function HandleAdd(s: Selector, id: string): (r: AddResult)
    requires ValidSelector(s)
    ensures ValidSelector(r.form)
  {
    match s.selected
    case None => AddResult(s, None)
    case Some(kind) =>
      var t := FindType(EventTypes, kind).value;
      AddResult(s.(selected := None), Some(LifeEvent(id, kind, t.title, s.age, s.cost, None, None)))
  }

  /**
   * Adding without a selection changes nothing; with one, the new event
   * carries the selected kind, that kind's label and the configured age and
   * cost, and the form keeps its age and cost but loses the selection.
   */
  lemma HandleAddMeaning(s: Selector, id: string)
    requires ValidSelector(s)
    ensures s.selected.None? ==> HandleAdd(s, id) == AddResult(s, None)
    ensures s.selected.Some? ==>
      var r := HandleAdd(s, id);
      r.added.Some? && r.form == Selector(None, s.age, s.cost) &&
      r.added.value.id == id && r.added.value.kind == s.selected.value &&
      r.added.value.name == DisplayType(s.selected.value).title &&
      r.added.value.age == s.age && r.added.value.cost == s.cost
  {
  }

  /**
   * Choosing a type and adding it straight away schedules that type's
   * default cost at the age three years from now, under its own label.
   */
  lemma SelectThenAdd(fs: FinanceState, i: int, id: string)
    requires 0 <= i < |EventTypes|
    ensures var r := HandleAdd(SelectType(fs, EventTypes[i]), id);
      r.added == Some(LifeEvent(id, EventTypes[i].kind, EventTypes[i].title, fs.age + 3, EventTypes[i].defaultCost, None, None))
  {
    var t := EventTypes[i];
    TableKindFound(t);
    var s := SelectType(fs, t);
    assert s == Selector(Some(t.kind), fs.age + 3, t.defaultCost);
  }

  function EventAge(e: LifeEvent): int
  {
    e.age
  }

  /** `lifeEvents.sort((a, b) => a.age - b.age)`; the source sorts the state's own list in place. */
  function Timeline(events: seq<LifeEvent>): seq<LifeEvent>
  {
    Sort(events, EventAge)
  }

  /**
   * The timeline shows the same events, youngest age first, and events
   * planned for the same age keep the order in which they were added.
   */
  lemma TimelineMeaning(events: seq<LifeEvent>, age: int)
    ensures multiset(Timeline(events)) == multiset(events)
    ensures forall i, j :: 0 <= i < j < |Timeline(events)| ==> Timeline(events)[i].age <= Timeline(events)[j].age
    ensures WithKey(Timeline(events), EventAge, age) == WithKey(events, EventAge, age)
  {
    SortSorted(events, EventAge);
    SortStable(events, EventAge, age);
  }

  /** Because the sort writes back into the state, a second render finds the list already ordered and keeps it. */
  lemma TimelineIdempotent(events: seq<LifeEvent>)
    ensures Timeline(Timeline(events)) == Timeline(events)
  {
    SortSorted(events, EventAge);
    SortOfSorted(Timeline(events), EventAge);
  }
}

=== FILE: medical_logic.dfy ===
/**
 * The rule-based health-risk scorer (src/lib/medicalLogic.ts): additive
 * points per category from blood pressure, BMI, smoking, family history and
 * fasting glucose, emitted in the fixed order heart, brain, cancer, medical.
 * Reason texts are paraphrased; what matters is which ones fire and in what order.
 */
module MedicalLogic {
  import opened Common
  import opened Types

  const HighBpHeart := "signs of hypertension (higher cardiovascular risk)"
  const HighBpBrain := "signs of hypertension (higher cerebrovascular risk)"
  const ElevatedBp := "elevated blood pressure"
  const Obese := "obesity (extra strain on the heart)"
  const Overweight := "overweight"
  const SmokingHeart := "smoking (worse cardiovascular health)"
  const SmokingBrain := "smoking (higher stroke risk)"
  const FamilyHeart := "family history of heart disease"
  const FamilyBrain := "family history of cerebrovascular disease"
  const FamilyCancer := "family history of cancer (hereditary factors)"
  const SmokingCancer := "smoking (higher rates of lung and other cancers)"
  const HighGlucose := "high fasting glucose (diabetes complications)"

  /** Separator used when several reasons fire. */
  const ReasonSeparator := ", "

  /** The high blood-pressure tier: systolic at least 140 or diastolic at least 90. */
  predicate HighBp(m: HealthMetrics)
  {
    m.bloodPressure.systolic >= 140 || m.bloodPressure.diastolic >= 90
  }

  /** The middle tier: not high, but systolic at least 130. */
  predicate ElevatedBpOnly(m: HealthMetrics)
  {
    !HighBp(m) && m.bloodPressure.systolic >= 130
  }

  /** An accumulator and its reason list, as the source keeps them side by side. */
  datatype Tally = Tally(risk: int, reasons: seq<string>)
  {
    function Add(points: int, reason: string): Tally
    {
      Tally(risk + points, reasons + [reason])
    }

    /** Points without a reason (the brain's middle blood-pressure tier). */
    function Bump(points: int): Tally
    {
      Tally(risk + points, reasons)
    }
  }

  function HeartTally(m: HealthMetrics): Tally
  {
    var t0 := Tally(0, []);
    var t1 := if HighBp(m) then t0.Add(40, HighBpHeart)
              else if m.bloodPressure.systolic >= 130 then t0.Add(20, ElevatedBp)
              else t0;
    var t2 := if m.bmi >= 30.0 then t1.Add(30, Obese)
              else if m.bmi >= 25.0 then t1.Add(15, Overweight)
              else t1;
    var t3 := if m.smoking then t2.Add(20, SmokingHeart) else t2;
    if "heart" in m.familyHistory then t3.Add(30, FamilyHeart) else t3
  }

  function BrainTally(m: HealthMetrics): Tally
  {
    var t0 := Tally(0, []);
    var t1 := if HighBp(m) then t0.Add(50, HighBpBrain)
              else if m.bloodPressure.systolic >= 130 then t0.Bump(20)
              else t0;
    var t2 := if m.smoking then t1.Add(20, SmokingBrain) else t1;
    if "brain" in m.familyHistory then t2.Add(30, FamilyBrain) else t2
  }

  function CancerTally(m: HealthMetrics): Tally
  {
    var t0 := Tally(0, []);
    var t1 := if "cancer" in m.familyHistory then t0.Add(50, FamilyCancer) else t0;
    if m.smoking then t1.Add(20, SmokingCancer) else t1
  }

  /** The entry for a category whose accumulator is positive, clamped to 100. */
  function EntryIfPositive(c: Category, t: Tally): (r: seq<HealthRisk>)
    ensures |r| <= 1
    ensures forall i :: 0 <= i < |r| ==> r[i].category == c && 0 < r[i].riskLevel <= 100
  {
    if t.risk > 0 then [HealthRisk(c, MinInt(100, t.risk), Join(t.reasons, ReasonSeparator))] else []
  }

  /** Position of a category in the output order. */
  function Rank(c: Category): int
  {
    match c
    case Heart => 0
    case Brain => 1
    case Cancer => 2
    case Medical => 3
    case Death => 4
  }

  /** Entries in strictly increasing output order (so at most one per category). */
  predicate Ranked(r: seq<HealthRisk>)
  {
    forall i, j :: 0 <= i < j < |r| ==> Rank(r[i].category) < Rank(r[j].category)
  }

  /** Every entry has a level in 1..100 and none is for death cover. */
  predicate WellFormed(r: seq<HealthRisk>)
  {
    forall i :: 0 <= i < |r| ==> 0 < r[i].riskLevel <= 100 && r[i].category != Death
  }

  /** Putting an entry for `c` in front of later-ranked entries keeps the list ranked. */
  lemma RankedCons(c: Category, a: seq<HealthRisk>, rest: seq<HealthRisk>)
    requires c != Death
    requires |a| <= 1 && forall i :: 0 <= i < |a| ==> a[i].category == c && 0 < a[i].riskLevel <= 100
    requires Ranked(rest) && WellFormed(rest)
    requires forall j :: 0 <= j < |rest| ==> Rank(rest[j].category) > Rank(c)
    ensures Ranked(a + rest) && WellFormed(a + rest)
    ensures forall j :: 0 <= j < |a + rest| ==> Rank((a + rest)[j].category) >= Rank(c)
  {
    if |a| == 1 {
      forall i, j | 0 <= i < j < |a + rest| ensures Rank((a + rest)[i].category) < Rank((a + rest)[j].category) {
        if i > 0 {
          assert (a + rest)[i] == rest[i - 1] && (a + rest)[j] == rest[j - 1];
        } else {
          assert (a + rest)[j] == rest[j - 1];
        }
      }
    } else {
      assert a + rest == rest;
    }
  }

  /** `calculateHealthRisks` */
  function CalculateHealthRisks(m: HealthMetrics): (r: seq<HealthRisk>)
    ensures |r| <= 4
    ensures WellFormed(r)
    ensures Ranked(r)
  {
    var h := EntryIfPositive(Heart, HeartTally(m));
    var b := EntryIfPositive(Brain, BrainTally(m));
    var k := EntryIfPositive(Cancer, CancerTally(m));
    var g: seq<HealthRisk> := if m.glucose >= 126 then [HealthRisk(Medical, 40, HighGlucose)] else [];
    RankedCons(Cancer, k, g);
    RankedCons(Brain, b, k + g);
    RankedCons(Heart, h, b + (k + g));
    h + (b + (k + g))
  }

  lemma TallyNonNegative(m: HealthMetrics)
    ensures HeartTally(m).risk >= 0 && BrainTally(m).risk >= 0 && CancerTally(m).risk >= 0
  {
  }

  // ---------------------------------------------------------------------------
  // The additive reading of the rules: points per rule, reasons per fired rule.

  function Flag(b: bool, points: int): int
  {
    if b then points else 0
  }

  function When(b: bool, reason: string): seq<string>
  {
    if b then [reason] else []
  }

  function BmiPoints(m: HealthMetrics): int
  {
    if m.bmi >= 30.0 then 30 else if m.bmi >= 25.0 then 15 else 0
  }

  /** Heart: 40 for high BP, else 20 for the middle tier; 30 or 15 for BMI; 20 smoking; 30 family history. */
  function HeartPoints(m: HealthMetrics): int
  {
    Flag(HighBp(m), 40) + Flag(ElevatedBpOnly(m), 20) + BmiPoints(m)
    + Flag(m.smoking, 20) + Flag("heart" in m.familyHistory, 30)
  }

  function HeartReasons(m: HealthMetrics): seq<string>
  {
    When(HighBp(m), HighBpHeart) + When(ElevatedBpOnly(m), ElevatedBp)
    + When(m.bmi >= 30.0, Obese) + When(25.0 <= m.bmi < 30.0, Overweight)
    + When(m.smoking, SmokingHeart) + When("heart" in m.familyHistory, FamilyHeart)
  }

  /** Brain: 50 for high BP, else 20 for the middle tier; 20 smoking; 30 family history. */
  function BrainPoints(m: HealthMetrics): int
  {
    Flag(HighBp(m), 50) + Flag(ElevatedBpOnly(m), 20)
    + Flag(m.smoking, 20) + Flag("brain" in m.familyHistory, 30)
  }

  /** The middle tier adds brain points but no brain reason. */
  function BrainReasons(m: HealthMetrics): seq<string>
  {
    When(HighBp(m), HighBpBrain) + When(m.smoking, SmokingBrain) + When("brain" in m.familyHistory, FamilyBrain)
  }

  /** Cancer: 50 for family history, 20 for smoking. */
  function CancerPoints(m: HealthMetrics): int
  {
    Flag("cancer" in m.familyHistory, 50) + Flag(m.smoking, 20)
  }

  function CancerReasons(m: HealthMetrics): seq<string>
  {
    When("cancer" in m.familyHistory, FamilyCancer) + When(m.smoking, SmokingCancer)
  }

  /** The sequential accumulators compute the additive points and the fired reasons in check order. */
  lemma TalliesAreAdditive(m: HealthMetrics)
    ensures HeartTally(m) == Tally(HeartPoints(m), HeartReasons(m))
    ensures BrainTally(m) == Tally(BrainPoints(m), BrainReasons(m))
    ensures CancerTally(m) == Tally(CancerPoints(m), CancerReasons(m))
  {
    HeartAdditive(m);
    BrainAdditive(m);
    CancerAdditive(m);
  }

  lemma HeartAdditive(m: HealthMetrics)
    ensures HeartTally(m) == Tally(HeartPoints(m), HeartReasons(m))
  {
    var w1, w2 := When(HighBp(m), HighBpHeart), When(ElevatedBpOnly(m), ElevatedBp);
    var w3, w4 := When(m.bmi >= 30.0, Obese), When(25.0 <= m.bmi < 30.0, Overweight);
    var w5, w6 := When(m.smoking, SmokingHeart), When("heart" in m.familyHistory, FamilyHeart);
    var t0 := Tally(0, []);
    var t1 := if HighBp(m) then t0.Add(40, HighBpHeart)
              else if m.bloodPressure.systolic >= 130 then t0.Add(20, ElevatedBp)
              else t0;
    assert t1 == Tally(Flag(HighBp(m), 40) + Flag(ElevatedBpOnly(m), 20), w1 + w2);
    var t2 := if m.bmi >= 30.0 then t1.Add(30, Obese)
              else if m.bmi >= 25.0 then t1.Add(15, Overweight)
              else t1;
    assert t2 == Tally(t1.risk + BmiPoints(m), (w1 + w2) + (w3 + w4));
    var t3 := if m.smoking then t2.Add(20, SmokingHeart) else t2;
    assert t3 == Tally(t2.risk + Flag(m.smoking, 20), t2.reasons + w5);
    var t4 := if "heart" in m.familyHistory then t3.Add(30, FamilyHeart) else t3;
    assert t4 == Tally(t3.risk + Flag("heart" in m.familyHistory, 30), t3.reasons + w6);
    assert HeartTally(m) == t4;
    assert HeartReasons(m) == w1 + w2 + w3 + w4 + w5 + w6;
    assert (w1 + w2) + (w3 + w4) == w1 + w2 + w3 + w4;
  }

  lemma BrainAdditive(m: HealthMetrics)
    ensures BrainTally(m) == Tally(BrainPoints(m), BrainReasons(m))
  {
    var t1 := Tally(Flag(HighBp(m), 50) + Flag(ElevatedBpOnly(m), 20), When(HighBp(m), HighBpBrain));
    var t2 := Tally(t1.risk + Flag(m.smoking, 20), t1.reasons + When(m.smoking, SmokingBrain));
    assert BrainReasons(m) == t2.reasons + When("brain" in m.familyHistory, FamilyBrain);
  }

  lemma CancerAdditive(m: HealthMetrics)
    ensures CancerTally(m) == Tally(CancerPoints(m), CancerReasons(m))
  {
  }

  /** The first entry for category `c`, if any. */
  function Lookup(risks: seq<HealthRisk>, c: Category): (r: Option<HealthRisk>)
    ensures r.Some? ==> r.value in risks && r.value.category == c
    ensures r.None? <==> forall i :: 0 <= i < |risks| ==> risks[i].category != c
  {
    if |risks| == 0 then None
    else if risks[0].category == c then Some(risks[0])
    else Lookup(risks[1..], c)
  }

  lemma {:induction false} LookupAppend(a: seq<HealthRisk>, b: seq<HealthRisk>, c: Category)
    ensures Lookup(a + b, c) == if Lookup(a, c).Some? then Lookup(a, c) else Lookup(b, c)
    decreases |a|
  {
    if |a| == 0 {
      assert a + b == b;
    } else {
      assert (a + b)[1..] == a[1..] + b;
      LookupAppend(a[1..], b, c);
    }
  }

  /** The entry the scorer emits for a category with these points and reasons. */
  function Expected(c: Category, points: int, reasons: seq<string>): Option<HealthRisk>
  {
    if points > 0 then Some(HealthRisk(c, MinInt(100, points), Join(reasons, ReasonSeparator))) else None
  }

  /** A single-category block contributes only to its own category. */
  lemma LookupEntry(x: Category, t: Tally, c: Category)
    ensures Lookup(EntryIfPositive(x, t), c) == if c == x then Expected(x, t.risk, t.reasons) else None
  {
  }

  /** The emitted entry of each category, read off its accumulator. */
  function FromTallies(m: HealthMetrics, c: Category): Option<HealthRisk>
  {
    match c
    case Heart => Expected(Heart, HeartTally(m).risk, HeartTally(m).reasons)
    case Brain => Expected(Brain, BrainTally(m).risk, BrainTally(m).reasons)
    case Cancer => Expected(Cancer, CancerTally(m).risk, CancerTally(m).reasons)
    case Medical => if m.glucose >= 126 then Some(HealthRisk(Medical, 40, HighGlucose)) else None
    case Death => None
  }

  lemma LookupRisks(m: HealthMetrics, c: Category)
    ensures Lookup(CalculateHealthRisks(m), c) == FromTallies(m, c)
  {
    var h := EntryIfPositive(Heart, HeartTally(m));
    var b := EntryIfPositive(Brain, BrainTally(m));
    var k := EntryIfPositive(Cancer, CancerTally(m));
    var g: seq<HealthRisk> := if m.glucose >= 126 then [HealthRisk(Medical, 40, HighGlucose)] else [];
    assert CalculateHealthRisks(m) == h + (b + (k + g));
    LookupAppend(h, b + (k + g), c);
    LookupAppend(b, k + g, c);
    LookupAppend(k, g, c);
    LookupEntry(Heart, HeartTally(m), c);
    LookupEntry(Brain, BrainTally(m), c);
    LookupEntry(Cancer, CancerTally(m), c);
  }

  /**
   * What the scorer emits for each category: the clamped additive points and
   * the ", "-joined fired reasons when the points are positive, nothing
   * otherwise; a flat 40 for medical exactly when glucose is at least 126;
   * never a death entry.
   */
  lemma HealthRisksByCategory(m: HealthMetrics)
    ensures Lookup(CalculateHealthRisks(m), Heart) == Expected(Heart, HeartPoints(m), HeartReasons(m))
    ensures Lookup(CalculateHealthRisks(m), Brain) == Expected(Brain, BrainPoints(m), BrainReasons(m))
    ensures Lookup(CalculateHealthRisks(m), Cancer) == Expected(Cancer, CancerPoints(m), CancerReasons(m))
    ensures Lookup(CalculateHealthRisks(m), Medical)
         == if m.glucose >= 126 then Some(HealthRisk(Medical, 40, HighGlucose)) else None
    ensures Lookup(CalculateHealthRisks(m), Death) == None
  {
    TalliesAreAdditive(m);
    LookupRisks(m, Heart);
    LookupRisks(m, Brain);
    LookupRisks(m, Cancer);
    LookupRisks(m, Medical);
    LookupRisks(m, Death);
  }

  /** Each category is present exactly when one of its rules fires. */
  lemma PresenceConditions(m: HealthMetrics)
    ensures Lookup(CalculateHealthRisks(m), Heart).Some? <==>
      (HighBp(m) || m.bloodPressure.systolic >= 130 || m.bmi >= 25.0 || m.smoking || "heart" in m.familyHistory)
    ensures Lookup(CalculateHealthRisks(m), Brain).Some? <==>
      (HighBp(m) || m.bloodPressure.systolic >= 130 || m.smoking || "brain" in m.familyHistory)
    ensures Lookup(CalculateHealthRisks(m), Cancer).Some? <==>
      ("cancer" in m.familyHistory || m.smoking)
    ensures Lookup(CalculateHealthRisks(m), Medical).Some? <==> m.glucose >= 126
  {
    HealthRisksByCategory(m);
  }

  /** Cancer risk is 50 for family history plus 20 for smoking, so never above 70. */
  lemma CancerRiskAtMost70(m: HealthMetrics)
    ensures Lookup(CalculateHealthRisks(m), Cancer).Some? ==>
      var e := Lookup(CalculateHealthRisks(m), Cancer).value;
      e.riskLevel == CancerPoints(m) && e.riskLevel <= 70
  {
    HealthRisksByCategory(m);
  }

  /**
   * With the middle blood-pressure tier, no smoking and no brain family
   * history, the brain entry has 20 points and an empty reason.
   */
  lemma MiddleTierBrainHasNoReason(m: HealthMetrics)
    requires ElevatedBpOnly(m) && !m.smoking && "brain" !in m.familyHistory
    ensures Lookup(CalculateHealthRisks(m), Brain) == Some(HealthRisk(Brain, 20, ""))
    ensures Lookup(CalculateHealthRisks(m), Heart).Some?
    ensures |HeartReasons(m)| > 0 && HeartReasons(m)[0] == ElevatedBp
  {
    HealthRisksByCategory(m);
  }

  /** BMI feeds only the heart entry: changing it leaves the other categories as they were. */
  lemma BmiAffectsOnlyHeart(m: HealthMetrics, bmi: real)
    ensures forall c :: c != Heart ==>
      Lookup(CalculateHealthRisks(m.(bmi := bmi)), c) == Lookup(CalculateHealthRisks(m), c)
  {
    var m2 := m.(bmi := bmi);
    assert BrainTally(m2) == BrainTally(m) && CancerTally(m2) == CancerTally(m);
    assert m2.glucose == m.glucose;
    forall c | c != Heart
      ensures Lookup(CalculateHealthRisks(m2), c) == Lookup(CalculateHealthRisks(m), c)
    {
      LookupRisks(m, c);
      LookupRisks(m2, c);
    }
  }

  /** Glucose feeds only the medical entry. */
  lemma GlucoseAffectsOnlyMedical(m: HealthMetrics, glucose: int)
    ensures forall c :: c != Medical ==>
      Lookup(CalculateHealthRisks(m.(glucose := glucose)), c) == Lookup(CalculateHealthRisks(m), c)
  {
    var m2 := m.(glucose := glucose);
    assert HeartTally(m2) == HeartTally(m) && BrainTally(m2) == BrainTally(m);
    assert CancerTally(m2) == CancerTally(m);
    forall c | c != Medical
      ensures Lookup(CalculateHealthRisks(m2), c) == Lookup(CalculateHealthRisks(m), c)
    {
      LookupRisks(m, c);
      LookupRisks(m2, c);
    }
  }
}

=== FILE: page.dfy ===
/**
 * The application state of the home page (src/app/page.tsx): the initial
 * insurance and finance states, the derived standard and gap analysis, the
 * two change handlers and the reset confirmation.
 */
module Page {
  import opened Common
  import opened Types
  import opened Data
  import ScoreCard
  import InsuranceDashboard
  import AIClosing
  import FinanceSummaryHeader

  /** The starting user: 35, male, with the cover below (name, birth date and metrics unset). */
  const InitialUser := UserState("", 35, "", Male, Coverage(3000.0, 1000.0, 1000.0, 10000.0, 10000.0), None)

  /**
   * The starting finance state. The source leaves the name, birth date,
   * national pension, pension, insurance and life events unset; here they
   * are empty or zero.
   */
  const InitialFinance := FinanceState("", 35, "", 65, 300.0, 500.0, 250.0, 0.0,
    FinanceAssets(5000.0, 3000.0, 0.0, 0.0, 0.0, 0.0, None, None), [])

  datatype AppState = AppState(user: UserState, finance: FinanceState)

  /** `getStandardCoverage(userState.age, userState.gender)` */
  function StandardFor(u: UserState): Coverage
  {
    GetStandardCoverage(u.age, u.gender)
  }

  /** `calculateGapScore(userState.coverages, standardData)`, recomputed on every render. */
  function GapAnalysis(u: UserState): (r: AnalysisResult)
    ensures 0 <= r.gapCount <= 5
    ensures u.coverages.NonNegative() ==> 0 <= r.score <= 100
  {
    CalculateGapScore(u.coverages, StandardFor(u))
  }

  /** The fields `handleStateChange` can set; `CoverageOf` is the `'coverage'` key. */
  datatype UserChange =
    | CoverageOf(category: Category, amount: real)
    | Name(name: string)
    | Age(age: int)
    | BirthDate(birthDate: string)
    | GenderIs(gender: Gender)
    | Metrics(metrics: Option<HealthMetrics>)

  /** `handleStateChange(key, value)` */
  function ChangeUser(u: UserState, ch: UserChange): UserState
  {
    match ch
    case CoverageOf(c, v) => u.(coverages := u.coverages.With(c, v))
    case Name(n) => u.(name := n)
    case Age(a) => u.(age := a)
    case BirthDate(b) => u.(birthDate := b)
    case GenderIs(g) => u.(gender := g)
    case Metrics(m) => u.(healthMetrics := m)
  }

  /**
   * A coverage change sets exactly that category and leaves every other
   * category and every other field as it was; any other change keeps the
   * whole coverage record.
   */
  lemma ChangeUserLocal(u: UserState, ch: UserChange, d: Category)
    ensures ch.CoverageOf? ==>
      var r := ChangeUser(u, ch);
      r.coverages.Get(ch.category) == ch.amount &&
      (d != ch.category ==> r.coverages.Get(d) == u.coverages.Get(d)) &&
      r == u.(coverages := r.coverages)
    ensures !ch.CoverageOf? ==> ChangeUser(u, ch).coverages == u.coverages
    ensures !ch.Age? && !ch.GenderIs? ==> StandardFor(ChangeUser(u, ch)) == StandardFor(u)
  {
  }

  /**
   * Raising a category's cover through the handler never lowers the score
   * nor adds a gap, since the standard depends only on age and gender.
   */
  lemma RaisingCoverHelps(u: UserState, c: Category, v: real)
    requires v >= u.coverages.Get(c)
    ensures GapAnalysis(u).score <= GapAnalysis(ChangeUser(u, CoverageOf(c, v))).score
    ensures GapAnalysis(ChangeUser(u, CoverageOf(c, v))).gapCount <= GapAnalysis(u).gapCount
  {
    GapScoreMonotone(u.coverages, StandardFor(u), c, v);
  }

  /** The six numeric asset fields and the two tracked lists, the keys of the `'assets'` change. */
  datatype AssetChange =
    | Cash(v: real) | Stock(v: real) | RealEstate(v: real) | Pension(v: real) | Insurance(v: real) | Crypto(v: real)
    | TrackedStocks(list: Option<seq<TrackedAsset>>) | TrackedCrypto(list: Option<seq<TrackedAsset>>)

  function ChangeAssets(a: FinanceAssets, ch: AssetChange): FinanceAssets
  {
    match ch
    case Cash(v) => a.(cash := v)
    case Stock(v) => a.(stock := v)
    case RealEstate(v) => a.(realEstate := v)
    case Pension(v) => a.(pension := v)
    case Insurance(v) => a.(insurance := v)
    case Crypto(v) => a.(crypto := v)
    case TrackedStocks(l) => a.(trackedStocks := l)
    case TrackedCrypto(l) => a.(trackedCrypto := l)
  }

  /** The fields `handleFinanceStateChange` can set; `AssetsOf` is the `'assets'` key. */
  datatype FinanceChange =
    | AssetsOf(change: AssetChange)
    | FinanceName(name: string)
    | FinanceAge(age: int)
    | FinanceBirthDate(birthDate: string)
    | RetirementAge(retirementAge: int)
    | TargetMonthlyIncome(target: real)
    | Income(income: real)
    | Expenses(expenses: real)
    | NationalPension(pension: real)
    | LifeEvents(events: seq<LifeEvent>)

  /** `handleFinanceStateChange(key, value)` */
  function ChangeFinance(fs: FinanceState, ch: FinanceChange): FinanceState
  {
    match ch
    case AssetsOf(a) => fs.(assets := ChangeAssets(fs.assets, a))
    case FinanceName(n) => fs.(name := n)
    case FinanceAge(a) => fs.(age := a)
    case FinanceBirthDate(b) => fs.(birthDate := b)
    case RetirementAge(r) => fs.(retirementAge := r)
    case TargetMonthlyIncome(t) => fs.(targetMonthlyIncome := t)
    case Income(i) => fs.(currentIncome := i)
    case Expenses(e) => fs.(currentExpenses := e)
    case NationalPension(p) => fs.(nationalPension := p)
    case LifeEvents(l) => fs.(lifeEvents := l)
  }

  /**
   * A numeric asset change moves the six-field total by exactly the
   * difference between the new and the old value of that field, and no
   * change other than an asset change touches the assets.
   */
  lemma ChangeFinanceLocal(fs: FinanceState, ch: FinanceChange)
    ensures !ch.AssetsOf? ==> ChangeFinance(fs, ch).assets == fs.assets
    ensures ch.AssetsOf? && ch.change.Cash? ==>
      ChangeFinance(fs, ch).assets.ManualTotal() == fs.assets.ManualTotal() - fs.assets.cash + ch.change.v
    ensures ch.AssetsOf? && ch.change.Stock? ==>
      ChangeFinance(fs, ch).assets.ManualTotal() == fs.assets.ManualTotal() - fs.assets.stock + ch.change.v
    ensures ch.AssetsOf? && ch.change.RealEstate? ==>
      ChangeFinance(fs, ch).assets.ManualTotal() == fs.assets.ManualTotal() - fs.assets.realEstate + ch.change.v
    ensures ch.AssetsOf? && ch.change.Pension? ==>
      ChangeFinance(fs, ch).assets.ManualTotal() == fs.assets.ManualTotal() - fs.assets.pension + ch.change.v
    ensures ch.AssetsOf? && ch.change.Insurance? ==>
      ChangeFinance(fs, ch).assets.ManualTotal() == fs.assets.ManualTotal() - fs.assets.insurance + ch.change.v
    ensures ch.AssetsOf? && ch.change.Crypto? ==>
      ChangeFinance(fs, ch).assets.ManualTotal() == fs.assets.ManualTotal() - fs.assets.crypto + ch.change.v
    ensures ch.AssetsOf? && (ch.change.TrackedStocks? || ch.change.TrackedCrypto?) ==>
      ChangeFinance(fs, ch).assets.ManualTotal() == fs.assets.ManualTotal()
    ensures ch.AssetsOf? ==> ChangeFinance(fs, ch) == fs.(assets := ChangeFinance(fs, ch).assets)
    ensures ch.AssetsOf? && !ch.change.TrackedStocks? && !ch.change.TrackedCrypto? ==>
      (ChangeFinance(fs, ch).assets.Untracked() <==> fs.assets.Untracked())
  {
  }

  datatype ResetKind = InsuranceReset | FinanceReset

  /** `handleConfirmReset`: restore the chosen half of the state; without a choice, nothing. */
  function ConfirmReset(s: AppState, kind: Option<ResetKind>): AppState
  {
    match kind
    case Some(InsuranceReset) => s.(user := InitialUser)
    case Some(FinanceReset) => s.(finance := InitialFinance)
    case None => s
  }

  /** Each reset restores its own half and leaves the other half alone; resetting twice is resetting once. */
  lemma ConfirmResetMeaning(s: AppState, kind: Option<ResetKind>)
    ensures kind == Some(InsuranceReset) ==>
      ConfirmReset(s, kind).user == InitialUser && ConfirmReset(s, kind).finance == s.finance
    ensures kind == Some(FinanceReset) ==>
      ConfirmReset(s, kind).finance == InitialFinance && ConfirmReset(s, kind).user == s.user
    ensures kind.None? ==> ConfirmReset(s, kind) == s
    ensures ConfirmReset(ConfirmReset(s, kind), kind) == ConfirmReset(s, kind)
  {
  }

  /** The 30s-male row of the standard table. */
  const ThirtiesMale := Coverage(7000.0, 5000.0, 5000.0, 10000.0, 20000.0)

  /** The starting user (35, male) gets the 30s-male row of the table. */
  lemma InitialStandard()
    ensures StandardFor(InitialUser) == ThirtiesMale
  {
    assert RowIndex(AgeGroup(35), Male) == 1;
  }

  /** Against that standard the starting cover is under 70% in cancer, brain, heart and death. */
  lemma InitialGaps()
    ensures GapsIn(InitialUser.coverages, ThirtiesMale, Categories) == [Cancer, Brain, Heart, Death]
  {
    var u, t := InitialUser.coverages, ThirtiesMale;
    assert GapsIn(u, t, [Death]) == [Death];
    assert GapsIn(u, t, [Medical, Death]) == [Death] by {
      assert [Medical, Death][1..] == [Death];
    }
    assert GapsIn(u, t, [Heart, Medical, Death]) == [Heart, Death] by {
      assert [Heart, Medical, Death][1..] == [Medical, Death];
    }
    assert GapsIn(u, t, [Brain, Heart, Medical, Death]) == [Brain, Heart, Death] by {
      assert [Brain, Heart, Medical, Death][1..] == [Heart, Medical, Death];
    }
    assert Categories[1..] == [Brain, Heart, Medical, Death];
  }

  /** The unrounded score: 3/7, 1/5, 1/5, 1 and 1/2 of the standard, 20 points each. */
  lemma InitialContributions()
    ensures ContributionSum(InitialUser.coverages, ThirtiesMale, Categories) == 20.0 * 3.0 / 7.0 + 38.0
  {
    var u, t := InitialUser.coverages, ThirtiesMale;
    assert ContributionSum(u, t, [Death]) == 10.0;
    assert ContributionSum(u, t, [Medical, Death]) == 30.0 by {
      assert [Medical, Death][1..] == [Death];
    }
    assert ContributionSum(u, t, [Heart, Medical, Death]) == 34.0 by {
      assert [Heart, Medical, Death][1..] == [Medical, Death];
    }
    assert ContributionSum(u, t, [Brain, Heart, Medical, Death]) == 38.0 by {
      assert [Brain, Heart, Medical, Death][1..] == [Heart, Medical, Death];
    }
    assert Categories[1..] == [Brain, Heart, Medical, Death];
    assert Contribution(u, t, Cancer) == 20.0 * 3.0 / 7.0;
  }

  /** The starting user scores 47 with four gaps, so the badge is red. */
  lemma InitialUserAnalysis()
    ensures GapAnalysis(InitialUser) == AnalysisResult(47, 4)
    ensures ScoreCard.StatusOf(GapAnalysis(InitialUser).score) == ScoreCard.Danger
  {
    InitialStandard();
    InitialGaps();
    InitialContributions();
    GapScoreMeaning(InitialUser.coverages, ThirtiesMale);
    assert Round(20.0 * 3.0 / 7.0 + 38.0) == 47;
  }

  /** The dashboard lists the four missing keys of the starting user in key order. */
  lemma InitialMissing()
    ensures InsuranceDashboard.Missing(InitialUser.coverages, StandardFor(InitialUser))
         == [KeyName(Cancer), KeyName(Brain), KeyName(Heart), KeyName(Death)]
  {
    InitialStandard();
    InitialGaps();
    InsuranceDashboard.MissingItemsAreGaps(InitialUser.coverages, ThirtiesMale, Categories);
    var names := InsuranceDashboard.GapNames([Cancer, Brain, Heart, Death]);
    assert names == [KeyName(Cancer), KeyName(Brain), KeyName(Heart), KeyName(Death)];
  }

  /** Brain and heart are among the starting user's gaps, so the closing pitch is the vascular one. */
  lemma InitialUserScript()
    ensures InsuranceDashboard.DashboardScript(InitialUser.coverages, StandardFor(InitialUser)) == AIClosing.Vascular
  {
    InitialStandard();
    assert IsGap(InitialUser.coverages, ThirtiesMale, Brain);
    InsuranceDashboard.DashboardScriptMeaning(InitialUser.coverages, ThirtiesMale);
  }

  /** The starting finance state saves half its income, which the header shows as 50%. */
  lemma InitialFinanceSavingsRate()
    ensures FinanceSummaryHeader.DisplayedSavingsRate(InitialFinance) == 50
    ensures FinanceSummaryHeader.MonthlyCashFlow(InitialFinance) == 250.0
  {
    assert (500.0 - 250.0) / 500.0 * 100.0 == 50.0;
  }
}

=== FILE: policy_risk_modal.dfy ===
/**
 * The ordering the policy risk dialog applies before listing the detected
 * risks (src/components/PolicyRiskModal.tsx): critical first, then warnings,
 * then informational notes, with a "no risks found" view for an empty list.
 */
module PolicyRiskModal {
  import opened Types
  import opened Sorting

  /** The comparator's score table. */
  function Severity(level: RiskLevel): int
  {
    match level
    case Critical => 3
    case Warning => 2
    case Info => 1
  }

  /** `score[b.level] - score[a.level]` orders by this key ascending. */
  function SeverityKey(risk: PolicyRisk): int
  {
    -Severity(risk.level)
  }

  /** `[...risks].sort(...)`: a sorted copy; the input list is not changed. */
  function SortedRisks(risks: seq<PolicyRisk>): seq<PolicyRisk>
  {
    Sort(risks, SeverityKey)
  }

  /** The risks of one level, in list order. */
  function AtLevel(risks: seq<PolicyRisk>, level: RiskLevel): seq<PolicyRisk>
  {
    WithKey(risks, SeverityKey, -Severity(level))
  }

  /** The dialog shows the "no risks found" view exactly when there is nothing to list. */
  function ShowsNoRisks(risks: seq<PolicyRisk>): (r: bool)
    ensures r <==> |risks| == 0
  {
    |SortedRisks(risks)| == 0
  }

  /**
   * The displayed list holds the same risks as the input, more severe ones
   * before less severe ones, and keeps the input order among risks of the
   * same level.
   */
  lemma SortedRisksMeaning(risks: seq<PolicyRisk>)
    ensures multiset(SortedRisks(risks)) == multiset(risks)
    ensures forall i, j :: 0 <= i < j < |SortedRisks(risks)| ==>
      Severity(SortedRisks(risks)[i].level) >= Severity(SortedRisks(risks)[j].level)
    ensures forall level :: AtLevel(SortedRisks(risks), level) == AtLevel(risks, level)
  {
    SortSorted(risks, SeverityKey);
    forall level ensures AtLevel(SortedRisks(risks), level) == AtLevel(risks, level) {
      SortStable(risks, SeverityKey, -Severity(level));
    }
  }

  /** A list already ordered by severity is displayed in its own order. */
  lemma OrderedRisksUnchanged(risks: seq<PolicyRisk>)
    requires forall i, j :: 0 <= i < j < |risks| ==> Severity(risks[i].level) >= Severity(risks[j].level)
    ensures SortedRisks(risks) == risks
  {
    SortOfSorted(risks, SeverityKey);
  }
}

=== FILE: policy_utils.dfy ===
/**
 * Keyword-based detection of risky clauses in an insurance policy text
 * (src/lib/policyUtils.ts). The text is first normalised (every run of
 * whitespace becomes one space), then four independent rules look for their
 * Korean keywords and each contributes at most one risk, in rule order.
 */
module PolicyUtils {
  import opened Common
  import opened Types

  /** A character of the ECMAScript `\s` class (WhiteSpace and LineTerminator). */
  predicate IsSpace(c: char)
  {
    var n := c as int;
    n == 0x09 || n == 0x0A || n == 0x0B || n == 0x0C || n == 0x0D || n == 0x20 ||
    n == 0xA0 || n == 0x1680 || (0x2000 <= n <= 0x200A) || n == 0x2028 || n == 0x2029 ||
    n == 0x202F || n == 0x205F || n == 0x3000 || n == 0xFEFF
  }

  /** The text after its leading run of whitespace. */
  function SkipSpaces(s: string): (r: string)
    ensures |r| <= |s| && r == s[|s| - |r|..]
    ensures forall i :: 0 <= i < |s| - |r| ==> IsSpace(s[i])
    ensures |r| > 0 ==> !IsSpace(r[0])
  {
    if |s| > 0 && IsSpace(s[0]) then SkipSpaces(s[1..]) else s
  }

  /** `text.replace(/\s+/g, ' ')`: every maximal run of whitespace becomes a single space. */
  function Normalize(s: string): (r: string)
    ensures |r| <= |s|
    decreases |s|
  {
    if |s| == 0 then ""
    else if IsSpace(s[0]) then " " + Normalize(SkipSpaces(s))
    else [s[0]] + Normalize(s[1..])
  }

  /** The only whitespace is a plain space, and no two spaces are adjacent. */
  predicate NormalForm(t: string)
  {
    (forall i :: 0 <= i < |t| && IsSpace(t[i]) ==> t[i] == ' ') &&
    (forall i :: 0 <= i < |t| - 1 && t[i] == ' ' ==> t[i + 1] != ' ')
  }

  /** Normalising keeps whether the text begins with whitespace, and a non-space first character. */
  lemma NormalizeHead(s: string)
    requires |s| > 0
    ensures |Normalize(s)| > 0
    ensures IsSpace(s[0]) ==> Normalize(s)[0] == ' '
    ensures !IsSpace(s[0]) ==> Normalize(s)[0] == s[0]
  {
  }

  lemma {:induction false} NormalizeIsNormal(s: string)
    ensures NormalForm(Normalize(s))
    decreases |s|
  {
    if |s| > 0 {
      if IsSpace(s[0]) {
        var rest := SkipSpaces(s);
        NormalizeIsNormal(rest);
        var t := Normalize(s);
        assert t == " " + Normalize(rest);
        if |rest| > 0 {
          NormalizeHead(rest);
        }
        assert forall i :: 1 <= i < |t| ==> t[i] == Normalize(rest)[i - 1];
      } else {
        NormalizeIsNormal(s[1..]);
        var t := Normalize(s);
        assert t == [s[0]] + Normalize(s[1..]);
        assert forall i :: 1 <= i < |t| ==> t[i] == Normalize(s[1..])[i - 1];
      }
    }
  }

  /** Text already in normal form is left unchanged. */
  lemma {:induction false} NormalizeFixesNormalForm(t: string)
    requires NormalForm(t)
    ensures Normalize(t) == t
    decreases |t|
  {
    if |t| > 0 {
      assert NormalForm(t[1..]);
      if IsSpace(t[0]) {
        assert t[0] == ' ';
        assert SkipSpaces(t) == t[1..];
      }
      NormalizeFixesNormalForm(t[1..]);
    }
  }

  /** Normalising twice is the same as normalising once. */
  lemma NormalizeIdempotent(s: string)
    ensures Normalize(Normalize(s)) == Normalize(s)
  {
    NormalizeIsNormal(s);
    NormalizeFixesNormalForm(Normalize(s));
  }

  /** The non-whitespace characters of a text, in order. */
  function Visible(s: string): string
  {
    if |s| == 0 then ""
    else if IsSpace(s[0]) then Visible(s[1..])
    else [s[0]] + Visible(s[1..])
  }

  lemma {:induction false} VisibleSkip(s: string)
    ensures Visible(SkipSpaces(s)) == Visible(s)
    decreases |s|
  {
    if |s| > 0 && IsSpace(s[0]) {
      VisibleSkip(s[1..]);
    }
  }

  /** Normalising only touches whitespace: the visible characters are kept, in order. */
  lemma {:induction false} NormalizeKeepsVisible(s: string)
    ensures Visible(Normalize(s)) == Visible(s)
    decreases |s|
  {
    if |s| > 0 {
      if IsSpace(s[0]) {
        var rest := SkipSpaces(s);
        NormalizeKeepsVisible(rest);
        VisibleSkip(s);
        assert (" " + Normalize(rest))[1..] == Normalize(rest);
      } else {
        NormalizeKeepsVisible(s[1..]);
        assert ([s[0]] + Normalize(s[1..]))[1..] == Normalize(s[1..]);
      }
    }
  }

  /** Rule 1 trigger: an exclusion clause. */
  predicate MentionsExclusion(t: string)
  {
    Contains(t, "면책") || Contains(t, "지급하지 않는") || Contains(t, "보장개시일")
  }

  /** Rule 2 trigger: a reduced-payment period. */
  predicate MentionsReduction(t: string)
  {
    Contains(t, "감액") || Contains(t, "50% 지급") || Contains(t, "1년 미만")
  }

  /** Rule 3 trigger: a renewable rider with changing premiums. */
  predicate MentionsRenewal(t: string)
  {
    Contains(t, "갱신형") || Contains(t, "점차 증가") || Contains(t, "변동될 수")
  }

  /** Rule 4 trigger: a "critical illness" definition. */
  predicate MentionsCriticalIllness(t: string)
  {
    Contains(t, "중대한") && (Contains(t, "치명적") || Contains(t, "영구적"))
  }

  const ExclusionWaiting := PolicyRisk("risk-exclusion-90", Critical)
  const ExclusionGeneral := PolicyRisk("risk-exclusion-general", Warning)
  const ReductionYear := PolicyRisk("risk-reduction-year", Warning)
  const RenewalRider := PolicyRisk("risk-renewal", Info)
  const CriticalIllnessDefinition := PolicyRisk("risk-ci-definition", Critical)

  /** The risks raised by the four rules' verdicts, at most one per rule, in rule order. */
  function RuleRisks(exclusion: bool, ninetyDays: bool, reduction: bool, renewal: bool, illness: bool): seq<PolicyRisk>
  {
    (if exclusion then (if ninetyDays then [ExclusionWaiting] else [ExclusionGeneral]) else []) +
    (if reduction then [ReductionYear] else []) +
    (if renewal then [RenewalRider] else []) +
    (if illness then [CriticalIllnessDefinition] else [])
  }

  /** The position of a risk's rule in the source (both exclusions are rule 1); 0 for any other risk. */
  function RuleOf(x: PolicyRisk): int
  {
    if x == ExclusionWaiting || x == ExclusionGeneral then 1
    else if x == ReductionYear then 2
    else if x == RenewalRider then 3
    else if x == CriticalIllnessDefinition then 4
    else 0
  }

  /**
   * The rules only ever raise their own five risks, in rule order, and
   * raise nothing when no rule fires.
   */
  lemma RuleRisksOrdered(exclusion: bool, ninetyDays: bool, reduction: bool, renewal: bool, illness: bool)
    ensures var r := RuleRisks(exclusion, ninetyDays, reduction, renewal, illness);
      (forall x :: x in r ==> x in {ExclusionWaiting, ExclusionGeneral, ReductionYear, RenewalRider, CriticalIllnessDefinition}) &&
      (forall i, j :: 0 <= i < j < |r| ==> RuleOf(r[i]) < RuleOf(r[j])) &&
      (!exclusion && !reduction && !renewal && !illness ==> r == [])
  {
    IdLengths();
  }

  /** `analyzePolicyRisks`: at most one risk per rule, only the five known ones, in rule order. */
  function AnalyzePolicyRisks(text: string): (r: seq<PolicyRisk>)
    ensures |r| <= 4
    ensures forall x :: x in r ==> x in {ExclusionWaiting, ExclusionGeneral, ReductionYear, RenewalRider, CriticalIllnessDefinition}
    ensures forall i, j :: 0 <= i < j < |r| ==> RuleOf(r[i]) < RuleOf(r[j])
  {
    var t := Normalize(text);
    RuleRisksOrdered(MentionsExclusion(t), Contains(t, "90일"), MentionsReduction(t), MentionsRenewal(t),
                     MentionsCriticalIllness(t));
    RuleRisks(MentionsExclusion(t), Contains(t, "90일"), MentionsReduction(t), MentionsRenewal(t),
              MentionsCriticalIllness(t))
  }

  /** Each rule's risk is present exactly when its verdict holds. */
  lemma RuleRisksMeaning(exclusion: bool, ninetyDays: bool, reduction: bool, renewal: bool, illness: bool)
    ensures var r := RuleRisks(exclusion, ninetyDays, reduction, renewal, illness);
      (ExclusionWaiting in r <==> exclusion && ninetyDays) &&
      (ExclusionGeneral in r <==> exclusion && !ninetyDays) &&
      (ReductionYear in r <==> reduction) &&
      (RenewalRider in r <==> renewal) &&
      (CriticalIllnessDefinition in r <==> illness)
  {
    IdLengths();
  }

  /** The five ids have five different lengths, so no two of them are equal. */
  lemma IdLengths()
    ensures |ExclusionWaiting.id| == 17 && |ExclusionGeneral.id| == 22 && |ReductionYear.id| == 19
    ensures |RenewalRider.id| == 12 && |CriticalIllnessDefinition.id| == 18
  {
  }

  /** No two risks share an id. */
  predicate DistinctIds(r: seq<PolicyRisk>)
  {
    forall i, j :: 0 <= i < j < |r| ==> r[i].id != r[j].id
  }

  /** Every id has one of the given lengths. */
  predicate IdLengthsIn(r: seq<PolicyRisk>, lengths: set<int>)
  {
    forall k :: 0 <= k < |r| ==> |r[k].id| in lengths
  }

  /** Appending at most one risk whose id length is new keeps the ids distinct. */
  lemma AppendFresh(r: seq<PolicyRisk>, extra: seq<PolicyRisk>, lengths: set<int>, n: int)
    requires DistinctIds(r) && IdLengthsIn(r, lengths)
    requires |extra| <= 1 && n !in lengths
    requires forall i :: 0 <= i < |extra| ==> |extra[i].id| == n
    ensures DistinctIds(r + extra)
    ensures IdLengthsIn(r + extra, lengths + {n})
  {
    var t := r + extra;
    forall i, j | 0 <= i < j < |t| ensures t[i].id != t[j].id {
      if j >= |r| {
        assert |t[j].id| == n && |t[i].id| in lengths;
      }
    }
  }

  /** No rule's risk shares its id with another's. */
  lemma RuleRisksDistinct(exclusion: bool, ninetyDays: bool, reduction: bool, renewal: bool, illness: bool)
    ensures DistinctIds(RuleRisks(exclusion, ninetyDays, reduction, renewal, illness))
  {
    IdLengths();
    var a := if exclusion then (if ninetyDays then [ExclusionWaiting] else [ExclusionGeneral]) else [];
    var b := if reduction then [ReductionYear] else [];
    var c := if renewal then [RenewalRider] else [];
    var d := if illness then [CriticalIllnessDefinition] else [];
    assert IdLengthsIn(a, {17, 22});
    AppendFresh(a, b, {17, 22}, 19);
    AppendFresh(a + b, c, {17, 22} + {19}, 12);
    AppendFresh(a + b + c, d, {17, 22} + {19} + {12}, 18);
  }

  /**
   * Each risk is reported exactly when its rule's keywords occur in the
   * normalised text; the 90-day and the general exclusion are alternatives;
   * no risk is reported twice; nothing else is reported, the risks come in
   * rule order, and a text that fires no rule gets an empty list.
   */
  lemma PolicyRisksMeaning(text: string)
    ensures var t := Normalize(text);
      (ExclusionWaiting in AnalyzePolicyRisks(text) <==> MentionsExclusion(t) && Contains(t, "90일")) &&
      (ExclusionGeneral in AnalyzePolicyRisks(text) <==> MentionsExclusion(t) && !Contains(t, "90일")) &&
      (ReductionYear in AnalyzePolicyRisks(text) <==> MentionsReduction(t)) &&
      (RenewalRider in AnalyzePolicyRisks(text) <==> MentionsRenewal(t)) &&
      (CriticalIllnessDefinition in AnalyzePolicyRisks(text) <==> MentionsCriticalIllness(t))
    ensures DistinctIds(AnalyzePolicyRisks(text))
    ensures forall x :: x in AnalyzePolicyRisks(text) ==>
      x in {ExclusionWaiting, ExclusionGeneral, ReductionYear, RenewalRider, CriticalIllnessDefinition}
    ensures forall i, j :: 0 <= i < j < |AnalyzePolicyRisks(text)| ==>
      RuleOf(AnalyzePolicyRisks(text)[i]) < RuleOf(AnalyzePolicyRisks(text)[j])
    ensures var t := Normalize(text);
      !MentionsExclusion(t) && !MentionsReduction(t) && !MentionsRenewal(t) && !MentionsCriticalIllness(t) ==>
      AnalyzePolicyRisks(text) == []
  {
    var t := Normalize(text);
    RuleRisksOrdered(MentionsExclusion(t), Contains(t, "90일"), MentionsReduction(t), MentionsRenewal(t),
                     MentionsCriticalIllness(t));
    RuleRisksMeaning(MentionsExclusion(t), Contains(t, "90일"), MentionsReduction(t), MentionsRenewal(t),
                     MentionsCriticalIllness(t));
    RuleRisksDistinct(MentionsExclusion(t), Contains(t, "90일"), MentionsReduction(t), MentionsRenewal(t),
                      MentionsCriticalIllness(t));
  }

  /** Whitespace layout does not matter: the analysis of a text equals that of its normal form. */
  lemma AnalysisIgnoresLayout(text: string)
    ensures AnalyzePolicyRisks(Normalize(text)) == AnalyzePolicyRisks(text)
  {
    NormalizeIdempotent(text);
  }

  /** An empty document raises no risk. */
  lemma EmptyTextNoRisks()
    ensures AnalyzePolicyRisks("") == []
  {
    EmptyContainsOnlyEmpty("면책");
    EmptyContainsOnlyEmpty("지급하지 않는");
    EmptyContainsOnlyEmpty("보장개시일");
    EmptyContainsOnlyEmpty("감액");
    EmptyContainsOnlyEmpty("50% 지급");
    EmptyContainsOnlyEmpty("1년 미만");
    EmptyContainsOnlyEmpty("갱신형");
    EmptyContainsOnlyEmpty("점차 증가");
    EmptyContainsOnlyEmpty("변동될 수");
    EmptyContainsOnlyEmpty("중대한");
  }

  /** Text without any whitespace character. */
  predicate Solid(s: string)
  {
    forall i :: 0 <= i < |s| ==> !IsSpace(s[i])
  }

  /** A whitespace-free prefix passes through normalisation untouched. */
  lemma {:induction false} NormalizeSolidPrefix(a: string, q: string)
    requires Solid(a)
    ensures Normalize(a + q) == a + Normalize(q)
    decreases |a|
  {
    if |a| > 0 {
      assert (a + q)[1..] == a[1..] + q;
      assert Solid(a[1..]);
      NormalizeSolidPrefix(a[1..], q);
    } else {
      assert a + q == q;
    }
  }

  /** Skipping a whitespace run stops at the first non-space character. */
  lemma {:induction false} SkipSpaceRun(ws: string, b: string)
    requires forall i :: 0 <= i < |ws| ==> IsSpace(ws[i])
    requires |b| > 0 ==> !IsSpace(b[0])
    ensures SkipSpaces(ws + b) == b
    decreases |ws|
  {
    if |ws| > 0 {
      assert (ws + b)[1..] == ws[1..] + b;
      SkipSpaceRun(ws[1..], b);
    } else {
      assert ws + b == b;
    }
  }

  /** Between two whitespace-free words, any run of whitespace becomes exactly one space. */
  lemma SpaceRunCollapses(a: string, ws: string, b: string)
    requires Solid(a) && Solid(b)
    requires |ws| > 0 && forall i :: 0 <= i < |ws| ==> IsSpace(ws[i])
    ensures Normalize(a + ws + b) == a + " " + b
  {
    assert a + ws + b == a + (ws + b);
    NormalizeSolidPrefix(a, ws + b);
    SkipSpaceRun(ws, b);
    assert (ws + b)[0] == ws[0];
    NormalizeFixesNormalForm(b);
  }

  /**
   * A keyword broken across lines (or by any whitespace run) still matches
   * once the text is normalised: "50%", a line break, "지급" is a reduction clause.
   */
  lemma LineBreakInKeywordStillMatches(ws: string)
    requires |ws| > 0 && forall i :: 0 <= i < |ws| ==> IsSpace(ws[i])
    ensures ReductionYear in AnalyzePolicyRisks("50%" + ws + "지급")
  {
    assert Solid("50%") by {
      assert forall i :: 0 <= i < 3 ==> "50%"[i] as int < 0x40;
    }
    assert Solid("지급") by {
      assert forall i :: 0 <= i < 2 ==> 0xAC00 <= "지급"[i] as int <= 0xD7A3;
    }
    var text := "50%" + ws + "지급";
    SpaceRunCollapses("50%", ws, "지급");
    ContainsAt("50% 지급", "50% 지급", 0);
    assert MentionsReduction(Normalize(text));
    RuleRisksMeaning(MentionsExclusion(Normalize(text)), Contains(Normalize(text), "90일"), true,
                     MentionsRenewal(Normalize(text)), MentionsCriticalIllness(Normalize(text)));
  }
}

=== FILE: retirement_chart.dfy ===
/**
 * The net-worth projection behind the retirement chart
 * (src/components/RetirementChart.tsx). Starting from today's assets, each
 * year from the current age to 90 grows the balance at the real rate of
 * return (5% nominal over 3% inflation) and adds that year's cash flow:
 * the annual savings while working, the pension minus expenses once
 * retired. Every fifth age, the current age and the retirement age are
 * plotted, rounded to whole units.
 */
module RetirementChart {
  import opened Common
  import opened Types

  const InvestmentRate: real := 0.05
  const InflationRate: real := 0.03
  const EndAge: int := 90

  /** `(1 + investmentRate) / (1 + inflationRate) - 1`, which is 2/103. */
  const RealRate: real := (1.0 + InvestmentRate) / (1.0 + InflationRate) - 1.0

  /** One plotted point: the age and the rounded projected net worth. */
  datatype ChartPoint = ChartPoint(rawAge: int, netWorth: int)

  /** The cash flow added in the year the person is `age`. */
  function YearlyFlow(fs: FinanceState, age: int): real
  {
    if age >= fs.retirementAge then -(fs.currentExpenses * 12.0) + fs.nationalPension * 12.0
    else fs.AnnualSavings()
  }

  /** One loop iteration: `netWorth * (1 + realRate) + yearlyFlow`. */
  function Step(netWorth: real, fs: FinanceState, age: int): real
  {
    netWorth * (1.0 + RealRate) + YearlyFlow(fs, age)
  }

  /** The ages that get a point on the chart. */
  predicate Sampled(fs: FinanceState, age: int)
  {
    age % 5 == 0 || age == fs.age || age == fs.retirementAge
  }

  /** The loop from `age` to 90, carrying the balance `netWorth` accumulated so far. */
  function Project(fs: FinanceState, age: int, netWorth: real): seq<ChartPoint>
    decreases EndAge + 1 - age
  {
    if age > EndAge then []
    else
      var next := Step(netWorth, fs, age);
      (if Sampled(fs, age) then [ChartPoint(age, Round(next))] else []) + Project(fs, age + 1, next)
  }

  /**
   * The chart data. Requires that no live-priced position lists are attached:
   * `Object.values(assets)` would otherwise add arrays to numbers, which
   * JavaScript evaluates as string concatenation.
   */
  function RetirementProjection(fs: FinanceState): seq<ChartPoint>
    requires fs.assets.Untracked()
  {
    Project(fs, fs.age, fs.assets.ManualTotal())
  }

  /**
   * Reference definition: the balance after the iteration for `age`, having
   * started the loop at `from` with `start`.
   */
  function Balance(fs: FinanceState, from: int, start: real, age: int): real
    decreases age - from
  {
    if age < from then start else Step(Balance(fs, from, start, age - 1), fs, age)
  }

  /** The real rate is 2/103, strictly between 0 and the nominal rate. */
  lemma RealRateValue()
    ensures RealRate == 2.0 / 103.0
    ensures 0.0 < RealRate < InvestmentRate
  {
  }

  /** Starting one year later from the balance after the first year gives the same balances. */
  lemma {:induction false} BalanceShift(fs: FinanceState, from: int, start: real, age: int)
    requires from <= age
    ensures Balance(fs, from + 1, Step(start, fs, from), age) == Balance(fs, from, start, age)
    decreases age - from
  {
    if age > from {
      BalanceShift(fs, from, start, age - 1);
    }
  }

  /** A point exists for `age`. */
  predicate HasPointAt(points: seq<ChartPoint>, age: int)
  {
    exists i :: 0 <= i < |points| && points[i].rawAge == age
  }

  /** Every point lies in [from, 90], is a sampled age, and shows the rounded reference balance. */
  predicate PointsFaithful(fs: FinanceState, from: int, start: real, points: seq<ChartPoint>)
  {
    forall i :: 0 <= i < |points| ==>
      from <= points[i].rawAge <= EndAge && Sampled(fs, points[i].rawAge) &&
      points[i].netWorth == Round(Balance(fs, from, start, points[i].rawAge))
  }

  /** Points in strictly increasing age order. */
  predicate AgesAscending(points: seq<ChartPoint>)
  {
    forall i, j :: 0 <= i < j < |points| ==> points[i].rawAge < points[j].rawAge
  }

  lemma {:induction false} ProjectFaithful(fs: FinanceState, from: int, start: real)
    ensures PointsFaithful(fs, from, start, Project(fs, from, start))
    decreases EndAge + 1 - from
  {
    if from <= EndAge {
      var next := Step(start, fs, from);
      var head := if Sampled(fs, from) then [ChartPoint(from, Round(next))] else [];
      var rest := Project(fs, from + 1, next);
      ProjectFaithful(fs, from + 1, next);
      assert Project(fs, from, start) == head + rest;
      forall i | 0 <= i < |rest|
        ensures rest[i].netWorth == Round(Balance(fs, from, start, rest[i].rawAge))
      {
        BalanceShift(fs, from, start, rest[i].rawAge);
      }
      assert Balance(fs, from, start, from) == next;
    }
  }

  lemma {:induction false} ProjectAscending(fs: FinanceState, from: int, start: real)
    ensures AgesAscending(Project(fs, from, start))
    decreases EndAge + 1 - from
  {
    if from <= EndAge {
      var next := Step(start, fs, from);
      var head := if Sampled(fs, from) then [ChartPoint(from, Round(next))] else [];
      var rest := Project(fs, from + 1, next);
      ProjectAscending(fs, from + 1, next);
      ProjectFaithful(fs, from + 1, next);
      assert Project(fs, from, start) == head + rest;
    }
  }

  lemma {:induction false} ProjectCovers(fs: FinanceState, from: int, start: real)
    ensures forall age :: from <= age <= EndAge && Sampled(fs, age) ==> HasPointAt(Project(fs, from, start), age)
    decreases EndAge + 1 - from
  {
    if from <= EndAge {
      var next := Step(start, fs, from);
      var head := if Sampled(fs, from) then [ChartPoint(from, Round(next))] else [];
      var rest := Project(fs, from + 1, next);
      var points := Project(fs, from, start);
      ProjectCovers(fs, from + 1, next);
      assert points == head + rest;
      forall age | from <= age <= EndAge && Sampled(fs, age)
        ensures HasPointAt(points, age)
      {
        if age == from {
          assert points[0].rawAge == age;
        } else {
          var k :| 0 <= k < |rest| && rest[k].rawAge == age;
          assert points[k + |head|] == rest[k];
        }
      }
    }
  }

  /**
   * The chart has a point exactly for each sampled age from the current age
   * to 90, in age order, each showing the rounded balance of the year-by-year
   * recurrence; it starts at the current age and is empty only past 90.
   */
  lemma RetirementProjectionMeaning(fs: FinanceState)
    requires fs.assets.Untracked()
    ensures PointsFaithful(fs, fs.age, fs.assets.ManualTotal(), RetirementProjection(fs))
    ensures AgesAscending(RetirementProjection(fs))
    ensures forall age :: fs.age <= age <= EndAge && Sampled(fs, age) ==> HasPointAt(RetirementProjection(fs), age)
    ensures |RetirementProjection(fs)| > 0 <==> fs.age <= EndAge
    ensures fs.age <= EndAge ==> RetirementProjection(fs)[0].rawAge == fs.age
  {
    ProjectFaithful(fs, fs.age, fs.assets.ManualTotal());
    ProjectAscending(fs, fs.age, fs.assets.ManualTotal());
    ProjectCovers(fs, fs.age, fs.assets.ManualTotal());
  }

  /** A larger starting balance never gives a smaller later balance. */
  lemma {:induction false} BalanceMonotone(fs: FinanceState, from: int, lo: real, hi: real, age: int)
    requires lo <= hi
    ensures Balance(fs, from, lo, age) <= Balance(fs, from, hi, age)
    decreases age - from
  {
    if age >= from {
      BalanceMonotone(fs, from, lo, hi, age - 1);
      var a := Balance(fs, from, lo, age - 1);
      var b := Balance(fs, from, hi, age - 1);
      assert a * (1.0 + RealRate) <= b * (1.0 + RealRate);
    }
  }

  /** More assets today: the same ages are plotted, none with a lower value. */
  lemma MoreAssetsNeverLowerChart(fs: FinanceState, extraCash: real)
    requires fs.assets.Untracked() && extraCash >= 0.0
    ensures var richer := fs.(assets := fs.assets.(cash := fs.assets.cash + extraCash));
      |RetirementProjection(richer)| == |RetirementProjection(fs)| &&
      forall i :: 0 <= i < |RetirementProjection(fs)| ==>
        RetirementProjection(richer)[i].rawAge == RetirementProjection(fs)[i].rawAge &&
        RetirementProjection(richer)[i].netWorth >= RetirementProjection(fs)[i].netWorth
  {
    var richer := fs.(assets := fs.assets.(cash := fs.assets.cash + extraCash));
    SameAgesAnyStart(fs, richer, fs.age, fs.assets.ManualTotal(), richer.assets.ManualTotal());
    ProjectFaithful(fs, fs.age, fs.assets.ManualTotal());
    ProjectFaithful(richer, fs.age, richer.assets.ManualTotal());
    forall i | 0 <= i < |RetirementProjection(fs)|
      ensures RetirementProjection(richer)[i].netWorth >= RetirementProjection(fs)[i].netWorth
    {
      var age := RetirementProjection(fs)[i].rawAge;
      BalanceMonotone(fs, fs.age, fs.assets.ManualTotal(), richer.assets.ManualTotal(), age);
      SameFlowsSameBalance(fs, richer, fs.age, richer.assets.ManualTotal(), age);
      RoundMonotone(Balance(fs, fs.age, fs.assets.ManualTotal(), age), Balance(richer, fs.age, richer.assets.ManualTotal(), age));
    }
  }

  /** Two states with the same current age, retirement age, income, expenses and pension. */
  predicate SameFlows(a: FinanceState, b: FinanceState)
  {
    a.age == b.age && a.retirementAge == b.retirementAge && a.currentIncome == b.currentIncome &&
    a.currentExpenses == b.currentExpenses && a.nationalPension == b.nationalPension
  }

  lemma {:induction false} SameFlowsSameBalance(a: FinanceState, b: FinanceState, from: int, start: real, age: int)
    requires SameFlows(a, b)
    ensures Balance(a, from, start, age) == Balance(b, from, start, age)
    decreases age - from
  {
    if age >= from {
      SameFlowsSameBalance(a, b, from, start, age - 1);
    }
  }

  /** The plotted ages depend only on the flows, not on the starting balance. */
  lemma {:induction false} SameAgesAnyStart(a: FinanceState, b: FinanceState, from: int, startA: real, startB: real)
    requires SameFlows(a, b)
    ensures |Project(a, from, startA)| == |Project(b, from, startB)|
    ensures forall i :: 0 <= i < |Project(a, from, startA)| ==>
      Project(a, from, startA)[i].rawAge == Project(b, from, startB)[i].rawAge
    decreases EndAge + 1 - from
  {
    if from <= EndAge {
      SameAgesAnyStart(a, b, from + 1, Step(startA, a, from), Step(startB, b, from));
    }
  }

  /**
   * Planned life events and the target monthly income play no part in the
   * projection; only ages, income, expenses, pension and assets do.
   */
  lemma ProjectionIgnoresEventsAndTarget(fs: FinanceState, events: seq<LifeEvent>, target: real)
    requires fs.assets.Untracked()
    ensures RetirementProjection(fs.(lifeEvents := events, targetMonthlyIncome := target)) == RetirementProjection(fs)
  {
    var other := fs.(lifeEvents := events, targetMonthlyIncome := target);
    SameProjection(fs, other, fs.age, fs.assets.ManualTotal());
  }

  lemma {:induction false} SameProjection(a: FinanceState, b: FinanceState, from: int, start: real)
    requires SameFlows(a, b)
    ensures Project(a, from, start) == Project(b, from, start)
    decreases EndAge + 1 - from
  {
    if from <= EndAge {
      SameProjection(a, b, from + 1, Step(start, a, from));
    }
  }

  /** From the retirement age on, each year adds the pension minus the expenses, twelvefold. */
  lemma RetiredYearFlow(fs: FinanceState, age: int)
    requires age >= fs.retirementAge
    ensures Step(0.0, fs, age) == 12.0 * (fs.nationalPension - fs.currentExpenses)
  {
  }
}

=== FILE: score_card.dfy ===
/**
 * The headline score badge (src/components/ScoreCard.tsx): 80 and above is
 * safe, 50 and above a warning, anything lower dangerous. Read together
 * with the gap analysis of src/lib/data.ts, the badge bounds what the gap
 * count can be.
 */
module ScoreCard {
  import opened Common
  import opened Types
  import opened Data

  /** The three badges; the middle one is labelled "Warning" in the interface. */
  datatype Status = Safe | Caution | Danger

  /** `getStatus` */
  function StatusOf(score: int): Status
  {
    if score >= 80 then Safe else if score >= 50 then Caution else Danger
  }

  /**
   * The three badges partition the scores; each boundary (80 and 50)
   * belongs to the better badge.
   */
  lemma StatusBands(score: int)
    ensures StatusOf(score) == Safe <==> score >= 80
    ensures StatusOf(score) == Caution <==> 50 <= score < 80
    ensures StatusOf(score) == Danger <==> score < 50
    ensures StatusOf(80) == Safe && StatusOf(79) == Caution && StatusOf(50) == Caution && StatusOf(49) == Danger
  {
  }

  /** A higher score never shows a worse badge. */
  lemma StatusMonotone(a: int, b: int)
    requires a <= b
    ensures StatusOf(a) == Safe ==> StatusOf(b) == Safe
    ensures StatusOf(b) == Danger ==> StatusOf(a) == Danger
  {
  }

  /**
   * Each category under 70% of the standard earns under 14 points and every
   * other one earns 14 to 20 (for non-negative cover), so the unrounded
   * score is at most 20 per key less 6 per gap, and at least 14 per key
   * that is not a gap.
   */
  lemma {:induction false} ContributionBounds(user: Coverage, standard: Coverage, keys: seq<Category>)
    requires standard.Positive()
    ensures ContributionSum(user, standard, keys) <= 20.0 * |keys| as real - 6.0 * |GapsIn(user, standard, keys)| as real
    ensures user.NonNegative() ==>
      ContributionSum(user, standard, keys) >= 14.0 * (|keys| - |GapsIn(user, standard, keys)|) as real
    decreases |keys|
  {
    if |keys| > 0 {
      ContributionBounds(user, standard, keys[1..]);
      var k := keys[0];
      var ratio := Ratio(user.Get(k), standard.Get(k));
      assert IsGap(user, standard, k) <==> ratio < 0.7;
    }
  }

  /**
   * With non-negative cover and no gap the score is at least 70, so the
   * badge is never red; with four or more gaps the score is at most 76, so
   * the badge is never green.
   */
  lemma BadgeAgainstGaps(user: Coverage, standard: Coverage)
    requires standard.Positive()
    ensures user.NonNegative() && CalculateGapScore(user, standard).gapCount == 0 ==>
      CalculateGapScore(user, standard).score >= 70 && StatusOf(CalculateGapScore(user, standard).score) != Danger
    ensures CalculateGapScore(user, standard).gapCount >= 4 ==>
      CalculateGapScore(user, standard).score <= 76 && StatusOf(CalculateGapScore(user, standard).score) != Safe
  {
    GapScoreMeaning(user, standard);
    ContributionBounds(user, standard, Categories);
    var sum := ContributionSum(user, standard, Categories);
    var gaps := |GapsIn(user, standard, Categories)|;
    if user.NonNegative() && gaps == 0 {
      RoundMonotone(70.0, sum);
      RoundOfInt(70);
    }
    if gaps >= 4 {
      RoundMonotone(sum, 76.0);
      RoundOfInt(76);
    }
  }

  /** No cover at all is dangerous; meeting every standard is safe. */
  lemma BadgeExtremes(standard: Coverage, full: Coverage)
    requires standard.Positive()
    requires forall c :: full.Get(c) >= standard.Get(c)
    ensures StatusOf(CalculateGapScore(Coverage(0.0, 0.0, 0.0, 0.0, 0.0), standard).score) == Danger
    ensures StatusOf(CalculateGapScore(full, standard).score) == Safe
  {
    GapScoreExtremes(standard, full);
  }
}

=== FILE: sorting.dfy ===
/**
 * `Array.prototype.sort` with a numeric comparator `(a, b) => key(a) - key(b)`,
 * which ECMAScript 2019 and later require to be stable. Modelled as a stable
 * insertion sort over an integer key: the result is ordered by key, is a
 * permutation of the input, and keeps the input order among equal keys.
 */
module Sorting {

  /** Ordered by non-decreasing key. */
  predicate SortedBy<T>(xs: seq<T>, key: T -> int)
  {
    forall i, j :: 0 <= i < j < |xs| ==> key(xs[i]) <= key(xs[j])
  }

  /** The elements whose key is `k`, in their original order. */
  function WithKey<T>(xs: seq<T>, key: T -> int, k: int): (r: seq<T>)
    ensures |r| <= |xs|
    ensures forall i :: 0 <= i < |r| ==> key(r[i]) == k
  {
    if |xs| == 0 then []
    else if key(xs[0]) == k then [xs[0]] + WithKey(xs[1..], key, k)
    else WithKey(xs[1..], key, k)
  }

  /** Place `x` in front of the first element whose key is not smaller than its own. */
  function Insert<T>(x: T, xs: seq<T>, key: T -> int): (r: seq<T>)
    ensures |r| == |xs| + 1
    ensures multiset(r) == multiset(xs) + multiset{x}
  {
    if |xs| == 0 || key(x) <= key(xs[0]) then [x] + xs
    else
      assert xs == [xs[0]] + xs[1..];
      [xs[0]] + Insert(x, xs[1..], key)
  }

  /** The stable sort: each element is inserted ahead of the equal-keyed elements that follow it. */
  function Sort<T>(xs: seq<T>, key: T -> int): (r: seq<T>)
    ensures |r| == |xs|
    ensures multiset(r) == multiset(xs)
  {
    if |xs| == 0 then []
    else
      assert xs == [xs[0]] + xs[1..];
      Insert(xs[0], Sort(xs[1..], key), key)
  }

  lemma {:induction false} InsertSorted<T>(x: T, xs: seq<T>, key: T -> int)
    requires SortedBy(xs, key)
    ensures SortedBy(Insert(x, xs, key), key)
    decreases |xs|
  {
    if |xs| > 0 && key(x) > key(xs[0]) {
      var rest := xs[1..];
      assert SortedBy(rest, key);
      InsertSorted(x, rest, key);
      var r := Insert(x, xs, key);
      var ins := Insert(x, rest, key);
      assert r == [xs[0]] + ins;
      forall j | 1 <= j < |r| ensures key(xs[0]) <= key(r[j]) {
        assert r[j] == ins[j - 1];
        assert r[j] in multiset(ins);
        assert r[j] == x || r[j] in multiset(rest);
      }
    }
  }

  lemma {:induction false} SortSorted<T>(xs: seq<T>, key: T -> int)
    ensures SortedBy(Sort(xs, key), key)
    decreases |xs|
  {
    if |xs| > 0 {
      SortSorted(xs[1..], key);
      InsertSorted(xs[0], Sort(xs[1..], key), key);
    }
  }

  lemma {:induction false} WithKeyAppend<T>(a: seq<T>, b: seq<T>, key: T -> int, k: int)
    ensures WithKey(a + b, key, k) == WithKey(a, key, k) + WithKey(b, key, k)
    decreases |a|
  {
    if |a| == 0 {
      assert a + b == b;
    } else {
      assert (a + b)[1..] == a[1..] + b;
      WithKeyAppend(a[1..], b, key, k);
    }
  }

  /** Inserting into a sorted list puts `x` ahead of every element with the same key. */
  lemma {:induction false} InsertWithKey<T>(x: T, xs: seq<T>, key: T -> int, k: int)
    requires SortedBy(xs, key)
    ensures WithKey(Insert(x, xs, key), key, k) ==
      (if key(x) == k then [x] + WithKey(xs, key, k) else WithKey(xs, key, k))
    decreases |xs|
  {
    if |xs| > 0 && key(x) > key(xs[0]) {
      assert SortedBy(xs[1..], key);
      InsertWithKey(x, xs[1..], key, k);
      if key(x) == k {
        assert key(xs[0]) != k;
      }
    }
  }

  /** Among elements of equal key, the sort keeps the input order. */
  lemma {:induction false} SortStable<T>(xs: seq<T>, key: T -> int, k: int)
    ensures WithKey(Sort(xs, key), key, k) == WithKey(xs, key, k)
    decreases |xs|
  {
    if |xs| > 0 {
      SortStable(xs[1..], key, k);
      SortSorted(xs[1..], key);
      InsertWithKey(xs[0], Sort(xs[1..], key), key, k);
    }
  }

  /** An already ordered list is left as it is. */
  lemma {:induction false} SortOfSorted<T>(xs: seq<T>, key: T -> int)
    requires SortedBy(xs, key)
    ensures Sort(xs, key) == xs
    decreases |xs|
  {
    if |xs| > 0 {
      assert SortedBy(xs[1..], key);
      SortOfSorted(xs[1..], key);
    }
  }
}

=== FILE: types.dfy ===
/**
 * The records the calculation layer passes around (src/types/index.ts).
 * Display-only fields (titles, descriptions, colours, timestamps) are left out.
 */
module Types {
  import opened Common

  /** The five keys of a coverage record. */
  datatype Category = Cancer | Brain | Heart | Medical | Death

  /** The key order of a coverage record, which every per-key loop follows. */
  const Categories: seq<Category> := [Cancer, Brain, Heart, Medical, Death]

  /** The property name of a category, as it appears in keyword lists. */
  function KeyName(c: Category): string
  {
    match c
    case Cancer => "cancer"
    case Brain => "brain"
    case Heart => "heart"
    case Medical => "medical"
    case Death => "death"
  }

  /** Amounts of cover per category, in units of ten thousand won. */
  datatype Coverage = Coverage(cancer: real, brain: real, heart: real, medical: real, death: real)
  {
    /** `coverage[key]` */
    function Get(c: Category): real
    {
      match c
      case Cancer => cancer
      case Brain => brain
      case Heart => heart
      case Medical => medical
      case Death => death
    }

    /** `{ ...coverage, [key]: v }` */
    function With(c: Category, v: real): (r: Coverage)
      ensures r.Get(c) == v
      ensures forall d :: d != c ==> r.Get(d) == Get(d)
    {
      match c
      case Cancer => this.(cancer := v)
      case Brain => this.(brain := v)
      case Heart => this.(heart := v)
      case Medical => this.(medical := v)
      case Death => this.(death := v)
    }

    predicate NonNegative()
    {
      forall c :: Get(c) >= 0.0
    }

    predicate Positive()
    {
      forall c :: Get(c) > 0.0
    }
  }

  datatype Gender = Male | Female

  datatype BloodPressure = BloodPressure(systolic: int, diastolic: int)

  /** Biometric inputs; `familyHistory` holds tags such as "cancer", "heart", "brain". */
  datatype HealthMetrics = HealthMetrics(
    bmi: real,
    bloodPressure: BloodPressure,
    glucose: int,
    familyHistory: seq<string>,
    smoking: bool)

  /** A per-category risk score (documented as 0 to 100) with its composite reason. */
  datatype HealthRisk = HealthRisk(category: Category, riskLevel: int, reason: string)

  datatype Priority = High | Medium

  /** An over-coverage reduction proposal; the formatted reason text is not modelled. */
  datatype DietRecommendation = DietRecommendation(
    category: Category,
    currentAmount: real,
    targetAmount: int,
    savingsPotential: int,
    priority: Priority)

  datatype RiskLevel = Critical | Warning | Info

  /** A detected policy clause risk, identified by its fixed id. */
  datatype PolicyRisk = PolicyRisk(id: string, level: RiskLevel)

  /** A live-priced holding. */
  datatype TrackedAsset = TrackedAsset(id: string, symbol: string, quantity: real, currentPrice: real)

  /** Six numeric asset fields plus two optional tracked-position lists. */
  datatype FinanceAssets = FinanceAssets(
    cash: real,
    stock: real,
    realEstate: real,
    pension: real,
    insurance: real,
    crypto: real,
    trackedStocks: Option<seq<TrackedAsset>>,
    trackedCrypto: Option<seq<TrackedAsset>>)
  {
    /** The sum of the six numeric fields. */
    function ManualTotal(): real
    {
      cash + stock + realEstate + pension + insurance + crypto
    }

    /**
     * No live-priced position lists are attached, so `Object.values` of the
     * record yields only numbers and summing them gives `ManualTotal`.
     */
    predicate Untracked()
    {
      trackedStocks.None? && trackedCrypto.None?
    }
  }

  /** A scheduled one-time expense; `kind` is the event type tag. */
  datatype LifeEvent = LifeEvent(
    id: string,
    kind: string,
    name: string,
    age: int,
    cost: real,
    monthlyCost: Option<real>,
    duration: Option<int>)

  datatype FinanceState = FinanceState(
    name: string,
    age: int,
    birthDate: string,
    retirementAge: int,
    targetMonthlyIncome: real,
    currentIncome: real,
    currentExpenses: real,
    nationalPension: real,
    assets: FinanceAssets,
    lifeEvents: seq<LifeEvent>)
  {
    /** `(currentIncome - currentExpenses) * 12`: savings per year while working. */
    function AnnualSavings(): real
    {
      (currentIncome - currentExpenses) * 12.0
    }
  }

  datatype UserState = UserState(
    name: string,
    age: int,
    birthDate: string,
    gender: Gender,
    coverages: Coverage,
    healthMetrics: Option<HealthMetrics>)

  datatype AnalysisResult = AnalysisResult(score: int, gapCount: int)

  datatype Relation = Self | Spouse | Child | Parent

  datatype FamilyMember = FamilyMember(id: string, name: string, relation: Relation, coverages: Coverage)
}
